=== FILE: README.md ===
# discord-jab core, modelled in Dafny

This project models the deterministic logic of the discord-jab bot. The bot
is a Discord bot that syncs and aggregates data from the Torn game API. The
modelled logic covers:

- the organized-crime reconciler: status mapping, slot parsing, the diff of
  a fetched crime against its stored row, the events and statistics it
  writes, the heartbeat refresh, the next-page offset and the error-code
  extractor used by the crime sync;
- the database layer: schema-version gate, COALESCE-style player and
  faction upserts, history pruning, monthly periods, per-entity rollup and
  territory-ownership summaries with their "already summarised" guard;
- the competition commands: per-participant deltas, rankings and display
  limits, team totals, faction overview, creation checks, participant
  selection with round-robin team assignment, contributor processing, the
  synthesised gym energy stat and the text progress bars;
- the API client: sliding-window rate limit, error-envelope messages and
  the endpoint and parameter builders;
- the API key registry: masking, add and remove, validation metadata,
  permission checks, owner-first/shared-fallback selection and listing,
  plus the faction-key selection used by competitions;
- the small parsers and decisions: mute durations and their display, dice
  notation and rolls, per-server command permissions, the table browser's
  whitelist and paging, the key commands' access rules, and the
  competition row-to-record conversion.

Every table is an immutable value: a `map` for keyed tables, a `seq` for
append-only histories. Every operation is a pure function from the old
state (and its inputs) to the new state and its result. The clock, the
network, SQLite, Discord and random choices are parameters. The helper
modules mirror the Python semantics the code relies on:

- `Wrappers`: `Option` and `Result`;
- `PyText`: `str.lower`, `strip`, `find`, `split` and `join`; `int()` on
  text, with signs, surrounding whitespace and underscore separators;
  `str()` on integers;
- `Json`: decoded JSON values, the dict an object decodes to,
  truthiness, `dict.get`, `a or b` and `int()` on a JSON value;
- `Sorting`: Python's stable sort with `reverse=`;
- `Arith` and `Collections`: arithmetic and sequence/map facts shared by
  the proofs.

Where the code's behaviour is easy to misread, the model follows the
code:

- A crime that turns terminal is deleted and then written again in the same
  pass, because the transition sets `changes_detected`. The row therefore
  stays in the current-state table. Besides the event named after the new
  status, the pass also appends a `status_changed` event.
- A readiness timestamp forces the status "ready" only when the
  lower-cased upstream status is "planning" or "recruiting", not for every
  upstream status.
- Re-processing an unchanged snapshot is not always quiet: joins alone do
  not refresh the stored row (see Findings).
- A participant without a recorded start value gets the delta 0.0 even
  when no current value is known; only a known start with an unknown
  current value gives "no data".
- `TornAPIError` has no `error_code` attribute. Callers therefore recover
  the code from the message text, and the model does the same.

## Model

| member | source | states |
|---|---|---|
| Admin.ParseDurationMatches | commands/admin.py:8-27 | a duration is accepted exactly when, lower-cased, it is one or more digits followed by one of s/m/h/d (a single trailing newline is also accepted, as Python's `$` allows), and its value is the number times 1, 60, 3600 or 86400 seconds |
| Admin.Peel | commands/admin.py:111-122 | one step of the display split: a part is emitted only when the remaining seconds reach the unit, with a non-zero amount, and part plus remainder give back the seconds; the remainder is below the unit |
| Admin.Parts | commands/admin.py:109-124 | the display has no parts exactly when the duration is zero |
| Admin.Clock | commands/admin.py:109-124 | the reference decomposition into days, hours below 24, minutes below 60 and seconds below 60 that recomposes to the total |
| Admin.PartsAreClock | commands/admin.py:109-124 | the displayed parts are the clock decomposition with the zero parts left out, in day-hour-minute-second order |
| Admin.PartsRecompose | commands/admin.py:109-124 | the displayed parts add back up to the duration |
| Admin.PartTextParses | commands/admin.py:8-27 | every displayed part such as "3h" is itself a valid duration worth what it stands for |
| Admin.Display | commands/admin.py:109-126 | the display is "0s" exactly when the duration is zero; otherwise splitting it on spaces gives back exactly the texts of the non-zero day, hour, minute and second parts, in that order |
| Admin.MuteFor | commands/admin.py:88-99 | an invalid duration is refused with the format hint exactly when parsing fails; the mute goes ahead exactly when the parsed duration is at most 28 days, for that many seconds and with that display; a longer one is refused; a duration too large for a Python timedelta ends in the general error reply, exactly when it parses to at least that limit |
| Admin.DefaultMuteIsTenMinutes | commands/admin.py:47-47 | without a duration argument the mute lasts 600 seconds and is shown as "10m" |
| Admin.MuteCeiling | commands/admin.py:92-99 | the 28-day ceiling is inclusive: `n` units mute exactly when they come to at most 28 days, and a longer duration Python can still represent is refused as too long |
| Games.DefaultDiceIsOneSixSided | commands/games.py:9-9 | without an argument the notation asks for one six-sided die |
| Games.ParseDice | commands/games.py:16-47 | notation without a 'd' (ignoring case), or that does not split on 'd' into exactly two pieces, or whose pieces do not both convert, is refused with the format hint; otherwise a count outside 1..100 is refused first, then sides outside 2..1000, and a request within both limits is exactly the count and sides written |
| Games.WrittenDiceReadBack | commands/games.py:23-47 | notation written out from a valid count and side number reads back as exactly those dice |
| Games.MissingCountIsOneDie | commands/games.py:31-31 | "dN" with the count left out rolls one die of N sides |
| Games.SumBounds | commands/games.py:50-51 | rolls between 1 and the number of sides total between one per die and the sides times the number of dice |
| Games.Roll | commands/games.py:49-58 | a refused request answers with exactly the refusal the notation's reading gives (the format hint, the dice range or the sides range); one die shows only its roll, which lies within the sides; several dice show every roll and their sum as the total, within the bounds |
| Games.TotalIsSumOfShown | commands/games.py:50-58 | the total shown with several dice is the sum of the rolls shown, and at least 2 |
| Permissions.Scan | utils/permissions.py:47-75 | the entry scan lets the member through exactly when some entry is unreadable (the lookup raises, which fails open) or admits the member |
| Permissions.CheckCommandPermission | utils/permissions.py:27-83 | outside a server the command is refused as server-only; without a store, when the lookup fails, or when the command has no entries it is allowed; with entries it is refused, naming the command, exactly when every entry is readable and none admits the member |
| Permissions.ScanRefuses | utils/permissions.py:47-78 | the scan refuses exactly when every entry is readable and none admits the member |
| Permissions.Message | utils/permissions.py:28-78 | every refusal carries a non-empty message |
| Permissions.RefusalsReadDifferently | utils/permissions.py:28-78 | the no-permission message never reads like the server-only one, whatever the command is called |
| Permissions.AdminEntryAdmitsAdmins | utils/permissions.py:51-54 | an administrator entry anywhere in the list admits every administrator |
| Permissions.MoreEntriesNeverDeny | utils/permissions.py:47-75 | appending an entry never takes a permission away |
| Permissions.RequireCommandPermission | utils/permissions.py:103-114 | the flag returned is exactly the permission decision, a message is sent exactly on refusal, and it is the refusal's message |
| WebApp.ClampLimit | web_app.py:657-657 | the page size lies in 1..200, equals the request when that is in range, and is the nearer bound otherwise |
| WebApp.TotalPages | web_app.py:668-668 | the page count is the least number of pages of `limit` rows holding every row, and 1 for an empty table |
| WebApp.PagesCoverRows | web_app.py:658-668 | every row of the table lies on exactly one announced page: the page whose offset is at most the row and ends after it |
| WebApp.Columns | web_app.py:669-669 | the column names are the first row's keys, in order |
| WebApp.ApiQuery | web_app.py:644-683 | a page or limit that `int()` rejects is a 400 even without a table; then a missing or empty table is a 400; a named table outside the whitelist is always a 400 naming it; a failing query is a 500; a page carries the rows and count the query gave, the clamped limit, offset (page-1)*limit with no lower clamp on the page, the page count, and the first row's columns |
| WebApp.WhitelistDecides | web_app.py:552-561 | once page and limit read and a table is named, the request is refused exactly when the table is not whitelisted, the refusal names the table, and what the database would answer never changes that decision |
| DbUtils.CompetitionRowToDict | database/db_utils.py:8-29 | a missing or empty row gives no record; a row of fewer than eight values raises; otherwise the record names the first eight values id, name, tracked_stat, start_date, end_date, status, created_at, created_by in that order |
| DbUtils.RecordReadsBack | database/db_utils.py:20-29 | reading any of the eight column names from a record gives back the row's value at that column's position |
| DbUtils.CompetitionRowToDictList | database/db_utils.py:32-41 | the list conversion keeps the length and order, converting row i into record i; a `ShortRow` anywhere in the result stands for the whole call raising its IndexError, since the comprehension stops there and returns no list |
| Gateway.KnownError | torn_api/client.py:22-48 | exactly the codes 0..24 have a documented meaning |
| Gateway.EnvelopeMessage | torn_api/client.py:116-122 | the message is "Torn API Error <code>: " followed by the code's documented text, or "Unknown error code: <code>" for a code without one |
| Gateway.EnvelopeError | torn_api/client.py:113-122 | a non-object error gives no message; a missing code reads as 0; an integer code gives its envelope message; a boolean code prints as True/False and looks up code 1 or 0; every message starts "Torn API Error " |
| Gateway.Recent | torn_api/client.py:73-76 | the kept timestamps are exactly those strictly newer than one minute before now |
| Gateway.CheckRateLimit | torn_api/client.py:67-78 | the pre-flight replaces the key's timestamps by the recent ones, leaves every other key alone, and allows the request exactly when fewer than 100 remain |
| Gateway.RecordRequest | torn_api/client.py:80-82 | recording appends the time to the key's timestamps and changes no other key |
| Gateway.MinuteOldStampEvicted | torn_api/client.py:70-76 | a timestamp exactly one minute old no longer counts |
| Gateway.FreshStampKept | torn_api/client.py:70-76 | a timestamp less than a minute old still counts |
| Gateway.RecentLater | torn_api/client.py:67-78 | evicting at one time and then at a later time is the same as evicting at the later time |
| Gateway.RecentAppend | torn_api/client.py:73-82 | eviction treats an appended timestamp independently of the earlier ones |
| Gateway.Interpret | torn_api/client.py:113-124 | a 200 body is returned as is exactly when it is not an object with an `error` entry; an error object without a code reports code 0, one with an integer code reports that code's message, and a non-object `error` fails with another exception |
| Gateway.MakeRequest | torn_api/client.py:84-129 | a refused pre-flight raises the rate-limit error without sending or recording; otherwise the request goes to the v1 or v2 base URL plus the endpoint with `key` added to the parameters; a response is recorded once it arrives, before its status or body is looked at, so a timeout while reading the body or a body that is not JSON (another exception) is still recorded, while a connection failure or a timeout before the response is not; both timeouts report "Request timeout"; a non-200 status reports "HTTP status: text" and a 200 body is interpreted |
| Gateway.WindowStaysWithinBudget | torn_api/client.py:93-108 | when responses arrive at the time of their pre-flight, a key's window that held at most 100 recent timestamps still does after a request |
| Gateway.Put | torn_api/client.py:103-104 | storing a parameter keeps every other name's entry and grows the list by at most one |
| Gateway.GetAfterPut | torn_api/client.py:103-104 | after storing `v` under a name, that name reads `v` and every other name reads what it did before |
| Gateway.UserCall | torn_api/client.py:131-146 | the user id is appended to the endpoint only when it is given and non-zero; the parameters are empty exactly when there are no selections, and otherwise `selections` is the selections joined with commas; the v1 API is used |
| Gateway.FactionCall | torn_api/client.py:148-177 | the faction id is appended only when given and non-zero; `selections` is the selections joined with commas, sent exactly when there are any; `stat` is sent, with the value given, exactly when non-empty; the requested API version is used |
| Gateway.FactionCrimesCall | torn_api/client.py:249-281 | the faction crimes call goes to the v2 `faction/crimes` endpoint |
| Gateway.FactionCrimesParams | torn_api/client.py:270-278 | `offset` and `from` are sent whenever given, zero included, and `sort` and `cat` only when non-empty, each with the value given |
| Gateway.SelectionsRecoverable | torn_api/client.py:143-144 | selections without commas are recovered by splitting the joined parameter on commas |
| Keys.MetaOf | torn_api/key_manager.py:125-127 | the metadata is absent exactly when the alias is not registered, and otherwise belongs to an entry with that alias |
| Keys.MetaOfEntry | torn_api/key_manager.py:125-127 | with unique aliases, looking an entry's alias up gives that entry's metadata |
| Keys.KeyValue | torn_api/key_manager.py:46-55 | a key value is found only for a registered alias whose environment variable is named and set |
| Keys.MaskKey | torn_api/key_manager.py:40-44 | a key of at most four characters shows as "****"; a longer one shows as masking characters followed by exactly its last four characters, nothing else of the key |
| Keys.AddKey | torn_api/key_manager.py:57-83 | a taken alias is refused first, then an unset or empty environment variable; otherwise exactly one entry is appended, with access level "Unknown", no permissions and no validation time, and the earlier entries are unchanged |
| Keys.AddKeyKeepsWellFormed | torn_api/key_manager.py:57-83 | adding a key keeps aliases unique, and the new alias then reads back its metadata and key value |
| Keys.Without | torn_api/key_manager.py:117-123 | deleting an alias keeps exactly the entries with another alias, never more than there were |
| Keys.WithoutKeepsOrder | torn_api/key_manager.py:117-123 | the entries kept are the registry's entries with another alias in their original order, duplicates kept: the reference filter, and a strictly increasing choice of positions that skips exactly the removed alias |
| Keys.RemoveKey | torn_api/key_manager.py:117-123 | an unregistered alias is refused with "not found"; otherwise the alias is gone and every other entry is kept |
| Keys.RemoveKeyKeepsOrder | torn_api/key_manager.py:117-123 | a successful removal keeps every other entry in its original order |
| Keys.RemoveUndoesAdd | torn_api/key_manager.py:57-123 | adding a key and then removing it gives back the registry as it was |
| Keys.UnknownAliasHasNoPermission | torn_api/key_manager.py:150-152 | an unregistered alias has no permission for any selection |
| Keys.HasPermissionMeaning | torn_api/key_manager.py:144-173 | an alias may make a request exactly when it is registered and holds the wildcard, full access, the selection itself, or the selection's category (the dot-free text before its first '.') |
| Keys.CategoryCoversSubselections | torn_api/key_manager.py:162-167 | a permitted category grants every selection "category.rest" under it |
| Keys.FirstUsable | torn_api/key_manager.py:182-191 | the scan finds the first entry from the starting point owned by the owner with permission for the selection, or reports that there is none |
| Keys.FindKeyForRequest | torn_api/key_manager.py:175-193 | a found key is the user's own or a shared key with permission; when the user has a suitable key, the first one in registry order is chosen; nothing is found exactly when no owned or shared key has permission |
| Keys.SharedFallback | torn_api/key_manager.py:187-191 | without a suitable key of their own, the user gets the first suitable shared key |
| Keys.VisibleEntries | torn_api/key_manager.py:132-133 | the entries kept are exactly those the user owns or that are shared |
| Keys.VisibleEntriesKeepOrder | torn_api/key_manager.py:132-133 | the visible entries come in registry order, duplicates kept, and every entry the user owns or that is shared is among them |
| Keys.ListKeysForUser | torn_api/key_manager.py:129-142 | the listing has a masked row for every key the user owns or that is shared, and no other row |
| Keys.ListingKeepsOrder | torn_api/key_manager.py:129-142 | the listing has one masked row per visible key, in registry order, and no other row |
| Keys.FoundKeyIsListed | torn_api/key_manager.py:129-193 | a key chosen for a user's request appears in that user's listing |
| Keys.Replace | torn_api/key_manager.py:97-100 | updating an alias replaces that entry's metadata in place and keeps every other entry and the order |
| Keys.ValidateKey | torn_api/key_manager.py:85-115 | an unknown alias is refused, then a missing or empty key value; an API error reports its message and changes nothing; another exception propagates; success stores the reported access level (default "Unknown"), permissions (default none) and the time, and reports the same values |
| Keys.ValidatedPermissionsApply | torn_api/key_manager.py:85-173 | after a successful validation every category the API reported is granted |
| KeyCommands.OwnerFor | commands/torn.py:42-43 | a new key belongs to the invoker unless an owner is named, and then to the owner named |
| KeyCommands.KeyTypeFor | commands/torn.py:45-45 | a key's type is "shared" exactly when its owner is "shared", and "user" otherwise |
| KeyCommands.KeyAdd | commands/torn.py:23-84 | only an administrator may add a key; a refusal by the registry is reported as it is; an added key is registered under the chosen owner and type, validation keeps both, and the result is exactly the registry's validation of the key just added; showing a successful validation raises, and the error reply is sent, exactly when the reply had no selections; when validation raises after the key was saved (a missing key value, or another exception from the API), the key stays registered and the command ends in its error reply |
| KeyCommands.ValidateKeepsOwner | torn_api/key_manager.py:96-100 | validation rewrites access level, permissions and time but never the key's owner or type |
| KeyCommands.KeyRemove | commands/torn.py:90-129 | an unknown alias is "not found"; a key is refused exactly when the invoker neither owns it nor administers the server; otherwise the result is exactly the registry's removal of that alias: every entry with another alias stays and the alias is gone |
| KeyCommands.KeyCheck | commands/torn.py:177-230 | an unknown alias is "not found"; a key is refused exactly when the invoker neither owns it, nor it is shared, nor the invoker administers the server; a key never validated makes the display raise and ends in the error reply; otherwise it is shown with its owner, type, access level, validation time, the first 15 permission categories (all of them when there are fewer) and masked key, or "Not found" when the key value is missing or empty |
| KeyCommands.FreshKeyCheckFails | commands/torn.py:177-230 | a key added and not yet validated cannot be shown by key-check, whoever may inspect it |
| KeyCommands.KeyValidate | commands/torn.py:236-292 | the same access rule as key-check; for an allowed key the command validates exactly when the registry's validation succeeds, with that result, and is refused with the registry's problem otherwise; showing a successful validation raises, and the error reply is sent, exactly when the reply had no selections |
| KeyCommands.RemoveRightsImplyInspectRights | commands/torn.py:103-107 | whoever may remove a key may inspect it; a shared key may be inspected by anyone; an administrator may do both |
| KeyCommands.SharedKeysNeedAdminToRemove | commands/torn.py:191-195 | a non-administrator may inspect a shared key but not remove it |
| CompetitionUtils.ContributorStatsShape | commands/competition_utils.py:12-45 | there are 26 trackable contributor stats, among them the four gym stats and the synthesised `gym_e_spent` |
| CompetitionUtils.StatusEmoji | commands/competition_utils.py:48-62 | "active", "cancelled" and "completed", in any case, each get their own emoji, and every other status gets the fallback emoji |
| CompetitionUtils.GroupThousands | commands/competition_utils.py:196-209 | grouping adds one comma for every full group of three digits after the first |
| CompetitionUtils.GroupThousandsRoundTrip | commands/competition_utils.py:196-209 | removing the commas from grouped digits gives back the digits |
| CompetitionUtils.FormatNumberWithSign | commands/competition_utils.py:196-209 | a missing value shows as "N/A"; a value shows with '+' exactly when it is zero or more and with '-' exactly when it is negative |
| CompetitionUtils.FormatNumberWithSignRoundTrip | commands/competition_utils.py:196-209 | the shown number reads back as the value: its sign, then its digits once the commas are removed |
| CompetitionUtils.FirstKey | commands/competition_utils.py:271-280 | the key found is the first in list order that qualifies, and none is found exactly when no key qualifies |
| CompetitionUtils.FirstKeyIsFirst | commands/competition_utils.py:271-280 | when some key qualifies a key is found, and every key before it fails |
| CompetitionUtils.FindBestKeyForFaction | commands/competition_utils.py:251-282 | the key chosen has faction access; it is the first one with faction access whose owner is in the faction, or the first one with faction access when no owner is; none is chosen exactly when no key has faction access |
| CompetitionUtils.SameFactionKeyPreferred | commands/competition_utils.py:270-275 | when any key with faction access belongs to the faction, the one chosen belongs to the faction |
| CompetitionUtils.FactionKeys | commands/competition_utils.py:135-138 | the candidate keys are exactly the registered keys with faction access and a non-empty key value |
| CompetitionUtils.FactionKeysKeepOrder | commands/competition_utils.py:135-138 | the candidates come in registry order, one (alias, key) pair per usable entry |
| CompetitionUtils.FindFactionApiKey | commands/competition_utils.py:120-161 | the key found is a candidate, and none is found exactly when there is no candidate; without a faction, or without a client to look owners up, it is the first candidate; with both, it is the first candidate whose owner is in the faction, or the first candidate when there is none |
| CompetitionUtils.OwnedKeyChosen | commands/competition_utils.py:120-161 | with a client, the i-th candidate is chosen when its owner is in the faction and no earlier candidate's is |
| CompetitionUtils.FirstUsableKeyOtherwise | commands/competition_utils.py:120-161 | when no candidate's owner is in the faction, or the faction or client is missing, the first candidate in registry order is chosen |
| Crimes.MapStatus | commands/organized_crimes.py:408-419 | the stored status is "ready" exactly when the lower-cased upstream status is "ready", or is "planning"/"recruiting" with a truthy readiness time; "completed" exactly for completed/successful, "failed" for failure, "cancelled" for expired; "planning" otherwise, including unknown names and non-text statuses |
| Crimes.MapStatusIgnoresCase | commands/organized_crimes.py:409-413 | upstream status names are matched whatever their letter case |
| Crimes.SlotUser | commands/organized_crimes.py:375-398 | a slot that is not an object, or whose user is missing or null, gives no participant; an integer user is taken as is; a text user goes through `int()`; an embedded user object gives the first truthy of `id`, `user_id`, `player_id`, converted |
| Crimes.Participants | commands/organized_crimes.py:369-398 | the participants are exactly the ids the slots yield, at most one per slot |
| Crimes.ParticipantsAppend | commands/organized_crimes.py:374-398 | extraction works slot by slot: the participants of two runs of slots are those of the first followed by those of the second |
| Crimes.OtherFields | commands/organized_crimes.py:431-431 | the other rewards form a dict: each key at most once, money and respect absent, and every other key bound to the value the reward object binds it to last, as Python's decoded dict and the comprehension give it |
| Json.ItemsAreTheDict | commands/organized_crimes.py:431-431 | the items of a decoded object hold each key once, and every key reads as it does in the object, the last binding winning |
| Json.AssignFacts | commands/organized_crimes.py:431-431 | assigning a key in an insertion-ordered dict keeps each key once, binds the key to the new value and keeps every other pair |
| Crimes.SplitRewards | commands/organized_crimes.py:421-433 | a non-object `rewards` gives no rewards; otherwise money and respect are read from it, and other rewards are present exactly when some other key exists, and then hold each key once, every key other than money and respect bound to its last value in the object |
| Crimes.ParseCrime | commands/organized_crimes.py:343-433 | a record is used exactly when it is an object whose `id` converts with `int()`; its slots (a non-list counts as none) give the participants and the required count, the status is mapped from `status` (default "planning") and `ready_at`, and the name defaults to "Crime <id>" |
| Crimes.Without | commands/organized_crimes.py:541-542 | the ids kept are exactly those of the first list absent from the second |
| Crimes.JoinEvents | commands/organized_crimes.py:545-556 | one join event per joining player, in order, with the old and new lists |
| Crimes.LeaveEvents | commands/organized_crimes.py:559-570 | one leave event per leaving player, in order, with the old and new lists |
| Crimes.StatsFor | commands/organized_crimes.py:599-609 | one statistics update per participant of a finishing crime, in participant order |
| Crimes.Diff | commands/organized_crimes.py:505-611 | every event is about the fetched crime; a move into a terminal status is a status change, counts as a change, and writes one statistics update per participant, and nothing else writes statistics; a status change comes first among the events and counts as a change; a change or any event needs a different status or participant set |
| Crimes.ReconcileOne | commands/organized_crimes.py:435-647 | reconciling a record only appends to the history and the statistics, reports exactly the number of events appended, and touches no other crime's row |
| Crimes.Process | commands/organized_crimes.py:317-321 | a payload whose `crimes` entry is not a list changes nothing and reports zero for every counter |
| Crimes.NewCrimeIsCreated | commands/organized_crimes.py:443-490 | a crime not yet stored gets a row with its status, participants and a truthy name, and exactly one `created` event timestamped with its start or else now; it counts as new and as updated |
| Crimes.SameMembersNoChurn | commands/organized_crimes.py:505-571 | the same status and the same participant set, in any order, give no event, no statistics and no change |
| Crimes.UnchangedCrimeIsQuiet | commands/organized_crimes.py:505-647 | a stored crime with the same status and participant set appends nothing, and its row is rewritten exactly when it is older than the heartbeat |
| Crimes.WithoutEmpty | commands/organized_crimes.py:539-542 | no id is left over exactly when every id of the first list occurs in the second |
| Crimes.JoinEventPlayers | commands/organized_crimes.py:545-556 | the join events name exactly the joining players |
| Crimes.LeaveEventPlayers | commands/organized_crimes.py:559-570 | the leave events name exactly the leaving players |
| Crimes.ChurnEvents | commands/organized_crimes.py:522-571 | with the status unchanged, the events are the joins then the leaves; a join event names exactly a player now present and not stored before, a leave event one stored and no longer present; a leave marks a change, and so does a join only in the corrected behaviour; no statistics are written |
| Crimes.ChurnShape | commands/organized_crimes.py:539-571 | with the status unchanged, the events are the joins followed by the leaves |
| Crimes.TerminalTransition | commands/organized_crimes.py:573-641 | moving into completed, failed or cancelled appends `status_changed` first and one event named after the new status last, timestamped with the execution time or else now, and no other such event; every participant gets a statistics update; the row is deleted and then written again with the new status, counted as updated |
| Crimes.TerminalEvents | commands/organized_crimes.py:505-597 | the events of a move into a terminal status begin with the status change and end with the only finish event |
| Crimes.HeartbeatRefresh | commands/organized_crimes.py:614-641 | a stored crime's row is rewritten, and counted as updated, exactly when a change was detected or the row is more than 300 seconds old |
| Crimes.SkippedRecord | commands/organized_crimes.py:343-359 | a record that is not an object or has no usable id leaves the store and the counters as they are |
| Crimes.ReconcileBatch | commands/organized_crimes.py:343-655 | over a whole batch the history and the statistics only grow at the end, and the events reported equal the events appended |
| Crimes.ReprocessingIsQuiet | commands/organized_crimes.py:505-616 | with joins counted as changes, reconciling the same record again against the state the first pass left appends no event and no statistics, at any later time |
| Crimes.JoinIsRepeatedAsWritten | commands/organized_crimes.py:539-616 | as written, a row last written 10 seconds ago with members [5, 9], seen again with [5, 9, 12], records the join of 12 and is not rewritten, so the next pass records the same join again |
| CrimeSync.NextOffset | commands/organized_crimes.py:156-173 | no next link stops paging; a link with `offset=` continues at the integer between the first `offset=` and the next `&`, or 100 past the old offset when that text is not an integer; a link without `offset=` advances by 100 |
| CrimeSync.NextOffsetReadsParameter | commands/organized_crimes.py:160-166 | a link carrying `offset=<n>`, followed by `&` or the end, continues at exactly n |
| CrimeSync.ErrorCodeFromMessage | commands/organized_crimes.py:210-219 | without "Error" in the message there is no code; otherwise the code is `int()` of the stripped text between the first "Error" and the next ':' |
| CrimeSync.ErrorCodeRoundTrip | commands/organized_crimes.py:210-219 | the code recovered from the client's error-envelope message is the code the envelope carried |
| CrimeSync.EnvelopeMessagesDistinct | torn_api/client.py:116-122 | different error codes raise different messages |
| CrimeSync.Classify | commands/organized_crimes.py:223-241 | code 7 moves on to the next key as a permission failure; otherwise code 5 or "rate limit" in the message, in any case, waits as a rate limit; anything else moves on |
| CrimeSync.PermissionEnvelopeMovesOn | commands/organized_crimes.py:206-227 | an error envelope with code 7 is classified as a permission failure |
| CrimeSync.RateEnvelopeWaits | commands/organized_crimes.py:206-236 | an error envelope with code 5 is classified as a rate limit |
| Database.SchemaVersion | database/db_manager.py:57-66 | the version in force is the largest recorded one, and 0 when the table is missing or empty |
| Database.InitializeSchema | database/db_manager.py:49-55 | after connecting the version is at least 1; a store already at version 1 or above is untouched; otherwise the version-1 row is appended to whatever rows there were |
| Database.InitializeIsIdempotent | database/db_manager.py:49-55 | connecting a second time changes nothing |
| Database.PlaceholderFaction | database/db_manager.py:359-372 | the stand-in faction row is named "Faction <id>", has no other data, and is created and updated now |
| Database.UpsertPlayer | database/db_manager.py:342-406 | the player row exists afterwards with the name given and the current update time; every other column takes the value given or else keeps its old value (NULL for a new row); the creation time is kept, or is now for a new row; no other player changes; a named faction without a row gets a placeholder, and the faction table is otherwise untouched |
| Database.UpsertFaction | database/db_manager.py:408-455 | the faction row follows the same rules: the name and update time are written, every other column takes the value given or keeps its old one, the creation time is kept, and no other faction changes |
| Database.UpsertPlayerIsIdempotent | database/db_manager.py:342-406 | repeating a player upsert at the same instant changes nothing further |
| Database.UpsertFactionIsIdempotent | database/db_manager.py:408-455 | repeating a faction upsert at the same instant changes nothing further |
| Database.PlaceholderIsFilledIn | database/db_manager.py:359-455 | a placeholder faction created by a player upsert is later overwritten by the faction's own upsert, which keeps the placeholder's creation time |
| Database.KeepFrom | database/db_manager.py:781-783 | the rows kept are exactly those written at or after the cutoff |
| Database.CountBefore | database/db_manager.py:775-779 | the count is zero exactly when no row is older than the cutoff |
| Database.Prune | database/db_manager.py:767-786 | pruning removes exactly the rows strictly older than `days` days before now, and reports how many it removed |
| Database.PruneIsIdempotent | database/db_manager.py:767-786 | pruning again with the same cutoff removes nothing |
| Database.AppendedRowSurvivesPrune | database/db_manager.py:458-543 | a row appended now survives a prune of any non-negative age |
| Database.SortByTime | database/db_manager.py:672-686 | ordering a period's rows by time keeps every row, each as often as before |
| Database.SortByTimeIsChronological | database/db_manager.py:672-686 | ordering a period's rows by time gives them in non-decreasing time order |
| Database.SortOfChronological | database/db_manager.py:672-686 | rows already in time order keep their order |
| Database.First | database/db_manager.py:672-678 | the first row is one of the period's rows and is no later than any of them |
| Database.Last | database/db_manager.py:680-686 | the last row is one of the period's rows and is no earlier than any of them |
| Database.OwnershipChanges | database/db_manager.py:967-972 | a territory with at most one row has no ownership changes |
| Database.CountOwnershipChanges | database/db_manager.py:960-972 | the loop over owners in time order counts exactly the steps whose earlier owner is known and differs from the later one |
| Database.OwnershipChangesBound | database/db_manager.py:967-972 | there are never more ownership changes than steps between rows |
| Database.SteadyOwnerHasNoChanges | database/db_manager.py:967-972 | a territory held by one owner throughout has no changes |
| Database.ChangesAroundNull | database/db_manager.py:970-971 | a move from an owner to no owner counts as a change, and a move from no owner to an owner does not |
| Database.Window | database/db_manager.py:672-695 | an entity's rows in a period are exactly its rows written between the period's bounds, both included |
| Database.SummaryOf | database/db_manager.py:699-731 | the summary counts the entity's rows; a player or faction rollup takes each column's start from the earliest row and its end from the latest, with NULL read as 0, and its change as end minus start (the player's maximum life has no change); a territory summary records the first and last owner, the ownership changes in time order, and the period's whole days when the last owner is truthy |
| Database.RollupOf | database/db_manager.py:699-731 | per column: start and end are the earliest and latest values with NULL read as 0, and the change is their difference wherever the table has a change column |
| Database.Entities | database/db_manager.py:660-664 | the entities visited are each listed once, and they are exactly those with a row in the period |
| Database.UpsertStores | database/db_manager.py:224-224 | with distinct keys, INSERT OR REPLACE leaves every row written under its key and every other key as it was |
| Database.UpsertTwice | database/db_manager.py:733-756 | writing the same rows again changes nothing |
| Database.WrittenSummaries | database/db_manager.py:733-758 | after the writes every listed entity has its summary for the period, and every other summary row is as it was |
| Database.Summarize | database/db_manager.py:633-765 | a month `datetime` rejects raises; without `force`, a period that already has a summary for any entity is skipped with 0; otherwise every entity with rows in the month gets its summary (replacing one with the same key), nothing else changes, and the number of such entities is returned |
| Database.RunEntities | database/db_manager.py:660-670 | a run visits each entity with rows in the period exactly once |
| Database.SecondRunIsSkipped | database/db_manager.py:649-657 | once a run has written a summary, an unforced run for the same month writes nothing and returns 0 |
| Database.ForcedRerunIsStable | database/db_manager.py:733-765 | a forced re-run over unchanged history rewrites the same summaries |
| Database.GuardIsPerPeriod | database/db_manager.py:649-657 | the guard is per period: a summary for one entity keeps an unforced run from summarising any other entity of that month |
| Calendar.MonthLength | database/db_manager.py:640-644 | months have 28 to 31 days, and February has 29 exactly in leap years |
| Calendar.YearLength | database/db_manager.py:640-644 | a year is 366 days long when it is a leap year and 365 otherwise |
| Calendar.MonthsAreContiguous | database/db_manager.py:640-644 | the first day of the next month directly follows the last day of this one |
| Calendar.MonthlyPeriod | database/db_manager.py:640-647 | a period exists exactly for months 1..12 of years 1..9999 other than December 9999; it starts at midnight on the 1st and spans the month's length in seconds, the end one second before the next month |
| Calendar.MonthlyPeriodsTile | database/db_manager.py:640-647 | consecutive months' periods meet with no gap and no overlap |
| Calendar.DecemberRollsOver | database/db_manager.py:641-642 | December's period ends one second before January of the next year begins |
| Calendar.DaysInMonthlyPeriod | database/db_manager.py:981-981 | the whole days between a month's bounds are one less than the month's length |
| Competitions.Delta | commands/competitions.py:488-494 | the improvement is unknown exactly when the start stat is known and the current one is not; with no start stat it is 0; otherwise start plus improvement gives the current stat |
| Competitions.Contribution | commands/competitions.py:639-641 | a participant adds 0 to a team total unless both stats are known, and then the difference |
| Competitions.ContributionIsDeltaOrZero | commands/competitions.py:488-494 | the team and faction views agree with the status view's improvement, reading an unknown one as 0 |
| Competitions.DisplayName | commands/competitions.py:498-498 | a missing or empty stored name shows as "Player <id>", any other name as itself |
| Competitions.ShownCount | commands/competitions.py:508-510 | the number of rows shown: the limit when given and non-zero (a negative one drops rows from the end, as a slice does), else at most ten |
| Competitions.CompetitionStatus | commands/competitions.py:469-510 | no participants is refused; otherwise the rows shown are the first ShownCount rows of a stable ranking of every participant's improvement, best first or worst first |
| Competitions.ShownAreTheBest | commands/competitions.py:505-510 | no participant left out of the display ranks ahead of a shown one |
| Competitions.UnknownImprovementsComeLast | commands/competitions.py:506-506 | in a best-first ranking, participants whose improvement is unknown follow everyone else |
| Competitions.SplitOver | commands/competitions.py:625-644 | summing and counting participants toward two disjoint sets of teams is summing and counting toward each |
| Competitions.TeamTotals | commands/competitions.py:594-644 | one total per team in team order, carrying the team's id and name |
| Competitions.TeamTotalsPartition | commands/competitions.py:625-644 | with distinct team ids, the team totals and head counts add up to the contributions and number of participants whose team is listed: each is counted exactly once |
| Competitions.SelectTeams | commands/competitions.py:583-588 | with no team id (or 0) every team is looked at, otherwise exactly the teams with that id |
| Competitions.FilterIdsAtMostOne | commands/competitions.py:585-585 | with distinct ids, selecting by id keeps at most one team |
| Competitions.CompetitionTeamStatus | commands/competitions.py:580-648 | an unknown team id is refused, a viewer who is neither administrator nor captain of the chosen team is refused, otherwise the team totals are ranked best or worst first, ties in team order |
| Competitions.FactionOverview | commands/competitions.py:704-744 | no participants is refused; otherwise the total counts only participants with both stats, the average divides it by their number, and both counts are reported |
| Competitions.Average | commands/competitions.py:739-739 | the average times the number with data gives the total, and is 0 when none has data |
| Competitions.NoDataNoTotal | commands/competitions.py:722-725 | when nobody has both stats the total improvement is 0 |
| Competitions.TeamsCoverFaction | commands/competitions.py:625-644 | when every participant is on a listed team, the team totals add up to the faction total and count every participant |
| Competitions.CreateCompetition | commands/competitions.py:313-381 | the stat, the dates, the start day, the end day and the team count are checked in that order, with each refusal exactly when the earlier checks pass and its own fails; a date `strptime` rejects is refused as an invalid date; success runs from midnight of the first day to 23:59:59 of the last with teams "Team 1".."Team n" |
| Competitions.SameDayIsAccepted | commands/competitions.py:332-349 | a competition may start and end on the same day |
| Competitions.TeamNamesDistinct | commands/competitions.py:374-381 | the teams created have pairwise different names |
| Competitions.ParseIds | commands/competitions.py:112-116 | the list parses exactly when every comma-separated piece is an integer, and then gives each piece's value in order |
| Competitions.Keep | commands/competitions.py:119-129 | keeps exactly the ids inside (or outside) a set, never more than given |
| Competitions.KeepKeepsOrder | commands/competitions.py:119-129 | the ids kept are the given ids inside (or outside) the set, in the order given, repeats kept |
| Competitions.Requested | commands/competitions.py:110-137 | without a list every faction member is a candidate; with one, a bad id or no listed faction member is refused, otherwise exactly the listed faction members |
| Competitions.InFaction | commands/competitions.py:118-126 | succeeds exactly when some listed id is a member, and then keeps exactly the listed members |
| Competitions.InFactionKeepsOrder | commands/competitions.py:118-126 | the listed faction members keep the order listed, repeats kept |
| Competitions.PlayersToAdd | commands/competitions.py:110-150 | the candidates minus those already taking part, refused when none remain |
| Competitions.PlayersToAddKeepsOrder | commands/competitions.py:110-150 | the listed members keep the order listed, and the players added keep the candidates' order with those already taking part dropped |
| Competitions.AllMembersByDefault | commands/competitions.py:135-150 | without a list, every faction member not yet taking part is added |
| Competitions.AssignTeams | commands/competitions.py:170-204 | the i-th shuffled player goes to team i mod k (none when there are no teams), and once the competition has started gets their current stat, when known, as start stat |
| Competitions.AssignmentIsBalanced | commands/competitions.py:181-183 | of n new participants, team j of k receives n / k, plus one when j < n mod k |
| Competitions.AssignmentDiffersByAtMostOne | commands/competitions.py:174-183 | no two teams receive numbers of new participants that differ by more than one |
| CompetitionProgress.Contributed | commands/competitions.py:1450-1455 | a contributor record that is not an object gives no value; an integer, float or boolean `contributed` is read as a number |
| CompetitionProgress.Recorded | commands/competitions.py:1445-1455 | an entry records a value only for a key that converts to the id of a participant |
| CompetitionProgress.Records | commands/competitions.py:1445-1458 | one outcome per contributor entry, in reply order |
| CompetitionProgress.Absorb | commands/competitions.py:1453-1455 | recording values for one stat leaves every other stat's values as they were and never drops the stat |
| CompetitionProgress.AbsorbLastWins | commands/competitions.py:1455-1455 | a player's value is the one recorded last for them |
| CompetitionProgress.AbsorbLeavesOthers | commands/competitions.py:1453-1455 | a player with no recorded entry keeps whatever value they had |
| CompetitionProgress.AbsorbOnlyRecorded | commands/competitions.py:1453-1455 | a player gains a value only from an entry recorded for them, or already had one |
| CompetitionProgress.ProcessContributors | commands/competitions.py:1424-1458 | only the processed stat's values change, and a reply without contributors for it changes nothing |
| CompetitionProgress.CanonicalEntryIsRecorded | commands/competitions.py:1445-1455 | a participant listed once gets exactly the value the reply gives |
| CompetitionProgress.OnlyParticipantsGainValues | commands/competitions.py:1448-1448 | a player who is not a participant gains no value |
| CompetitionProgress.GymWalk | commands/competitions.py:1633-1648 | the gym stats are read in order up to the first missing one, each with its gathered value |
| CompetitionProgress.CollectValue | commands/competitions.py:1628-1677 | gym energy is known exactly when all four gym stats are; any other stat is its gathered value, written to history once when known |
| CompetitionProgress.GymEnergyIsTheSum | commands/competitions.py:1628-1660 | with all four gym stats known, gym energy is their sum and five history rows are written |
| CompetitionProgress.NextStart | commands/competitions.py:1679-1685 | a recorded start stat is never replaced; a collected value becomes the start stat only when none is recorded and the competition has started |
| CompetitionProgress.StartStatIsSetOnce | commands/competitions.py:1679-1685 | once a start stat is recorded, no later pass changes it |
| CompetitionProgress.MaxAbs | commands/competitions.py:1381-1381 | the largest magnitude among the rows, attained by one of them |
| CompetitionProgress.Scale | commands/competitions.py:1381-1383 | the scale is positive and at least every row's magnitude |
| CompetitionProgress.ShortName | commands/competitions.py:1393-1394 | names up to 25 characters are kept; longer ones become their first 22 characters and "..." |
| CompetitionProgress.Filled | commands/competitions.py:1397-1398 | the full cells are the floor of the magnitude's share of the scale times 20, and 20 at the scale |
| CompetitionProgress.Bar | commands/competitions.py:1399-1408 | a 20-cell bar whose full cells sit on the left for a rise and on the right for a fall |
| CompetitionProgress.ProgressBars | commands/competitions.py:1375-1421 | nothing to show for no rows; otherwise one line per row, ranked from 1, marking rises, with the shortened name, the progress, and, in the individual view only, that row's own team |
| CompetitionProgress.FullCellsOfBar | commands/competitions.py:1399-1408 | a bar has exactly as many full cells as its fill, whichever side they sit on |
| CompetitionProgress.BarsAreScaled | commands/competitions.py:1381-1408 | each bar's full cells are its row's fill against the common scale; the largest row is full and a zero row empty |
| CompetitionProgress.ZeroIsEmpty | commands/competitions.py:1397-1398 | no progress fills no cell |
| Sorting.AheadIsStrictOrder | commands/competitions.py:506-506 | going ahead is a strict order under which items that are not ordered either way have equal keys, in both directions |
| Sorting.Sort | commands/competitions.py:506-506 | sorting keeps the same items, each as often as before |
| Sorting.SortIsOrdered | commands/competitions.py:506-506 | no item is followed by one whose key should go before it, largest first when reversed |
| Sorting.SortIsStable | commands/competitions.py:648-648 | items with equal keys come out in the order they went in, in either direction |
| PyText.Lower | commands/games.py:16-23 | ASCII lower-casing, character by character |
| PyText.FindSpec | commands/games.py:16-16 | a search finds the first occurrence, and nothing only when there is none |
| PyText.Split | commands/games.py:23-23 | splitting gives at least one piece, and exactly one when the separator does not occur |
| PyText.SplitJoin | commands/games.py:23-23 | splitting on a character undoes joining on it |
| PyText.ParseInt | commands/games.py:31-32 | `int()` refuses blank text; an accepted text ends in a digit once stripped, and a negative result comes from a leading '-'; a plain run of ASCII digits reads as its decimal value |
| PyText.ParseIntOfIntToString | commands/games.py:31-32 | reading an integer's decimal text gives back the integer |
| Json.Lookup | utils/permissions.py:40-40 | a key is absent exactly when no pair carries it, and a value found is one bound to that key |
| Json.Or | utils/permissions.py:109-109 | `a or b` is `a` when it is truthy and `b` otherwise |
| Json.Truncate | utils/permissions.py:59-59 | converting a float to an integer truncates toward zero |
| Json.ToInt | utils/permissions.py:59-70 | `int()` keeps an integer, reads text as Python does, and refuses null, lists and objects |
| Json.ToIntOfRenderedInt | utils/permissions.py:59-70 | an integer written out as text converts back to itself |

## Left out

- Orchestrators: the crime sync loop, the contributor collection loop and the summary and prune schedulers are left out. Their key rotation, sleeps and network calls are I/O; only their pure steps (next offset, error-code recovery, envelope classification, contributor processing) are modelled.
- Notifications: missing-item reminders and frequent-leaver messages are Discord sends driven by cache and API lookups.
- Discord plumbing: embeds, interaction replies and command registration are left out. Every reply is modelled as the datatype of what it shows.
- The administrator and moderator permission checks before the mute are Discord member lookups: who may mute whom, self-mutes and bot-mutes.
- `require_admin` is called with three arguments where it takes one. That is a runtime `TypeError` in Discord wiring and is not modelled.
- Floating point: stat values and deltas are `real`. Python float rounding in `f"{v:,.0f}"` and in `int(ratio * 20)` is not modelled; the bar fill is the exact floor.
- CompetitionUtils.FormatNumberWithSign: takes integers only, because the display of a float rounds it first and float rounding is left out.
- Text: lower-casing is ASCII only, and `int()` reads ASCII digits only. Unicode digits and case mappings are left out. Every keyword compared after lower-casing is ASCII without a 'k', so Unicode lower-casing cannot change those results.
- Python's limit of 4300 digits on `int()` of text is not modelled.
- Time: the clock is a parameter. Naive `datetime.timestamp()` reads local time, while the model counts UTC seconds, so daylight saving and time-zone shifts of month bounds and of the prune cutoff are left out.
- Randomness: the shuffle of new participants and the dice rolls are inputs. The parrot squawk is left out.
- SQL: the table browser's caller-supplied filter and order strings depend on SQLite and are left out. So are the timestamp conversion of browser rows, PRAGMAs, backups and health metrics.
- Transaction rollback of the player and faction summaries on error is not modelled: a failing write is not a case of the pure model.
- Exceptions while inserting or updating a crime are only logged by the reconciler and are not modelled. Neither are its logging-only counters.
- The order among history rows with equal timestamps is unspecified in SQL; the model picks the earliest-inserted first and the latest-inserted last.
- Competitions.CompetitionTeamStatus: requires distinct team ids, which the database's primary key guarantees.
- Gateway.EnvelopeError: a float error code in an envelope is not rendered as Python would print it; such an envelope is modelled as an exception other than the API error.
- Crimes.OtherFields: an earlier pair of a repeated reward key is not among the other rewards, because the decoded dict keeps only the last value; every key still appears, once.
- Duplicate keys in a JSON object are read as Python's decoder does, the last one winning; a contributors entry repeated under equivalent ids is covered only by the last-wins lemma.
- Key permissions are modelled as the category names the API reports; the detailed shape of the key-info reply is not.
- The key commands' display of permission names through `.keys()` is modelled only as its outcome. A key never validated still holds a list, so key-check's display raises. A validation whose reply had no selections stores a list, so the key-add and key-validate displays raise.
- KeyCommands.KeyCheck: a key validated against a reply without selections also stores an empty list, and the source's display then raises too; the model still shows that key's details, because the stored permissions do not record whether the reply had selections.
- KeyCommands.KeyAdd: the outcome carries the whole validation; the embed's text, which lists only the first 15 permission categories, is not modelled.
- KeyCommands.KeyValidate: the outcome carries the whole validation; the embed's text, which lists only the first 15 permission categories, is not modelled.
- Competitions.AssignTeams: a participant insert that raises is recorded in `failed_assignments` and the loop moves on, so later players keep their team `i mod k`; the model places every player, because the database insert is not a case of the pure model. The placements of the players whose insert succeeds are unchanged by it.
- Competitions.CreateCompetition: dates arrive as the day they name, or as none when `strptime` rejects the text; the %Y-%m-%d parsing itself is not modelled.
- The participant-add command's warning about listed ids that are not faction members is a Discord reply and is left out.
- CrimeSync.NextOffset: takes the next link as text; a link that is not a string is not modelled.
- `get_health_metrics` and the row count over all 15 tables are left out as I/O.

## Findings

| source | as written | input that shows it | evidently intended | confidence | as-written member | corrected member |
|---|---|---|---|---|---|---|
| commands/organized_crimes.py:539-571, 615-616 | joins alone do not set `changes_detected`, so when nothing else changed and the heartbeat has not expired the stored row keeps the old participant list | a stored planning crime with participants [5, 9] refreshed 10 s earlier, fetched twice with participants [5, 9, 12] within 300 s | a join marks the crime changed, so the second pass finds the stored participants equal and appends no event | not executed | Crimes.JoinIsRepeatedAsWritten | Crimes.ReprocessingIsQuiet |

=== FILE: admin.dfy ===
/**
 * The mute command's duration handling: parsing "10m", "1h", "30s" or
 * "2d" into seconds, the 28-day ceiling, and the "1d 2h 3m 4s" display of
 * the accepted duration.
 */
module Admin {
  import opened Wrappers
  import opened PyText

  /** The units a duration may end with. */
  predicate IsUnit(c: char) {
    c == 's' || c == 'm' || c == 'h' || c == 'd'
  }

  /** Seconds per unit. */
  function Multiplier(u: char): (k: nat)
    requires IsUnit(u)
    ensures k > 0
  {
    match u
    case 's' => 1
    case 'm' => 60
    case 'h' => 3600
    case 'd' => 86400
  }

  /**
   * Whether `t` (already lower-cased) is one or more ASCII digits followed
   * by one unit letter, optionally followed by one newline, which Python's
   * `$` also accepts at the very end.
   */
  predicate Matches(t: string, digits: string, unit: char) {
    && |digits| > 0 && AllDigits(digits) && IsUnit(unit)
    && (t == digits + [unit] || t == digits + [unit] + "\n")
  }

  /** The text without one trailing newline. */
  function Chomp(t: string): (r: string)
    ensures |r| <= |t|
  {
    if |t| > 0 && t[|t| - 1] == '\n' then t[..|t| - 1] else t
  }

  /** Digits followed by a unit, once a trailing newline is dropped. */
  predicate WellFormed(body: string) {
    |body| >= 2 && AllDigits(body[..|body| - 1]) && IsUnit(body[|body| - 1])
  }

  /** Where a match splits `t`: the unit is the last character once the newline is dropped. */
  lemma MatchIsAtEnd(t: string, j: nat)
    requires 0 < j < |t| && Matches(t, t[..j], t[j])
    ensures var body := Chomp(t); |body| == j + 1 && body[..j] == t[..j] && body[j] == t[j]
    ensures WellFormed(Chomp(t))
  {
    if |t| == j + 1 {
      assert t[|t| - 1] == t[j];
      assert Chomp(t) == t;
    } else {
      assert t == t[..j] + [t[j]] + "\n";
      assert Chomp(t) == t[..j + 1];
    }
  }

  lemma WellFormedMatches(t: string)
    requires WellFormed(Chomp(t))
    ensures var j := |Chomp(t)| - 1; 0 < j < |t| && Matches(t, t[..j], t[j])
  {
    var body := Chomp(t);
    var j := |body| - 1;
    assert t[..j] == body[..j] && t[j] == body[j];
    if body != t {
      assert t == body + "\n";
    } else {
      assert t == body[..j] + [body[j]];
    }
  }

  /**
   * A duration string in seconds; `None` stands for the ValueError raised
   * on anything that is not digits followed by one unit.
   */
  function ParseDuration(s: string): Option<nat> {
    var body := Chomp(Lower(s));
    if WellFormed(body) then Some(DigitsValue(body[..|body| - 1]) * Multiplier(body[|body| - 1]))
    else None
  }

  /**
   * A string is accepted exactly when, lower-cased, it is digits then a
   * unit (then at most a newline), and its value is the digits times the
   * unit's seconds.
   */
  lemma ParseDurationMatches(s: string)
    ensures var t := Lower(s);
      ParseDuration(s).Some? <==> exists i :: 0 < i < |t| && Matches(t, t[..i], t[i])
    ensures var t := Lower(s);
      forall i :: 0 < i < |t| && Matches(t, t[..i], t[i]) ==>
        ParseDuration(s) == Some(DigitsValue(t[..i]) * Multiplier(t[i]))
  {
    var t := Lower(s);
    var body := Chomp(t);
    if WellFormed(body) {
      WellFormedMatches(t);
      var j := |body| - 1;
      assert 0 < j < |t| && Matches(t, t[..j], t[j]);
      forall i | 0 < i < |t| && Matches(t, t[..i], t[i])
        ensures ParseDuration(s) == Some(DigitsValue(t[..i]) * Multiplier(t[i]))
      {
        MatchIsAtEnd(t, i);
      }
    } else {
      forall i | 0 < i < |t| ensures !Matches(t, t[..i], t[i]) {
        if Matches(t, t[..i], t[i]) {
          MatchIsAtEnd(t, i);
        }
      }
    }
  }

  /** The longest mute Discord allows: 28 days. */
  const MaxMuteSeconds: nat := 28 * 86400

  /** The largest duration a Python timedelta holds, in whole seconds, plus one. */
  const TimedeltaLimitSeconds: nat := 1000000000 * 86400

  /** One part of the display, such as 3 hours. */
  datatype Part = Part(amount: nat, unit: char)

  function PartSeconds(p: Part): nat {
    if IsUnit(p.unit) then p.amount * Multiplier(p.unit) else 0
  }

  function TotalSeconds(parts: seq<Part>): nat {
    if |parts| == 0 then 0 else PartSeconds(parts[0]) + TotalSeconds(parts[1..])
  }

  function UnitRank(u: char): nat {
    match u
    case 'd' => 0
    case 'h' => 1
    case 'm' => 2
    case _ => 3
  }

  function Peel(total: nat, unit: char): (r: (seq<Part>, nat))
    requires IsUnit(unit)
    ensures r.1 < Multiplier(unit)
    ensures r.0 == [] ==> r.1 == total
    ensures r.0 != [] ==> |r.0| == 1 && r.0[0].amount > 0 && r.0[0].unit == unit
    ensures TotalSeconds(r.0) + r.1 == total
  {
    var k := Multiplier(unit);
    if total >= k then
      var p := Part(total / k, unit);
      assert [p][1..] == [];
      ([p], total % k)
    else ([], total)
  }

  /**
   * The display parts of a duration: whole days, then hours, minutes and
   * seconds of what remains, each present only when not zero.
   */
  function Parts(total: nat): (r: seq<Part>)
    ensures r == [] <==> total == 0
  {
    var (d, afterDays) := Peel(total, 'd');
    var (h, afterHours) := Peel(afterDays, 'h');
    var (m, afterMinutes) := Peel(afterHours, 'm');
    var s := if afterMinutes > 0 then [Part(afterMinutes, 's')] else [];
    d + h + m + s
  }

  /** The parts with a non-zero amount, in order. */
  function NonZero(ps: seq<Part>): (r: seq<Part>)
    ensures forall i :: 0 <= i < |r| ==> r[i].amount > 0
  {
    if |ps| == 0 then []
    else (if ps[0].amount > 0 then [ps[0]] else []) + NonZero(ps[1..])
  }

  /** Days, hours below 24, minutes below 60 and seconds below 60, as the standard clock decomposition. */
  function Clock(total: nat): (r: seq<Part>)
    ensures |r| == 4 && r[0].unit == 'd' && r[1].unit == 'h' && r[2].unit == 'm' && r[3].unit == 's'
    ensures r[1].amount < 24 && r[2].amount < 60 && r[3].amount < 60
    ensures r[0].amount * 86400 + r[1].amount * 3600 + r[2].amount * 60 + r[3].amount == total
  {
    var rest := total % 86400;
    [Part(total / 86400, 'd'), Part(rest / 3600, 'h'), Part(rest % 3600 / 60, 'm'), Part(rest % 3600 % 60, 's')]
  }

  lemma NonZeroCons(a: Part, rest: seq<Part>)
    ensures NonZero([a] + rest) == NonZero([a]) + NonZero(rest)
  {
    assert ([a] + rest)[1..] == rest;
    assert [a][1..] == [];
  }

  lemma NonZeroOfFour(a: Part, b: Part, c: Part, e: Part)
    ensures NonZero([a, b, c, e]) == NonZero([a]) + NonZero([b]) + NonZero([c]) + NonZero([e])
  {
    assert [a, b, c, e] == [a] + ([b] + ([c] + [e]));
    NonZeroCons(a, [b] + ([c] + [e]));
    NonZeroCons(b, [c] + [e]);
    NonZeroCons(c, [e]);
  }

  /** Peeling a unit off is the quotient when it is not zero, and leaves the remainder. */
  lemma PeelIsQuotient(total: nat, unit: char)
    requires IsUnit(unit)
    ensures Peel(total, unit).0 == NonZero([Part(total / Multiplier(unit), unit)])
    ensures Peel(total, unit).1 == total % Multiplier(unit)
  {
    var k := Multiplier(unit);
    assert [Part(total / k, unit)][1..] == [];
    if total < k {
      assert total / k == 0 && total % k == total;
    } else {
      assert total / k > 0;
    }
  }

  /**
   * The display parts are the clock decomposition with the zero parts left
   * out, so they come in day-hour-minute-second order, each within its range.
   */
  lemma PartsAreClock(total: nat)
    ensures Parts(total) == NonZero(Clock(total))
  {
    var c := Clock(total);
    ClockDays(total);
    ClockHours(total);
    ClockMinutes(total);
    ClockSeconds(total);
    NonZeroOfFour(c[0], c[1], c[2], c[3]);
  }

  lemma ClockDays(total: nat)
    ensures Peel(total, 'd') == (NonZero([Clock(total)[0]]), total % 86400)
  {
    PeelIsQuotient(total, 'd');
  }

  lemma ClockHours(total: nat)
    ensures Peel(total % 86400, 'h') == (NonZero([Clock(total)[1]]), total % 86400 % 3600)
  {
    PeelIsQuotient(total % 86400, 'h');
  }

  lemma ClockMinutes(total: nat)
    ensures Peel(total % 86400 % 3600, 'm') == (NonZero([Clock(total)[2]]), total % 86400 % 3600 % 60)
  {
    PeelIsQuotient(total % 86400 % 3600, 'm');
  }

  lemma ClockSeconds(total: nat)
    ensures var x := total % 86400 % 3600 % 60;
      (if x > 0 then [Part(x, 's')] else []) == NonZero([Clock(total)[3]])
  {
    assert [Clock(total)[3]][1..] == [];
  }

  lemma {:induction false} TotalSecondsAppend(a: seq<Part>, b: seq<Part>)
    ensures TotalSeconds(a + b) == TotalSeconds(a) + TotalSeconds(b)
  {
    if |a| == 0 {
      assert a + b == b;
    } else {
      assert (a + b)[0] == a[0];
      assert (a + b)[1..] == a[1..] + b;
      TotalSecondsAppend(a[1..], b);
    }
  }

  /** The displayed parts add back up to the duration. */
  lemma PartsRecompose(total: nat)
    ensures TotalSeconds(Parts(total)) == total
  {
    var (d, afterDays) := Peel(total, 'd');
    var (h, afterHours) := Peel(afterDays, 'h');
    var (m, afterMinutes) := Peel(afterHours, 'm');
    var s := if afterMinutes > 0 then [Part(afterMinutes, 's')] else [];
    assert TotalSeconds(s) == afterMinutes by {
      if afterMinutes > 0 {
        assert s[1..] == [];
      }
    }
    TotalSecondsAppend(d, h);
    TotalSecondsAppend(d + h, m);
    TotalSecondsAppend(d + h + m, s);
  }

  function PartText(p: Part): string {
    NatToString(p.amount) + [p.unit]
  }

  /** Every displayed part is itself a valid duration, worth what it stands for. */
  lemma PartTextParses(p: Part)
    requires IsUnit(p.unit)
    ensures ParseDuration(PartText(p)) == Some(PartSeconds(p))
  {
    var t := PartText(p);
    var d := NatToString(p.amount);
    assert forall i :: 0 <= i < |t| ==> LowerChar(t[i]) == t[i];
    assert Lower(t) == t;
    assert t[..|d|] == d && t[|d|] == p.unit;
    assert Matches(t, t[..|d|], t[|d|]);
    assert Chomp(t) == t;
    DigitsValueOfNatToString(p.amount);
  }

  function Texts(parts: seq<Part>): (r: seq<string>)
    ensures |r| == |parts|
    ensures forall i :: 0 <= i < |parts| ==> r[i] == PartText(parts[i])
  {
    if |parts| == 0 then [] else [PartText(parts[0])] + Texts(parts[1..])
  }

  /**
   * The display of a duration: its parts separated by spaces, or "0s".
   * No part contains a space, so splitting the display on spaces gives
   * the parts back.
   */
  function Display(total: nat): (r: string)
    ensures total == 0 <==> r == "0s"
    ensures total > 0 ==> Split(r, " ") == Texts(Parts(total))
  {
    var parts := Parts(total);
    if parts == [] then "0s"
    else
      var texts := Texts(parts);
      PartsArePositive(total);
      JoinNotZero(texts, parts);
      TextsHaveNoSpace(total);
      SplitJoin(texts, ' ');
      Join(texts, " ")
  }

  /** Every display part ends in one of the four units. */
  lemma PartsHaveUnits(total: nat)
    ensures forall i :: 0 <= i < |Parts(total)| ==> IsUnit(Parts(total)[i].unit)
  {
    PartsAreClock(total);
    NonZeroKeepsUnits(Clock(total));
  }

  lemma {:induction false} NonZeroKeepsUnits(ps: seq<Part>)
    requires forall i :: 0 <= i < |ps| ==> IsUnit(ps[i].unit)
    ensures forall i :: 0 <= i < |NonZero(ps)| ==> IsUnit(NonZero(ps)[i].unit)
  {
    if |ps| > 0 {
      NonZeroKeepsUnits(ps[1..]);
    }
  }

  /** The text of a display part is digits and a unit letter, so it holds no space. */
  lemma TextsHaveNoSpace(total: nat)
    ensures var texts := Texts(Parts(total));
      forall k, i :: 0 <= k < |texts| && 0 <= i < |texts[k]| ==> texts[k][i] != ' '
  {
    var parts := Parts(total);
    var texts := Texts(parts);
    PartsHaveUnits(total);
    forall k, i | 0 <= k < |texts| && 0 <= i < |texts[k]|
      ensures texts[k][i] != ' '
    {
      var d := NatToString(parts[k].amount);
      assert texts[k] == d + [parts[k].unit];
      if i < |d| {
        assert IsDigit(d[i]);
      }
    }
  }

  lemma PartsArePositive(total: nat)
    ensures forall i :: 0 <= i < |Parts(total)| ==> Parts(total)[i].amount > 0
  {
    PartsAreClock(total);
  }

  lemma JoinNotZero(texts: seq<string>, parts: seq<Part>)
    requires |texts| == |parts| > 0
    requires forall i :: 0 <= i < |parts| ==> texts[i] == PartText(parts[i]) && parts[i].amount > 0
    ensures Join(texts, " ") != "0s"
  {
    var d := NatToString(parts[0].amount);
    assert texts[0] == d + [parts[0].unit];
    DigitsValueOfNatToString(parts[0].amount);
    assert DigitsValue("0") == 0;
    assert d != "0";
    var j := Join(texts, " ");
    if |texts| == 1 {
      assert j == texts[0];
      if |d| == 1 {
        assert j[0] == d[0] && [d[0]] == d;
      } else {
        assert |j| >= 3;
      }
    } else {
      assert j == texts[0] + " " + Join(texts[1..], " ");
      assert |j| >= 3;
    }
  }

  /** What the mute command does with its duration argument. */
  datatype MuteDuration =
    | InvalidDuration          // the ValueError message with the format hint
    | TooLong                  // "Maximum mute duration is 28 days."
    | DurationError            // a timedelta overflow, reported as a general error
    | Mute(seconds: nat, display: string)

  /** The duration the mute command uses when none is given. */
  const DefaultDuration := "10m"

  function MuteFor(duration: string): (r: MuteDuration)
    ensures r == InvalidDuration <==> ParseDuration(duration).None?
    ensures r.Mute? <==> (ParseDuration(duration).Some? && ParseDuration(duration).value <= MaxMuteSeconds)
    ensures r.Mute? ==> r.seconds == ParseDuration(duration).value && r.display == Display(r.seconds)
    ensures r == TooLong ==> ParseDuration(duration).value > MaxMuteSeconds
    ensures r == DurationError <==> ParseDuration(duration).Some? && ParseDuration(duration).value >= TimedeltaLimitSeconds
  {
    match ParseDuration(duration)
    case None => InvalidDuration
    case Some(n) =>
      if n >= TimedeltaLimitSeconds then DurationError
      else if n > MaxMuteSeconds then TooLong
      else Mute(n, Display(n))
  }

  /** The 28-day ceiling is inclusive: `n` units mute exactly when they come to at most 28 days. */
  lemma MuteCeiling(n: nat, unit: char)
    requires IsUnit(unit)
    ensures MuteFor(NatToString(n) + [unit]).Mute? <==> n * Multiplier(unit) <= MaxMuteSeconds
    ensures n * Multiplier(unit) > MaxMuteSeconds && n * Multiplier(unit) < TimedeltaLimitSeconds ==>
      MuteFor(NatToString(n) + [unit]) == TooLong
  {
    PartTextParses(Part(n, unit));
  }

  /** Without a duration argument the mute lasts ten minutes and is shown as "10m". */
  lemma DefaultMuteIsTenMinutes()
    ensures MuteFor(DefaultDuration) == Mute(600, "10m")
  {
    var p := Part(10, 'm');
    assert NatToString(10) == "10";
    assert PartText(p) == DefaultDuration;
    PartTextParses(p);
    assert Parts(600) == [p];
    assert Texts([p]) == ["10m"];
  }
}

=== FILE: arith.dfy ===
/** Facts about division shared by the round-robin, paging and averaging arithmetic. */
module Arith {
  lemma MulAtLeast(d: int, k: int)
    requires d >= 1 && k > 0
    ensures d * k >= k
  {
  }

  /** A quotient and remainder in range are the only ones. */
  lemma DivModUnique(n: int, k: int, q: int, m: int)
    requires k > 0 && 0 <= m < k && n == q * k + m
    ensures n / k == q && n % k == m
  {
    var q' := n / k;
    var m' := n % k;
    assert (q' - q) * k == m - m';
    if q' > q {
      MulAtLeast(q' - q, k);
    } else if q' < q {
      MulAtLeast(q - q', k);
    }
  }

  /** Dividing by a positive real and multiplying back gives the dividend. */
  lemma DivideBack(t: real, n: real)
    requires n > 0.0
    ensures (t / n) * n == t
  {
  }
}

=== FILE: calendar.dfy ===
/**
 * The proleptic Gregorian calendar as Python's `datetime` sees it, counted
 * in seconds from 1970-01-01 00:00:00 with no time zone: day numbers,
 * month lengths and the bounds of a calendar month.
 */
module Calendar {
  import opened Wrappers
  import opened Arith

  const SecondsPerDay := 86400

  /** The years `datetime` accepts. */
  const MinYear := 1
  const MaxYear := 9999

  predicate IsLeap(y: int) {
    y % 4 == 0 && (y % 100 != 0 || y % 400 == 0)
  }

  function MonthLength(y: int, m: int): (n: int)
    requires 1 <= m <= 12
    ensures 28 <= n <= 31
    ensures m == 2 ==> (n == 29 <==> IsLeap(y))
  {
    if m == 2 then (if IsLeap(y) then 29 else 28)
    else if m == 4 || m == 6 || m == 9 || m == 11 then 30
    else 31
  }

  /** Days in the months of year `y` that come before month `m`. */
  function DaysBeforeMonth(y: int, m: int): (n: int)
    requires 1 <= m <= 12
  {
    var common := [0, 31, 59, 90, 120, 151, 181, 212, 243, 273, 304, 334][m - 1];
    common + (if IsLeap(y) && m > 2 then 1 else 0)
  }

  /** Leap years strictly before year `y`, counted from year 1. */
  function LeapsBefore(y: int): int {
    (y - 1) / 4 - (y - 1) / 100 + (y - 1) / 400
  }

  /** Day number of the first day of year `y`; 1970-01-01 is day 0. */
  function YearStart(y: int): int {
    365 * (y - 1970) + LeapsBefore(y) - LeapsBefore(1970)
  }

  /** Day number of day `d` of month `m` of year `y`. */
  function DayNumber(y: int, m: int, d: int): int
    requires 1 <= m <= 12
  {
    YearStart(y) + DaysBeforeMonth(y, m) + (d - 1)
  }

  /** The calendar month after (y, m). */
  function NextMonth(y: int, m: int): (r: (int, int))
    requires 1 <= m <= 12
    ensures 1 <= r.1 <= 12
    ensures m < 12 ==> r == (y, m + 1)
    ensures m == 12 ==> r == (y + 1, 1)
  {
    if m == 12 then (y + 1, 1) else (y, m + 1)
  }

  lemma DivStep(y: int)
    ensures y / 4 - (y - 1) / 4 == (if y % 4 == 0 then 1 else 0)
    ensures y / 100 - (y - 1) / 100 == (if y % 100 == 0 then 1 else 0)
    ensures y / 400 - (y - 1) / 400 == (if y % 400 == 0 then 1 else 0)
  {
  }

  /** A year is 365 days long, one more when it is a leap year. */
  lemma YearLength(y: int)
    ensures YearStart(y + 1) - YearStart(y) == if IsLeap(y) then 366 else 365
  {
    DivStep(y);
  }

  /** The first day of the next month follows the last day of this one. */
  lemma MonthsAreContiguous(y: int, m: int)
    requires 1 <= m <= 12
    ensures DayNumber(NextMonth(y, m).0, NextMonth(y, m).1, 1)
         == DayNumber(y, m, 1) + MonthLength(y, m)
  {
    if m == 12 {
      YearLength(y);
    }
  }

  /** Midnight of a day is a whole number of days into the time line. */
  lemma WholeDays(d: int)
    ensures (d * SecondsPerDay) % SecondsPerDay == 0
  {
    DivModUnique(d * SecondsPerDay, SecondsPerDay, d, 0);
  }

  /** Seconds `[start, end]` of one calendar month, both ends included. */
  datatype Period = Period(start: int, end: int)

  /**
   * The bounds of month `month` of `year`: the 1st at 00:00:00 up to one
   * second before the 1st of the next month, December rolling into January
   * of the next year. `None` when `datetime` rejects a date it would build:
   * a month outside 1..12, a year outside 1..9999, or December 9999, whose
   * next month lies beyond the last year.
   */
  function MonthlyPeriod(year: int, month: int): (r: Option<Period>)
    ensures r.Some? <==> MinYear <= year <= MaxYear && 1 <= month <= 12
                         && !(year == MaxYear && month == 12)
    ensures r.Some? ==> r.value.start % SecondsPerDay == 0
    ensures r.Some? ==> r.value.start == DayNumber(year, month, 1) * SecondsPerDay
    ensures r.Some? ==>
      r.value.end - r.value.start + 1 == MonthLength(year, month) * SecondsPerDay
  {
    if year < MinYear || year > MaxYear || month < 1 || month > 12 then None
    else
      var (ny, nm) := NextMonth(year, month);
      if ny > MaxYear then None
      else
        MonthsAreContiguous(year, month);
        var start := DayNumber(year, month, 1) * SecondsPerDay;
        var next := DayNumber(ny, nm, 1) * SecondsPerDay;
        WholeDays(DayNumber(year, month, 1));
        Some(Period(start, next - 1))
  }

  /** Consecutive months tile the time line: no gap and no overlap. */
  lemma MonthlyPeriodsTile(year: int, month: int)
    requires MonthlyPeriod(year, month).Some?
    ensures MonthlyPeriod(NextMonth(year, month).0, NextMonth(year, month).1).Some? ==>
      MonthlyPeriod(NextMonth(year, month).0, NextMonth(year, month).1).value.start
        == MonthlyPeriod(year, month).value.end + 1
  {
    MonthsAreContiguous(year, month);
  }

  /** December ends one second before the next year's January begins. */
  lemma DecemberRollsOver(year: int)
    requires MinYear <= year < MaxYear
    ensures MonthlyPeriod(year, 12).value.end + 1 == MonthlyPeriod(year + 1, 1).value.start
  {
    MonthsAreContiguous(year, 12);
  }

  /**
   * Whole days between a period's bounds, as `timedelta.days` reports them:
   * one less than the month's length, since the end is 23:59:59.
   */
  function DaysInPeriod(p: Period): (n: int)
    requires p.start <= p.end
  {
    (p.end - p.start) / SecondsPerDay
  }

  lemma DaysInMonthlyPeriod(year: int, month: int)
    requires MonthlyPeriod(year, month).Some?
    ensures DaysInPeriod(MonthlyPeriod(year, month).value) == MonthLength(year, month) - 1
  {
    var p := MonthlyPeriod(year, month).value;
    var n := MonthLength(year, month);
    assert p.end - p.start == (n - 1) * SecondsPerDay + (SecondsPerDay - 1);
  }
}

=== FILE: collections.dfy ===
/** Facts about sequences and maps that the verifier does not apply on its own. */
module Collections {
  /** Concatenation is associative. */
  lemma Associative<T>(a: seq<T>, b: seq<T>, c: seq<T>)
    ensures a + (b + c) == (a + b) + c
  {
  }

  /** Two maps with the same keys and the same value under each key are equal. */
  lemma SameEntries<K, V>(a: map<K, V>, b: map<K, V>)
    requires forall k :: (k in a <==> k in b) && (k in a ==> a[k] == b[k])
    ensures a == b
  {
  }

  /**
   * `idx` lists, in increasing order, the positions of `s` that `r` keeps:
   * exactly those whose element satisfies `p`, each shown through `f`.
   */
  ghost predicate PicksAt<T, U>(r: seq<U>, s: seq<T>, p: T -> bool, f: T -> U, idx: seq<nat>) {
    && |idx| == |r|
    && (forall k :: 0 <= k < |idx| ==> idx[k] < |s| && p(s[idx[k]]) && r[k] == f(s[idx[k]]))
    && (forall k, l :: 0 <= k < l < |idx| ==> idx[k] < idx[l])
    && (forall i :: 0 <= i < |s| && p(s[i]) ==> i in idx)
  }

  /**
   * `r` is `[f(x) | x in s if p(x)]`: the elements of `s` satisfying `p`,
   * in their order in `s`, duplicates kept, each mapped through `f`.
   */
  ghost predicate IsFilterMapOf<T, U>(r: seq<U>, s: seq<T>, p: T -> bool, f: T -> U) {
    exists idx: seq<nat> :: PicksAt(r, s, p, f, idx)
  }

  /** Python's `[f(x) for x in s if p(x)]`. */
  function FilterMap<T, U>(s: seq<T>, p: T -> bool, f: T -> U): seq<U> {
    if |s| == 0 then []
    else (if p(s[0]) then [f(s[0])] else []) + FilterMap(s[1..], p, f)
  }

  /** Python's `[x for x in s if p(x)]`. */
  function Filter<T>(s: seq<T>, p: T -> bool): seq<T> {
    if |s| == 0 then []
    else (if p(s[0]) then [s[0]] else []) + Filter(s[1..], p)
  }

  /** The positions of `s` whose element satisfies `p`, in increasing order. */
  function Positions<T>(s: seq<T>, p: T -> bool): seq<nat> {
    if |s| == 0 then []
    else (if p(s[0]) then [0] else []) + Shift(Positions(s[1..], p))
  }

  /**
   * The reference filter-map keeps, in order, exactly the positions of `s`
   * whose element satisfies `p`, each mapped through `f`.
   */
  lemma FilterMapPicks<T, U>(s: seq<T>, p: T -> bool, f: T -> U)
    ensures IsFilterMapOf(FilterMap(s, p, f), s, p, f)
  {
    FilterMapPicksAt(s, p, f);
  }

  /** `FilterMapPicks` with its witness named. */
  lemma {:induction false} FilterMapPicksAt<T, U>(s: seq<T>, p: T -> bool, f: T -> U)
    ensures PicksAt(FilterMap(s, p, f), s, p, f, Positions(s, p))
  {
    if |s| == 0 {
    } else {
      var rest := FilterMap(s[1..], p, f);
      FilterMapPicksAt(s[1..], p, f);
      assert [s[0]] + s[1..] == s;
      var idx := Positions(s[1..], p);
      if p(s[0]) {
        KeptPicks(s[0], s[1..], rest, p, f, idx);
        assert FilterMap(s, p, f) == [f(s[0])] + rest;
        assert Positions(s, p) == [0] + Shift(idx);
      } else {
        SkippedPicks(s[0], s[1..], rest, p, f, idx);
        assert FilterMap(s, p, f) == rest;
        assert Positions(s, p) == Shift(idx);
      }
    }
  }

  function Same<T>(): T -> T {
    x => x
  }

  /** `r` is `[x | x in s if p(x)]`: the elements of `s` satisfying `p`, in order, duplicates kept. */
  ghost predicate IsFilterOf<T>(r: seq<T>, s: seq<T>, p: T -> bool) {
    IsFilterMapOf(r, s, p, Same())
  }

  /** The reference filter keeps, in order, exactly the elements of `s` satisfying `p`. */
  lemma FilterPicks<T>(s: seq<T>, p: T -> bool)
    ensures IsFilterOf(Filter(s, p), s, p)
  {
    FilterIsFilterMap(s, p);
    FilterMapPicks(s, p, Same());
  }

  /** A filter is the filter-map through the identity. */
  lemma {:induction false} FilterIsFilterMap<T>(s: seq<T>, p: T -> bool)
    ensures Filter(s, p) == FilterMap(s, p, Same())
  {
    if |s| > 0 {
      FilterIsFilterMap(s[1..], p);
    }
  }

  /** Mapping `f` over the filter of `s` is the filter-map of `s`. */
  lemma {:induction false} MapOfFilter<T, U>(s: seq<T>, p: T -> bool, f: T -> U, r: seq<U>)
    requires |r| == |Filter(s, p)|
    requires forall k :: 0 <= k < |r| ==> r[k] == f(Filter(s, p)[k])
    ensures r == FilterMap(s, p, f)
  {
    if |s| > 0 {
      var rest := Filter(s[1..], p);
      if p(s[0]) {
        assert Filter(s, p) == [s[0]] + rest;
        forall k | 0 <= k < |r[1..]|
          ensures r[1..][k] == f(rest[k])
        {
          assert r[k + 1] == f(Filter(s, p)[k + 1]);
        }
        MapOfFilter(s[1..], p, f, r[1..]);
        assert r == [r[0]] + r[1..];
      } else {
        assert Filter(s, p) == rest;
        MapOfFilter(s[1..], p, f, r);
      }
    }
  }

  /** The elements a filter keeps are exactly those of `s` satisfying `p`. */
  lemma {:induction false} FilterMembers<T>(s: seq<T>, p: T -> bool)
    ensures forall x :: x in Filter(s, p) <==> x in s && p(x)
    ensures |Filter(s, p)| <= |s|
  {
    if |s| > 0 {
      FilterMembers(s[1..], p);
      assert s == [s[0]] + s[1..];
    }
  }

  /** The filter of a concatenation is the concatenation of the filters. */
  lemma {:induction false} FilterAppend<T>(a: seq<T>, b: seq<T>, p: T -> bool)
    ensures Filter(a + b, p) == Filter(a, p) + Filter(b, p)
  {
    if |a| > 0 {
      assert (a + b)[1..] == a[1..] + b;
      FilterAppend(a[1..], b, p);
      Associative(if p(a[0]) then [a[0]] else [], Filter(a[1..], p), Filter(b, p));
    } else {
      assert a + b == b;
    }
  }

  /** The positions a filter of `s` picks, preceded by 0, pick `x` and then the same elements from `[x] + s`. */
  lemma KeptPicks<T, U>(x: T, s: seq<T>, r: seq<U>, p: T -> bool, f: T -> U, idx: seq<nat>)
    requires PicksAt(r, s, p, f, idx)
    requires p(x)
    ensures PicksAt([f(x)] + r, [x] + s, p, f, [0] + Shift(idx))
  {
    KeptElements(x, s, r, p, f, idx);
    KeptIncreasing(idx);
    KeptComplete(x, s, p, idx);
  }

  /** The completeness conjunct of `KeptPicks`. */
  lemma KeptComplete<T>(x: T, s: seq<T>, p: T -> bool, idx: seq<nat>)
    requires forall i :: 0 <= i < |s| && p(s[i]) ==> i in idx
    ensures forall i :: 0 <= i < |[x] + s| && p(([x] + s)[i]) ==> i in [0] + Shift(idx)
  {
    ShiftComplete(x, s, p, idx);
    var idx' := [0] + Shift(idx);
    forall i | 0 <= i < |[x] + s| && p(([x] + s)[i])
      ensures i in idx'
    {
      if i > 0 {
        var k :| 0 <= k < |Shift(idx)| && Shift(idx)[k] == i;
        assert idx'[k + 1] == i;
      }
    }
  }

  /** The element conjunct of `KeptPicks`. */
  lemma KeptElements<T, U>(x: T, s: seq<T>, r: seq<U>, p: T -> bool, f: T -> U, idx: seq<nat>)
    requires PicksAt(r, s, p, f, idx)
    requires p(x)
    ensures var t, idx', r' := [x] + s, [0] + Shift(idx), [f(x)] + r;
      forall k :: 0 <= k < |idx'| ==> idx'[k] < |t| && p(t[idx'[k]]) && r'[k] == f(t[idx'[k]])
  {
    var t, idx', r' := [x] + s, [0] + Shift(idx), [f(x)] + r;
    forall k | 0 < k < |idx'|
      ensures idx'[k] < |t| && p(t[idx'[k]]) && r'[k] == f(t[idx'[k]])
    {
      assert idx'[k] == idx[k - 1] + 1;
      assert t[idx'[k]] == s[idx[k - 1]];
    }
  }

  /** The ordering conjunct of `KeptPicks`. */
  lemma KeptIncreasing(idx: seq<nat>)
    requires forall k, l :: 0 <= k < l < |idx| ==> idx[k] < idx[l]
    ensures var idx' := [0] + Shift(idx);
      forall k, l :: 0 <= k < l < |idx'| ==> idx'[k] < idx'[l]
  {
    var idx' := [0] + Shift(idx);
    forall k, l | 0 <= k < l < |idx'|
      ensures idx'[k] < idx'[l]
    {
      if k > 0 {
        assert idx'[k] == idx[k - 1] + 1 && idx'[l] == idx[l - 1] + 1;
      } else {
        assert idx'[l] == idx[l - 1] + 1;
      }
    }
  }

  /** Every position one further on. */
  function Shift(idx: seq<nat>): (r: seq<nat>)
    ensures |r| == |idx|
    ensures forall k :: 0 <= k < |idx| ==> r[k] == idx[k] + 1
  {
    seq(|idx|, k requires 0 <= k < |idx| => idx[k] + 1)
  }

  /** When `p` rejects `x`, the positions a filter of `s` picks, one further on, pick the same elements from `[x] + s`. */
  lemma SkippedPicks<T, U>(x: T, s: seq<T>, r: seq<U>, p: T -> bool, f: T -> U, idx: seq<nat>)
    requires PicksAt(r, s, p, f, idx)
    requires !p(x)
    ensures PicksAt(r, [x] + s, p, f, Shift(idx))
  {
    ShiftComplete(x, s, p, idx);
    ShiftElements(x, s, r, p, f, idx);
    var t, shifted := [x] + s, Shift(idx);
    forall k | 0 <= k < |shifted|
      ensures shifted[k] < |t| && p(t[shifted[k]]) && r[k] == f(t[shifted[k]])
    {
    }
    forall k, l | 0 <= k < l < |shifted|
      ensures shifted[k] < shifted[l]
    {
    }
    forall i | 0 <= i < |t| && p(t[i])
      ensures i in shifted
    {
      assert i != 0;
    }
  }

  /** Every later position `p` accepts is among the shifted positions. */
  lemma ShiftComplete<T>(x: T, s: seq<T>, p: T -> bool, idx: seq<nat>)
    requires forall i :: 0 <= i < |s| && p(s[i]) ==> i in idx
    ensures forall i :: 0 < i < |[x] + s| && p(([x] + s)[i]) ==> i in Shift(idx)
  {
    var t := [x] + s;
    var shifted := Shift(idx);
    forall i | 0 < i < |t| && p(t[i])
      ensures i in shifted
    {
      assert t[i] == s[i - 1];
      var k :| 0 <= k < |idx| && idx[k] == i - 1;
      assert shifted[k] == i;
    }
  }

  /** Shifted positions point at the same elements of `[x] + s`. */
  lemma ShiftElements<T, U>(x: T, s: seq<T>, r: seq<U>, p: T -> bool, f: T -> U, idx: seq<nat>)
    requires |idx| == |r|
    requires forall k :: 0 <= k < |idx| ==> idx[k] < |s| && p(s[idx[k]]) && r[k] == f(s[idx[k]])
    ensures forall k :: 0 <= k < |idx| ==> Shift(idx)[k] < |[x] + s| && ([x] + s)[Shift(idx)[k]] == s[idx[k]]
  {
  }
}

=== FILE: competitionprogress.dfy ===
/**
 * Collecting competition stats from the faction contributors reply, the
 * gym-energy total, when a start stat is recorded, and the text progress
 * bars of the progress view.
 */
module CompetitionProgress {
  import opened Wrappers
  import opened PyText
  import opened Json
  import CompetitionUtils

  // ---------------------------------------------------------------------
  // Contributors reply
  // ---------------------------------------------------------------------

  /** Values gathered so far: stat name to player id to value. */
  type StatValues = map<string, map<int, real>>

  /** The `contributed` number of a contributor record, as `float()` reads it; booleans are numbers in Python. */
  function Contributed(record: Json): (r: Option<real>)
    ensures !record.JObj? ==> r.None?
  {
    if !record.JObj? then None
    else
      match Lookup(record.fields, "contributed")
      case Some(JInt(i)) => Some(i as real)
      case Some(JFloat(f)) => Some(f)
      case Some(JBool(b)) => Some(if b then 1.0 else 0.0)
      case _ => None
  }

  /** Whether entry `i` is the first with its key: a `dict` lists each key once, where it first occurs. */
  predicate FirstOccurrence(entries: seq<(string, Json)>, i: nat)
    requires i < |entries|
  {
    forall j :: 0 <= j < i ==> entries[j].0 != entries[i].0
  }

  /**
   * What the `i`-th entry of a stat's contributors records: the player id
   * its key converts to and the contributed value, when the key is seen for
   * the first time, converts, names a participant, and holds a number. The
   * value read is the key's last binding, as in a decoded `dict`.
   */
  function Recorded(entries: seq<(string, Json)>, i: nat, participants: set<int>): (r: Option<(int, real)>)
    requires i < |entries|
    ensures r.Some? ==> r.value.0 in participants && ParseInt(entries[i].0) == Some(r.value.0)
  {
    if !FirstOccurrence(entries, i) then None
    else
      match ParseInt(entries[i].0)
      case None => None
      case Some(id) =>
        if id !in participants then None
        else
          match Contributed(Lookup(entries, entries[i].0).value)
          case None => None
          case Some(v) => Some((id, v))
  }

  function Record(values: StatValues, stat: string, id: int, v: real): StatValues {
    var inner := if stat in values then values[stat] else map[];
    values[stat := inner[id := v]]
  }

  /** What each entry records, in order. */
  function Records(entries: seq<(string, Json)>, participants: set<int>): (recs: seq<Option<(int, real)>>)
    ensures |recs| == |entries|
    ensures forall i :: 0 <= i < |entries| ==> recs[i] == Recorded(entries, i, participants)
  {
    seq(|entries|, i requires 0 <= i < |entries| => Recorded(entries, i, participants))
  }

  /** The records `recs[..upto]` absorbed in order; a later record for the same player overwrites an earlier one. */
  function Absorb(recs: seq<Option<(int, real)>>, upto: nat, stat: string, values: StatValues): (r: StatValues)
    requires upto <= |recs|
    ensures forall s :: s != stat ==> (s in r <==> s in values) && (s in values ==> r[s] == values[s])
    ensures stat in values ==> stat in r
  {
    if upto == 0 then values
    else
      var before := Absorb(recs, upto - 1, stat, values);
      match recs[upto - 1]
      case None => before
      case Some((id, v)) => Record(before, stat, id, v)
  }

  /** The last record for a player decides the player's value. */
  lemma {:induction false} AbsorbLastWins(recs: seq<Option<(int, real)>>, upto: nat, stat: string,
                                          values: StatValues, i: nat)
    requires i < upto <= |recs| && recs[i].Some?
    requires forall j :: i < j < upto ==> (recs[j].None? || recs[j].value.0 != recs[i].value.0)
    ensures var r := Absorb(recs, upto, stat, values);
      stat in r && recs[i].value.0 in r[stat] && r[stat][recs[i].value.0] == recs[i].value.1
  {
    if i < upto - 1 {
      AbsorbLastWins(recs, upto - 1, stat, values, i);
    }
  }

  /** A player no record mentions keeps what was gathered before. */
  lemma {:induction false} AbsorbLeavesOthers(recs: seq<Option<(int, real)>>, upto: nat, stat: string,
                                              values: StatValues, id: int)
    requires upto <= |recs|
    requires forall j :: 0 <= j < upto ==> (recs[j].None? || recs[j].value.0 != id)
    ensures var r := Absorb(recs, upto, stat, values);
      (stat in r && id in r[stat]) <==> (stat in values && id in values[stat])
    ensures var r := Absorb(recs, upto, stat, values);
      stat in values && id in values[stat] ==> r[stat][id] == values[stat][id]
  {
    if upto > 0 {
      AbsorbLeavesOthers(recs, upto - 1, stat, values, id);
    }
  }

  /** Every value held for the stat afterwards was recorded, or was there before. */
  lemma {:induction false} AbsorbOnlyRecorded(recs: seq<Option<(int, real)>>, upto: nat, stat: string,
                                              values: StatValues, id: int)
    requires upto <= |recs|
    requires var r := Absorb(recs, upto, stat, values); stat in r && id in r[stat]
    ensures (exists j :: 0 <= j < upto && recs[j].Some? && recs[j].value.0 == id)
         || (stat in values && id in values[stat])
  {
    if upto > 0 {
      if recs[upto - 1].None? || recs[upto - 1].value.0 != id {
        AbsorbOnlyRecorded(recs, upto - 1, stat, values, id);
      }
    }
  }

  /**
   * The contributors of `stat` in a faction reply: `response.contributors`
   * and then its `stat` member, each ignored unless it is an object.
   */
  function StatContributors(response: seq<(string, Json)>, stat: string): (r: seq<(string, Json)>)
  {
    match Lookup(response, "contributors")
    case Some(JObj(contributors)) =>
      (match Lookup(contributors, stat)
       case Some(JObj(entries)) => entries
       case _ => [])
    case _ => []
  }

  /** The contributors reply for one stat folded into the values gathered so far. */
  function ProcessContributors(response: seq<(string, Json)>, stat: string, participants: set<int>,
                               values: StatValues): (r: StatValues)
    ensures forall s :: s != stat ==> (s in r <==> s in values) && (s in values ==> r[s] == values[s])
    ensures StatContributors(response, stat) == [] ==> r == values
  {
    var entries := StatContributors(response, stat);
    var recs := Records(entries, participants);
    Absorb(recs, |recs|, stat, values)
  }

  /** A participant listed once, under its own id, gets exactly the value the reply gives. */
  lemma CanonicalEntryIsRecorded(response: seq<(string, Json)>, stat: string, participants: set<int>,
                                 values: StatValues, i: nat)
    requires var e := StatContributors(response, stat);
      i < |e| && Recorded(e, i, participants).Some?
      && forall j :: 0 <= j < |e| && j != i ==> ParseInt(e[j].0) != ParseInt(e[i].0)
    ensures var e := StatContributors(response, stat);
      var r := ProcessContributors(response, stat, participants, values);
      var (id, v) := Recorded(e, i, participants).value;
      stat in r && id in r[stat] && r[stat][id] == v
  {
    var e := StatContributors(response, stat);
    var recs := Records(e, participants);
    forall j | i < j < |recs| ensures recs[j].None? || recs[j].value.0 != recs[i].value.0 {
      assert ParseInt(e[j].0) != ParseInt(e[i].0);
    }
    AbsorbLastWins(recs, |recs|, stat, values, i);
  }

  /** Values are only ever recorded for participants: nobody else gains a value for the stat. */
  lemma OnlyParticipantsGainValues(response: seq<(string, Json)>, stat: string, participants: set<int>,
                                   values: StatValues, id: int)
    requires id !in participants
    ensures var r := ProcessContributors(response, stat, participants, values);
      (stat in r && id in r[stat]) <==> (stat in values && id in values[stat])
  {
    var e := StatContributors(response, stat);
    var recs := Records(e, participants);
    AbsorbLeavesOthers(recs, |recs|, stat, values, id);
  }

  // ---------------------------------------------------------------------
  // The value of the tracked stat
  // ---------------------------------------------------------------------

  /** The stat a participant's value is read from, and the history rows written on the way. */
  datatype Collected = Collected(history: seq<(string, real)>, value: Option<real>)

  function Gathered(values: StatValues, stat: string, id: int): Option<real> {
    if stat in values && id in values[stat] then Some(values[stat][id]) else None
  }

  /** The gym stats in order up to the first one missing, each with its value. */
  function GymWalk(values: StatValues, id: int, stats: seq<string>): (h: seq<(string, real)>)
    ensures |h| <= |stats|
    ensures forall k :: 0 <= k < |h| ==> h[k].0 == stats[k] && Gathered(values, stats[k], id) == Some(h[k].1)
    ensures |h| < |stats| ==> Gathered(values, stats[|h|], id).None?
  {
    if |stats| == 0 then []
    else
      match Gathered(values, stats[0], id)
      case None => []
      case Some(v) => [(stats[0], v)] + GymWalk(values, id, stats[1..])
  }

  function SumValues(h: seq<(string, real)>): real {
    if |h| == 0 then 0.0 else h[0].1 + SumValues(h[1..])
  }

  /**
   * A participant's value of the tracked stat. For `gym_e_spent` it is the
   * sum of the four gym stats, each written to history as it is read; a
   * missing one stops the walk and leaves the value unknown, and a complete
   * sum is written too. Any other stat is read directly.
   */
  function CollectValue(tracked: string, values: StatValues, id: int): (r: Collected)
    ensures tracked != "gym_e_spent" ==> r.value == Gathered(values, tracked, id)
    ensures tracked != "gym_e_spent" ==>
      r.history == (if r.value.Some? then [(tracked, r.value.value)] else [])
    ensures tracked == "gym_e_spent" ==>
      (r.value.Some? <==> forall s :: s in CompetitionUtils.GymStats ==> Gathered(values, s, id).Some?)
  {
    if tracked == "gym_e_spent" then
      var h := GymWalk(values, id, CompetitionUtils.GymStats);
      if |h| == |CompetitionUtils.GymStats| then
        assert forall k :: 0 <= k < 4 ==> Gathered(values, CompetitionUtils.GymStats[k], id).Some?;
        Collected(h + [("gym_e_spent", SumValues(h))], Some(SumValues(h)))
      else
        assert CompetitionUtils.GymStats[|h|] in CompetitionUtils.GymStats;
        Collected(h, None)
    else
      match Gathered(values, tracked, id)
      case None => Collected([], None)
      case Some(v) => Collected([(tracked, v)], Some(v))
  }

  /** The gym-energy total is the four gym stats added up. */
  lemma GymEnergyIsTheSum(values: StatValues, id: int, a: real, b: real, c: real, d: real)
    requires Gathered(values, "gymstrength", id) == Some(a)
    requires Gathered(values, "gymspeed", id) == Some(b)
    requires Gathered(values, "gymdefense", id) == Some(c)
    requires Gathered(values, "gymdexterity", id) == Some(d)
    ensures CollectValue("gym_e_spent", values, id).value == Some(a + b + c + d)
    ensures |CollectValue("gym_e_spent", values, id).history| == 5
  {
    var h := GymWalk(values, id, CompetitionUtils.GymStats);
    assert h == [("gymstrength", a), ("gymspeed", b), ("gymdefense", c), ("gymdexterity", d)];
    assert SumValues(h[3..]) == d by { assert h[3..][1..] == []; }
    assert SumValues(h[2..]) == c + d by { assert h[2..][1..] == h[3..]; }
    assert SumValues(h[1..]) == b + c + d by { assert h[1..][1..] == h[2..]; }
  }

  // ---------------------------------------------------------------------
  // Start stats
  // ---------------------------------------------------------------------

  /**
   * The start stat after a collection pass: a collected value becomes the
   * start stat only when none is recorded and the competition has started.
   */
  function NextStart(recorded: Option<real>, collected: Option<real>, now: int, startDate: int): (r: Option<real>)
    ensures recorded.Some? ==> r == recorded
    ensures r != recorded ==> r == collected && now >= startDate
    ensures recorded.None? && collected.Some? && now >= startDate ==> r == collected
  {
    if collected.Some? && recorded.None? && now >= startDate then collected else recorded
  }

  /** Once recorded, a start stat never changes on later passes. */
  lemma StartStatIsSetOnce(recorded: Option<real>, first: Option<real>, later: Option<real>,
                           now: int, laterNow: int, startDate: int)
    requires NextStart(recorded, first, now, startDate).Some?
    ensures NextStart(NextStart(recorded, first, now, startDate), later, laterNow, startDate)
         == NextStart(recorded, first, now, startDate)
  {
  }

  // ---------------------------------------------------------------------
  // Progress bars
  // ---------------------------------------------------------------------

  const BarLength := 20
  const MaxNameLength := 25

  /** A row of the progress view: a team or a player, its progress, and (for players) the team name. */
  datatype ProgressRow = ProgressRow(name: string, progress: real, team: Option<string>)

  /** One line of the bar chart, before it is rendered as text. */
  datatype BarLine = BarLine(rank: nat, rising: bool, name: string, team: Option<string>, bar: string, progress: real)

  function Abs(x: real): real {
    if x < 0.0 then -x else x
  }

  function MaxAbs(rows: seq<ProgressRow>): (m: real)
    requires |rows| > 0
    ensures forall i :: 0 <= i < |rows| ==> Abs(rows[i].progress) <= m
    ensures exists i :: 0 <= i < |rows| && Abs(rows[i].progress) == m
  {
    if |rows| == 1 then Abs(rows[0].progress)
    else
      var rest := MaxAbs(rows[1..]);
      assert forall i :: 1 <= i < |rows| ==> rows[i] == rows[1..][i - 1];
      if Abs(rows[0].progress) >= rest then Abs(rows[0].progress) else rest
  }

  /** A name of at most 25 characters, longer ones cut to 22 followed by "...". */
  function ShortName(name: string): (r: string)
    ensures |r| <= MaxNameLength
    ensures |name| <= MaxNameLength ==> r == name
    ensures |name| > MaxNameLength ==> |r| == MaxNameLength && r[..22] == name[..22] && r[22..] == "..."
  {
    if |name| > MaxNameLength then name[..22] + "..." else name
  }

  function Repeat(c: char, n: nat): (r: string)
    ensures |r| == n && forall i :: 0 <= i < n ==> r[i] == c
  {
    if n == 0 then "" else [c] + Repeat(c, n - 1)
  }

  /** Filled cells for a progress of `p` when the largest magnitude is `scale`. */
  function Filled(p: real, scale: real): (n: nat)
    requires scale > 0.0 && Abs(p) <= scale
    ensures n <= BarLength
    ensures Abs(p) == scale ==> n == BarLength
    ensures n as real <= Abs(p) / scale * BarLength as real < n as real + 1.0
  {
    var ratio := Abs(p) / scale;
    RatioInUnit(Abs(p), scale);
    var x := ratio * BarLength as real;
    assert 0.0 <= x <= 20.0;
    x.Floor
  }

  lemma RatioInUnit(a: real, scale: real)
    requires 0.0 <= a <= scale && scale > 0.0
    ensures 0.0 <= a / scale <= 1.0
    ensures a == scale ==> a / scale == 1.0
  {
    var q := a / scale;
    assert q * scale == a;
  }

  /**
   * The bar: `fill` full cells then empty ones for a rising row, empty
   * cells first for a falling one, 20 cells either way.
   */
  function Bar(rising: bool, fill: nat): (b: string)
    requires fill <= BarLength
    ensures |b| == BarLength
    ensures rising ==> forall i :: 0 <= i < BarLength ==> (b[i] == '█' <==> i < fill)
    ensures !rising ==> forall i :: 0 <= i < BarLength ==> (b[i] == '█' <==> i >= BarLength - fill)
  {
    if rising then Repeat('█', fill) + Repeat('░', BarLength - fill)
    else Repeat('░', BarLength - fill) + Repeat('█', fill)
  }

  /** The magnitude every bar is scaled by: the largest one, or 1 when all are zero. */
  function Scale(rows: seq<ProgressRow>): (m: real)
    requires |rows| > 0
    ensures m > 0.0 && forall i :: 0 <= i < |rows| ==> Abs(rows[i].progress) <= m
  {
    var m := MaxAbs(rows);
    if m == 0.0 then 1.0 else m
  }

  function LineFor(rows: seq<ProgressRow>, i: nat, individual: bool): (line: BarLine)
    requires i < |rows|
  {
    var p := rows[i].progress;
    BarLine(i + 1, p >= 0.0, ShortName(rows[i].name),
            if individual then rows[i].team else None,
            Bar(p >= 0.0, Filled(p, Scale(rows))), p)
  }

  /**
   * The bar chart of a progress view, `None` when there is nothing to show.
   * Team names are shown only in the individual view.
   */
  function ProgressBars(rows: seq<ProgressRow>, individual: bool): (r: Option<seq<BarLine>>)
    ensures r.None? <==> |rows| == 0
    ensures r.Some? ==> |r.value| == |rows|
    ensures r.Some? ==> forall i :: 0 <= i < |rows| ==> (
      var line := r.value[i];
      && line.rank == i + 1
      && line.rising == (rows[i].progress >= 0.0)
      && line.name == ShortName(rows[i].name)
      && line.progress == rows[i].progress
      && (line.team.Some? <==> individual && rows[i].team.Some?)
      && line.team == (if individual then rows[i].team else None)
      && |line.bar| == BarLength)
  {
    if |rows| == 0 then None
    else Some(seq(|rows|, i requires 0 <= i < |rows| => LineFor(rows, i, individual)))
  }

  /** Full cells in a bar. */
  function FullCells(b: string): nat {
    if |b| == 0 then 0 else (if b[0] == '█' then 1 else 0) + FullCells(b[1..])
  }

  lemma {:induction false} FullCellsOfRepeat(c: char, n: nat)
    ensures FullCells(Repeat(c, n)) == if c == '█' then n else 0
  {
    if n > 0 {
      FullCellsOfRepeat(c, n - 1);
      assert Repeat(c, n)[1..] == Repeat(c, n - 1);
    }
  }

  lemma {:induction false} FullCellsAppend(a: string, b: string)
    ensures FullCells(a + b) == FullCells(a) + FullCells(b)
  {
    if |a| == 0 {
      assert a + b == b;
    } else {
      assert (a + b)[0] == a[0];
      assert (a + b)[1..] == a[1..] + b;
      FullCellsAppend(a[1..], b);
    }
  }

  lemma FullCellsOfBar(rising: bool, fill: nat)
    requires fill <= BarLength
    ensures FullCells(Bar(rising, fill)) == fill
  {
    FullCellsOfRepeat('█', fill);
    FullCellsOfRepeat('░', BarLength - fill);
    if rising {
      FullCellsAppend(Repeat('█', fill), Repeat('░', BarLength - fill));
    } else {
      FullCellsAppend(Repeat('░', BarLength - fill), Repeat('█', fill));
    }
  }

  /**
   * Each bar has `floor(|p| / max|p| * 20)` full cells, so the row with the
   * largest magnitude has a full bar and a zero row an empty one.
   */
  lemma BarsAreScaled(rows: seq<ProgressRow>, individual: bool, i: nat)
    requires i < |rows|
    ensures var line := ProgressBars(rows, individual).value[i];
      && FullCells(line.bar) == Filled(rows[i].progress, Scale(rows))
      && (Abs(rows[i].progress) == MaxAbs(rows) > 0.0 ==> FullCells(line.bar) == BarLength)
      && (rows[i].progress == 0.0 ==> FullCells(line.bar) == 0)
  {
    var p := rows[i].progress;
    var line := ProgressBars(rows, individual).value[i];
    assert line == LineFor(rows, i, individual);
    var f := Filled(p, Scale(rows));
    FullCellsOfBar(p >= 0.0, f);
    assert FullCells(line.bar) == f;
    if p == 0.0 {
      ZeroIsEmpty(Scale(rows));
    }
  }

  lemma ZeroIsEmpty(scale: real)
    requires scale > 0.0
    ensures Filled(0.0, scale) == 0
  {
    assert Abs(0.0) / scale * BarLength as real == 0.0;
  }
}

=== FILE: competitions.dfy ===
/**
 * The competition commands' arithmetic: each participant's improvement
 * since the start, individual and team rankings, the faction overview,
 * the checks a new competition must pass, which players a participant-add
 * takes on, and the round-robin team assignment.
 *
 * Stored stat values are given as maps from player id to value: `starts`
 * holds the start stats recorded for the competition, `currents` each
 * player's current stat value.
 */
module Competitions {
  import opened Wrappers
  import opened PyText
  import opened Sorting
  import opened Arith
  import Calendar
  import CompetitionUtils
  import Collections

  /** A participant row, joined with the player's stored name. */
  datatype Participant = Participant(playerId: int, playerName: Option<string>, teamId: Option<int>)

  function Stat(m: map<int, real>, id: int): Option<real> {
    if id in m then Some(m[id]) else None
  }

  // ---------------------------------------------------------------------
  // Improvement since the start
  // ---------------------------------------------------------------------

  /**
   * A participant's improvement as the status command computes it: the
   * difference when both stats are known; 0 while no start stat is
   * recorded, even when the current stat is unknown too; unknown when
   * only the current stat is missing.
   */
  function Delta(start: Option<real>, current: Option<real>): (d: Option<real>)
    ensures d.None? <==> start.Some? && current.None?
    ensures start.None? ==> d == Some(0.0)
    ensures d.Some? && start.Some? ==> d.value + start.value == current.value
  {
    match (start, current)
    case (Some(s), Some(c)) => Some(c - s)
    case (None, _) => Some(0.0)
    case (Some(_), None) => None
  }

  /** A participant's share of a team or faction total: the difference when both stats are known, else 0. */
  function Contribution(start: Option<real>, current: Option<real>): (c: real)
    ensures (start.None? || current.None?) ==> c == 0.0
    ensures start.Some? && current.Some? ==> c + start.value == current.value
  {
    if start.Some? && current.Some? then current.value - start.value else 0.0
  }

  /** The team and faction views agree with the status view except where only the current stat is missing. */
  lemma ContributionIsDeltaOrZero(start: Option<real>, current: Option<real>)
    ensures Contribution(start, current) == Delta(start, current).GetOr(0.0)
    ensures start.Some? && current.Some? ==> Delta(start, current) == Some(Contribution(start, current))
  {
  }

  // ---------------------------------------------------------------------
  // Individual rankings
  // ---------------------------------------------------------------------

  /** A row of the individual ranking. */
  datatype RankEntry = RankEntry(playerId: int, name: string, teamId: Option<int>,
                                 start: Option<real>, current: Option<real>, delta: Option<real>)

  /** The stored name, or "Player <id>" when it is missing or empty. */
  function DisplayName(name: Option<string>, id: int): (r: string)
    ensures (name.Some? && name.value != "") ==> r == name.value
    ensures (name.None? || name.value == "") ==> r == "Player " + IntToString(id)
  {
    if name.Some? && name.value != "" then name.value else "Player " + IntToString(id)
  }

  /** The sort key: an unknown improvement counts as minus infinity. */
  function ScoreOf(e: RankEntry): (s: Score)
    ensures s.NegInf? <==> e.delta.None?
  {
    match e.delta
    case None => NegInf
    case Some(d) => Val(d)
  }

  function EntryFor(p: Participant, starts: map<int, real>, currents: map<int, real>): RankEntry {
    var s := Stat(starts, p.playerId);
    var c := Stat(currents, p.playerId);
    RankEntry(p.playerId, DisplayName(p.playerName, p.playerId), p.teamId, s, c, Delta(s, c))
  }

  /** One ranking row per participant, in participant order. */
  function Entries(ps: seq<Participant>, starts: map<int, real>, currents: map<int, real>): (r: seq<RankEntry>)
    ensures |r| == |ps|
    ensures forall i :: 0 <= i < |ps| ==> r[i] == EntryFor(ps[i], starts, currents)
  {
    seq(|ps|, i requires 0 <= i < |ps| => EntryFor(ps[i], starts, currents))
  }

  /**
   * How many rows are shown: `limit` when it is given and non-zero, else
   * ten or all when fewer, read as a Python slice bound (a negative limit
   * drops that many rows from the end).
   */
  function ShownCount(limit: Option<int>, n: nat): (m: nat)
    ensures m <= n
    ensures (limit.None? || limit.value == 0) ==> m == if n < 10 then n else 10
    ensures (limit.Some? && limit.value > 0) ==> m == if limit.value < n then limit.value else n
    ensures (limit.Some? && limit.value < 0) ==> m == if n + limit.value > 0 then n + limit.value else 0
  {
    var bound := if limit.Some? && limit.value != 0 then limit.value else (if n < 10 then n else 10);
    if bound >= 0 then (if bound < n then bound else n)
    else if n + bound > 0 then n + bound else 0
  }

  datatype StatusOutcome =
    | NoParticipants
    | Standings(ranked: seq<RankEntry>, shown: seq<RankEntry>)

  /**
   * The status command's ranking: best improvement first, or worst first
   * when `showWorst`, equal improvements in participant order, and the
   * first `ShownCount` rows shown.
   */
  function CompetitionStatus(ps: seq<Participant>, starts: map<int, real>, currents: map<int, real>,
                             showWorst: bool, limit: Option<int>): (r: StatusOutcome)
    ensures r.NoParticipants? <==> |ps| == 0
    ensures r.Standings? ==> (
      && multiset(r.ranked) == multiset(Entries(ps, starts, currents))
      && Ordered(r.ranked, ScoreOf, !showWorst)
      && (forall k :: Tied(r.ranked, ScoreOf, k) == Tied(Entries(ps, starts, currents), ScoreOf, k))
      && |r.ranked| == |ps|
      && r.shown == r.ranked[..ShownCount(limit, |ps|)])
  {
    if |ps| == 0 then NoParticipants
    else
      var entries := Entries(ps, starts, currents);
      var ranked := Sort(entries, ScoreOf, !showWorst);
      SortIsOrdered(entries, ScoreOf, !showWorst);
      forall k ensures Tied(ranked, ScoreOf, k) == Tied(entries, ScoreOf, k) {
        SortIsStable(entries, ScoreOf, !showWorst, k);
      }
      Standings(ranked, ranked[..ShownCount(limit, |ps|)])
  }

  /** No row left out of the display ranks ahead of a shown one. */
  lemma ShownAreTheBest(ps: seq<Participant>, starts: map<int, real>, currents: map<int, real>,
                        showWorst: bool, limit: Option<int>, i: nat, e: RankEntry)
    requires |ps| > 0
    requires var r := CompetitionStatus(ps, starts, currents, showWorst, limit);
      i < |r.shown| && e in multiset(r.ranked) - multiset(r.shown)
    ensures var r := CompetitionStatus(ps, starts, currents, showWorst, limit);
      !Ahead(ScoreOf(e), ScoreOf(r.shown[i]), !showWorst)
  {
    var r := CompetitionStatus(ps, starts, currents, showWorst, limit);
    PrefixIsBest(r.ranked, |r.shown|, i, e, !showWorst);
  }

  /** In an ordered ranking, an entry outside the first `m` rows ranks no higher than any of them. */
  lemma PrefixIsBest(ranked: seq<RankEntry>, m: nat, i: nat, e: RankEntry, desc: bool)
    requires Ordered(ranked, ScoreOf, desc)
    requires i < m <= |ranked| && e in multiset(ranked) - multiset(ranked[..m])
    ensures !Ahead(ScoreOf(e), ScoreOf(ranked[i]), desc)
  {
    assert ranked == ranked[..m] + ranked[m..];
    assert multiset(ranked) == multiset(ranked[..m]) + multiset(ranked[m..]);
    assert e in multiset(ranked[m..]);
    var j :| 0 <= j < |ranked[m..]| && ranked[m..][j] == e;
    assert ranked[m + j] == e;
  }

  /** In a best-first ranking, every participant with an unknown improvement comes after all others. */
  lemma UnknownImprovementsComeLast(ranked: seq<RankEntry>, i: nat, j: nat)
    requires Ordered(ranked, ScoreOf, true)
    requires i < j < |ranked| && ranked[i].delta.None?
    ensures ranked[j].delta.None?
  {
    assert !Ahead(ScoreOf(ranked[j]), ScoreOf(ranked[i]), true);
  }

  // ---------------------------------------------------------------------
  // Team rankings
  // ---------------------------------------------------------------------

  datatype Team = Team(id: int, name: string, captain1: string, captain2: Option<string>)

  datatype TeamTotal = TeamTotal(teamId: int, name: string, total: real, count: nat)

  /** Whether a participant counts toward one of the teams `ids`: a team id that is set, non-zero and listed. */
  predicate CountedIn(p: Participant, ids: set<int>) {
    p.teamId.Some? && p.teamId.value != 0 && p.teamId.value in ids
  }

  /** The summed contributions of the participants counted toward `ids`. */
  function SumOver(ps: seq<Participant>, starts: map<int, real>, currents: map<int, real>, ids: set<int>): real {
    if |ps| == 0 then 0.0
    else
      (if CountedIn(ps[0], ids) then Contribution(Stat(starts, ps[0].playerId), Stat(currents, ps[0].playerId))
       else 0.0) + SumOver(ps[1..], starts, currents, ids)
  }

  /** The number of participants counted toward `ids`. */
  function CountOver(ps: seq<Participant>, ids: set<int>): (n: nat)
    ensures n <= |ps|
  {
    if |ps| == 0 then 0
    else (if CountedIn(ps[0], ids) then 1 else 0) + CountOver(ps[1..], ids)
  }

  /** Counting toward a union of disjoint team sets is counting toward each. */
  lemma {:induction false} SplitOver(ps: seq<Participant>, starts: map<int, real>, currents: map<int, real>,
                                     a: set<int>, b: set<int>)
    requires a !! b
    ensures SumOver(ps, starts, currents, a + b) == SumOver(ps, starts, currents, a) + SumOver(ps, starts, currents, b)
    ensures CountOver(ps, a + b) == CountOver(ps, a) + CountOver(ps, b)
  {
    if |ps| > 0 {
      SplitOver(ps[1..], starts, currents, a, b);
    }
  }

  predicate DistinctIds(teams: seq<Team>) {
    forall i, j :: 0 <= i < j < |teams| ==> teams[i].id != teams[j].id
  }

  function IdSet(teams: seq<Team>): (r: set<int>)
    ensures forall i :: 0 <= i < |teams| ==> teams[i].id in r
    ensures forall x :: x in r ==> exists i :: 0 <= i < |teams| && teams[i].id == x
  {
    if |teams| == 0 then {}
    else
      assert forall i :: 1 <= i < |teams| ==> teams[i] == teams[1..][i - 1];
      {teams[0].id} + IdSet(teams[1..])
  }

  /** Each team's total and head count, in team order. */
  function TeamTotals(teams: seq<Team>, ps: seq<Participant>, starts: map<int, real>, currents: map<int, real>)
    : (r: seq<TeamTotal>)
    ensures |r| == |teams|
    ensures forall i :: 0 <= i < |teams| ==> (r[i].teamId == teams[i].id && r[i].name == teams[i].name
      && r[i].total == SumOver(ps, starts, currents, {teams[i].id})
      && r[i].count == CountOver(ps, {teams[i].id}))
  {
    seq(|teams|, i requires 0 <= i < |teams| =>
      TeamTotal(teams[i].id, teams[i].name, SumOver(ps, starts, currents, {teams[i].id}),
                CountOver(ps, {teams[i].id})))
  }

  function TotalOf(totals: seq<TeamTotal>): real {
    if |totals| == 0 then 0.0 else totals[0].total + TotalOf(totals[1..])
  }

  function HeadsOf(totals: seq<TeamTotal>): nat {
    if |totals| == 0 then 0 else totals[0].count + HeadsOf(totals[1..])
  }

  /** Every participant with a listed team is counted exactly once across the teams. */
  lemma {:induction false} TeamTotalsPartition(teams: seq<Team>, ps: seq<Participant>,
                                               starts: map<int, real>, currents: map<int, real>)
    requires DistinctIds(teams)
    ensures TotalOf(TeamTotals(teams, ps, starts, currents)) == SumOver(ps, starts, currents, IdSet(teams))
    ensures HeadsOf(TeamTotals(teams, ps, starts, currents)) == CountOver(ps, IdSet(teams))
  {
    if |teams| == 0 {
      EmptyOver(ps, starts, currents);
    } else {
      var rest := teams[1..];
      assert DistinctIds(rest);
      TeamTotalsPartition(rest, ps, starts, currents);
      TotalsTail(teams, ps, starts, currents);
      FirstIdIsNew(teams);
      SplitOver(ps, starts, currents, {teams[0].id}, IdSet(rest));
    }
  }

  lemma TotalsTail(teams: seq<Team>, ps: seq<Participant>, starts: map<int, real>, currents: map<int, real>)
    requires |teams| > 0
    ensures var t := TeamTotals(teams, ps, starts, currents);
      && TotalOf(t) == SumOver(ps, starts, currents, {teams[0].id}) + TotalOf(TeamTotals(teams[1..], ps, starts, currents))
      && HeadsOf(t) == CountOver(ps, {teams[0].id}) + HeadsOf(TeamTotals(teams[1..], ps, starts, currents))
  {
    var t := TeamTotals(teams, ps, starts, currents);
    assert t[1..] == TeamTotals(teams[1..], ps, starts, currents);
  }

  lemma FirstIdIsNew(teams: seq<Team>)
    requires |teams| > 0 && DistinctIds(teams)
    ensures teams[0].id !in IdSet(teams[1..])
    ensures IdSet(teams) == {teams[0].id} + IdSet(teams[1..])
  {
    forall i | 0 <= i < |teams[1..]| ensures teams[1..][i].id != teams[0].id {
      assert teams[1..][i] == teams[i + 1];
    }
  }

  lemma {:induction false} EmptyOver(ps: seq<Participant>, starts: map<int, real>, currents: map<int, real>)
    ensures SumOver(ps, starts, currents, {}) == 0.0
    ensures CountOver(ps, {}) == 0
  {
    if |ps| > 0 {
      EmptyOver(ps[1..], starts, currents);
    }
  }

  function TotalScore(t: TeamTotal): Score {
    Val(t.total)
  }

  datatype TeamOutcome =
    | TeamNotFound(teamId: int)
    | TeamDenied
    | TeamRankings(ranked: seq<TeamTotal>)

  /** The member asking: their Discord id and whether they administer the server. */
  datatype Viewer = Viewer(userId: string, isAdmin: bool)

  predicate IsCaptain(t: Team, v: Viewer) {
    t.captain1 == v.userId || t.captain2 == Some(v.userId)
  }

  /** The teams a team-status call looks at: the one asked for, or all when none (or 0) is given. */
  function SelectTeams(teams: seq<Team>, teamFilter: Option<int>): (r: seq<Team>)
    ensures (teamFilter.None? || teamFilter.value == 0) ==> r == teams
    ensures (teamFilter.Some? && teamFilter.value != 0) ==>
      forall t :: t in r <==> t in teams && t.id == teamFilter.value
  {
    if teamFilter.Some? && teamFilter.value != 0 then FilterIds(teams, teamFilter.value) else teams
  }

  function FilterIds(teams: seq<Team>, id: int): (r: seq<Team>)
    ensures forall t :: t in r <==> t in teams && t.id == id
  {
    if |teams| == 0 then []
    else
      assert forall t :: t in teams <==> t == teams[0] || t in teams[1..];
      (if teams[0].id == id then [teams[0]] else []) + FilterIds(teams[1..], id)
  }

  lemma SelectKeepsDistinct(teams: seq<Team>, teamFilter: Option<int>)
    requires DistinctIds(teams)
    ensures DistinctIds(SelectTeams(teams, teamFilter))
  {
    if teamFilter.Some? && teamFilter.value != 0 {
      FilterIdsAtMostOne(teams, teamFilter.value);
    }
  }

  lemma NoneFiltered(teams: seq<Team>, id: int)
    requires forall i :: 0 <= i < |teams| ==> teams[i].id != id
    ensures FilterIds(teams, id) == []
  {
  }

  /** With distinct team ids, at most one team is selected by id. */
  lemma {:induction false} FilterIdsAtMostOne(teams: seq<Team>, id: int)
    requires DistinctIds(teams)
    ensures |FilterIds(teams, id)| <= 1
  {
    if |teams| > 0 {
      var rest := FilterIds(teams[1..], id);
      if teams[0].id == id {
        forall i | 0 <= i < |teams[1..]| ensures teams[1..][i].id != id {
          assert teams[1..][i] == teams[i + 1];
        }
        NoneFiltered(teams[1..], id);
      } else {
        assert DistinctIds(teams[1..]);
        FilterIdsAtMostOne(teams[1..], id);
      }
    }
  }

  /**
   * The team-status command. With a team id (non-zero), that team must
   * exist and the viewer be an administrator or one of its captains.
   * Totals are ranked best first, or worst first when `showWorst`, ties
   * in team order.
   */
  function CompetitionTeamStatus(teams: seq<Team>, ps: seq<Participant>, starts: map<int, real>,
                                 currents: map<int, real>, teamFilter: Option<int>, viewer: Viewer,
                                 showWorst: bool): (r: TeamOutcome)
    requires DistinctIds(teams)
    ensures r.TeamNotFound? <==> (teamFilter.Some? && teamFilter.value != 0
      && forall t :: t in teams ==> t.id != teamFilter.value)
    ensures r.TeamDenied? <==> (teamFilter.Some? && teamFilter.value != 0
      && (exists t :: t in teams && t.id == teamFilter.value)
      && !viewer.isAdmin
      && forall t :: t in teams && t.id == teamFilter.value ==> !IsCaptain(t, viewer))
    ensures r.TeamRankings? ==> (
      var selected := SelectTeams(teams, teamFilter);
      && multiset(r.ranked) == multiset(TeamTotals(selected, ps, starts, currents))
      && Ordered(r.ranked, TotalScore, !showWorst)
      && (forall k :: Tied(r.ranked, TotalScore, k) == Tied(TeamTotals(selected, ps, starts, currents), TotalScore, k)))
  {
    var selected := SelectTeams(teams, teamFilter);
    var filtered := teamFilter.Some? && teamFilter.value != 0;
    if filtered && |selected| == 0 then
      assert forall t :: t in teams ==> t.id != teamFilter.value;
      TeamNotFound(teamFilter.value)
    else
      assert filtered ==> selected[0] in teams && selected[0].id == teamFilter.value;
      SelectKeepsDistinct(teams, teamFilter);
      assert filtered ==> forall t :: t in teams && t.id == teamFilter.value ==> t == selected[0] by {
        if filtered {
          forall t | t in teams && t.id == teamFilter.value ensures t == selected[0] {
            var a :| 0 <= a < |teams| && teams[a] == t;
            var b :| 0 <= b < |teams| && teams[b] == selected[0];
            assert teams[a].id == teams[b].id;
          }
        }
      }
      if filtered && !(viewer.isAdmin || IsCaptain(selected[0], viewer)) then TeamDenied
      else
        var totals := TeamTotals(selected, ps, starts, currents);
        var ranked := Sort(totals, TotalScore, !showWorst);
        SortIsOrdered(totals, TotalScore, !showWorst);
        forall k ensures Tied(ranked, TotalScore, k) == Tied(totals, TotalScore, k) {
          SortIsStable(totals, TotalScore, !showWorst, k);
        }
        TeamRankings(ranked)
  }

  // ---------------------------------------------------------------------
  // Faction overview
  // ---------------------------------------------------------------------

  predicate HasData(p: Participant, starts: map<int, real>, currents: map<int, real>) {
    p.playerId in starts && p.playerId in currents
  }

  /** The summed improvement of every participant with both stats known. */
  function KnownTotal(ps: seq<Participant>, starts: map<int, real>, currents: map<int, real>): real {
    if |ps| == 0 then 0.0
    else Contribution(Stat(starts, ps[0].playerId), Stat(currents, ps[0].playerId))
         + KnownTotal(ps[1..], starts, currents)
  }

  function WithData(ps: seq<Participant>, starts: map<int, real>, currents: map<int, real>): (n: nat)
    ensures n <= |ps|
  {
    if |ps| == 0 then 0
    else (if HasData(ps[0], starts, currents) then 1 else 0) + WithData(ps[1..], starts, currents)
  }

  datatype Overview =
    | NoOverview
    | Overview(total: real, participants: nat, withData: nat, average: real)

  /** The faction overview: total and average improvement over participants with data, and the counts. */
  function FactionOverview(ps: seq<Participant>, starts: map<int, real>, currents: map<int, real>)
    : (r: Overview)
    ensures r.NoOverview? <==> |ps| == 0
    ensures r.Overview? ==> (
      && r.total == KnownTotal(ps, starts, currents)
      && r.participants == |ps|
      && r.withData == WithData(ps, starts, currents)
      && r.average == Average(r.total, r.withData))
  {
    if |ps| == 0 then NoOverview
    else
      var total := KnownTotal(ps, starts, currents);
      var n := WithData(ps, starts, currents);
      Overview(total, |ps|, n, Average(total, n))
  }

  /** The total spread over `n`, and 0 when there is nothing to spread it over. */
  function Average(total: real, n: nat): (a: real)
    ensures n == 0 ==> a == 0.0
    ensures n > 0 ==> a * n as real == total
  {
    if n > 0 then
      DivideBack(total, n as real);
      total / n as real
    else 0.0
  }

  /** Participants without data add nothing to the total. */
  lemma {:induction false} NoDataNoTotal(ps: seq<Participant>, starts: map<int, real>, currents: map<int, real>)
    requires WithData(ps, starts, currents) == 0
    ensures KnownTotal(ps, starts, currents) == 0.0
  {
    if |ps| > 0 {
      NoDataNoTotal(ps[1..], starts, currents);
    }
  }

  /** When every participant is on a listed team, the team totals add up to the faction total. */
  lemma {:induction false} TeamsCoverFaction(ps: seq<Participant>, starts: map<int, real>,
                                             currents: map<int, real>, ids: set<int>)
    requires forall i :: 0 <= i < |ps| ==> CountedIn(ps[i], ids)
    ensures SumOver(ps, starts, currents, ids) == KnownTotal(ps, starts, currents)
    ensures CountOver(ps, ids) == |ps|
  {
    if |ps| > 0 {
      TeamsCoverFaction(ps[1..], starts, currents, ids);
    }
  }

  // ---------------------------------------------------------------------
  // Creating a competition
  // ---------------------------------------------------------------------

  datatype CreateError = InvalidStat | InvalidDate | StartInPast | EndNotAfterStart | BadTeamCount

  datatype Creation = Creation(stat: string, start: int, end: int, teamNames: seq<string>)

  const MinTeams := 2
  const MaxTeams := 20

  function TeamName(i: int): string {
    "Team " + IntToString(i)
  }

  /**
   * The checks of the create command, in order. Dates are day numbers
   * (days since 1970-01-01), `None` for a text the date parser rejects;
   * the competition runs from 00:00:00 of its first day to 23:59:59 of its
   * last, and `today` is the current day.
   */
  function CreateCompetition(stat: string, startDay: Option<int>, endDay: Option<int>, today: int, numTeams: int)
    : (r: Result<Creation, CreateError>)
    ensures r == Failure(InvalidStat) <==> Lower(stat) !in CompetitionUtils.ContributorStats
    ensures r == Failure(InvalidDate) <==>
      Lower(stat) in CompetitionUtils.ContributorStats && (startDay.None? || endDay.None?)
    ensures r == Failure(StartInPast) <==>
      Lower(stat) in CompetitionUtils.ContributorStats && startDay.Some? && endDay.Some? && startDay.value < today
    ensures r == Failure(EndNotAfterStart) <==>
      Lower(stat) in CompetitionUtils.ContributorStats && startDay.Some? && endDay.Some?
      && startDay.value >= today && endDay.value < startDay.value
    ensures r == Failure(BadTeamCount) <==>
      Lower(stat) in CompetitionUtils.ContributorStats && startDay.Some? && endDay.Some?
      && today <= startDay.value <= endDay.value && !(MinTeams <= numTeams <= MaxTeams)
    ensures r.Success? ==> (
      && startDay.Some? && endDay.Some?
      && r.value.stat == Lower(stat)
      && r.value.start == startDay.value * Calendar.SecondsPerDay
      && r.value.end == (endDay.value + 1) * Calendar.SecondsPerDay - 1
      && r.value.start < r.value.end
      && |r.value.teamNames| == numTeams
      && forall i :: 0 <= i < numTeams ==> r.value.teamNames[i] == TeamName(i + 1))
  {
    if Lower(stat) !in CompetitionUtils.ContributorStats then Failure(InvalidStat)
    else if startDay.None? || endDay.None? then Failure(InvalidDate)
    else
      var startTs := startDay.value * Calendar.SecondsPerDay;
      var endTs := endDay.value * Calendar.SecondsPerDay + 23 * 3600 + 59 * 60 + 59;
      if startTs < today * Calendar.SecondsPerDay then Failure(StartInPast)
      else if endTs <= startTs then Failure(EndNotAfterStart)
      else if numTeams < MinTeams || numTeams > MaxTeams then Failure(BadTeamCount)
      else Success(Creation(Lower(stat), startTs, endTs, seq(numTeams, i => TeamName(i + 1))))
  }

  /** A competition may start and end on the same day. */
  lemma SameDayIsAccepted(stat: string, day: int, today: int, numTeams: int)
    requires Lower(stat) in CompetitionUtils.ContributorStats && today <= day
    requires MinTeams <= numTeams <= MaxTeams
    ensures CreateCompetition(stat, Some(day), Some(day), today, numTeams).Success?
  {
  }

  lemma NatToStringInjective(a: nat, b: nat)
    requires NatToString(a) == NatToString(b)
    ensures a == b
  {
    DigitsValueOfNatToString(a);
    DigitsValueOfNatToString(b);
  }

  /** The teams created for a competition have distinct names. */
  lemma TeamNamesDistinct(stat: string, startDay: Option<int>, endDay: Option<int>, today: int, numTeams: int, i: nat, j: nat)
    requires CreateCompetition(stat, startDay, endDay, today, numTeams).Success?
    requires i < j < numTeams
    ensures var names := CreateCompetition(stat, startDay, endDay, today, numTeams).value.teamNames;
      names[i] != names[j]
  {
    var names := CreateCompetition(stat, startDay, endDay, today, numTeams).value.teamNames;
    if names[i] == names[j] {
      assert "Team " + NatToString(i + 1) == "Team " + NatToString(j + 1);
      assert NatToString(i + 1) == ("Team " + NatToString(i + 1))[5..];
      assert NatToString(j + 1) == ("Team " + NatToString(j + 1))[5..];
      NatToStringInjective(i + 1, j + 1);
    }
  }

  // ---------------------------------------------------------------------
  // Adding participants
  // ---------------------------------------------------------------------

  datatype AddError = InvalidPlayerIds | NoneInFaction | AllAlreadyParticipants

  /** Every comma-separated piece read as an integer, or `None` when one is not. */
  function ParseId(piece: string): Option<int> {
    ParseInt(Strip(piece))
  }

  function ParseIds(pieces: seq<string>): (r: Option<seq<int>>)
    ensures r.Some? <==> forall i :: 0 <= i < |pieces| ==> ParseId(pieces[i]).Some?
    ensures r.Some? ==> (|r.value| == |pieces|
      && forall i :: 0 <= i < |pieces| ==> Some(r.value[i]) == ParseId(pieces[i]))
  {
    var parsed := seq(|pieces|, i requires 0 <= i < |pieces| => ParseId(pieces[i]));
    assert |parsed| == |pieces| && forall i :: 0 <= i < |pieces| ==> parsed[i] == ParseId(pieces[i]);
    AllPresent(parsed)
  }

  /** The values of a list of options, when every one is present. */
  function AllPresent(opts: seq<Option<int>>): (r: Option<seq<int>>)
    ensures r.Some? <==> forall i :: 0 <= i < |opts| ==> opts[i].Some?
    ensures r.Some? ==> (|r.value| == |opts| && forall i :: 0 <= i < |opts| ==> Some(r.value[i]) == opts[i])
  {
    if |opts| == 0 then Some([])
    else
      var tail := AllPresent(opts[1..]);
      assert forall i :: 1 <= i < |opts| ==> opts[i] == opts[1..][i - 1];
      if opts[0].Some? && tail.Some? then Some([opts[0].value] + tail.value) else None
  }

  /** Whether `x` is (`inPool`) or is not (`!inPool`) in `pool`. */
  function InOrOut(pool: set<int>, inPool: bool): int -> bool {
    x => (x in pool) == inPool
  }

  /** The elements of `s` that are (`inPool`) or are not (`!inPool`) in `pool`, in order. */
  function Keep(s: seq<int>, pool: set<int>, inPool: bool): (r: seq<int>)
    ensures forall x :: x in r <==> x in s && ((x in pool) == inPool)
    ensures |r| <= |s|
  {
    if |s| == 0 then []
    else
      assert forall x :: x in s <==> x == s[0] || x in s[1..];
      var rest := Keep(s[1..], pool, inPool);
      if (s[0] in pool) == inPool then [s[0]] + rest else rest
  }

  /** `Keep` keeps the chosen elements in their order, repeats and all. */
  lemma {:induction false} KeepKeepsOrder(s: seq<int>, pool: set<int>, inPool: bool)
    ensures Keep(s, pool, inPool) == Collections.Filter(s, InOrOut(pool, inPool))
    ensures Collections.IsFilterOf(Keep(s, pool, inPool), s, InOrOut(pool, inPool))
  {
    if |s| > 0 {
      KeepKeepsOrder(s[1..], pool, inPool);
    }
    Collections.FilterPicks(s, InOrOut(pool, inPool));
  }

  lemma KeepNonEmpty(s: seq<int>, pool: set<int>, inPool: bool)
    ensures |Keep(s, pool, inPool)| > 0 <==> exists x :: x in s && (x in pool) == inPool
  {
    var r := Keep(s, pool, inPool);
    if |r| > 0 {
      var x := r[0];
      assert x in r;
      assert x in s && (x in pool) == inPool;
    }
  }

  /** Whether an explicit id list was given: Python treats an empty string as none. */
  predicate Listed(playerIds: Option<string>) {
    playerIds.Some? && playerIds.value != ""
  }

  /** The candidates before existing participants are dropped: listed faction members, or all members. */
  function Requested(playerIds: Option<string>, members: seq<int>): (r: Result<seq<int>, AddError>)
    ensures r != Failure(AllAlreadyParticipants)
    ensures r.Success? ==> forall x :: x in r.value ==> x in members
    ensures !Listed(playerIds) ==> r == Success(members)
    ensures Listed(playerIds) ==> (
      && (r == Failure(InvalidPlayerIds) <==> ListedIds(playerIds.value).None?)
      && (r == Failure(NoneInFaction) <==>
            ListedIds(playerIds.value).Some? && forall x :: x in ListedIds(playerIds.value).value ==> x !in members)
      && (r.Success? ==> forall x :: x in r.value <==> x in ListedIds(playerIds.value).value && x in members))
  {
    if !Listed(playerIds) then Success(members)
    else
      match ListedIds(playerIds.value)
      case None => Failure(InvalidPlayerIds)
      case Some(ids) => InFaction(ids, members)
  }

  /** The comma-separated ids of an explicit list. */
  function ListedIds(s: string): Option<seq<int>> {
    ParseIds(Split(s, ","))
  }

  function MemberSet(members: seq<int>): set<int> {
    set m | m in members
  }

  /** The listed ids that are faction members, in the order listed, repeats kept. */
  function InFaction(ids: seq<int>, members: seq<int>): (r: Result<seq<int>, AddError>)
    ensures r.Failure? ==> r.error == NoneInFaction
    ensures r.Success? <==> exists x :: x in ids && x in members
    ensures r.Success? ==> forall x :: x in r.value <==> x in ids && x in members
  {
    var pool := MemberSet(members);
    var inFaction := Keep(ids, pool, true);
    KeepNonEmpty(ids, pool, true);
    if |inFaction| == 0 then Failure(NoneInFaction) else Success(inFaction)
  }

  /**
   * The players a participant-add takes on: the listed ids that are faction
   * members (all members when no list is given), minus those already
   * taking part.
   */
  function PlayersToAdd(playerIds: Option<string>, members: seq<int>, existing: set<int>)
    : (r: Result<seq<int>, AddError>)
    ensures r.Success? ==> (|r.value| > 0
      && forall x :: x in r.value ==> x in members && x !in existing)
    ensures Requested(playerIds, members).Failure? ==> r == Requested(playerIds, members)
    ensures Requested(playerIds, members).Success? ==> (
      && (r.Success? <==> exists x :: x in Requested(playerIds, members).value && x !in existing)
      && (r.Failure? ==> r.error == AllAlreadyParticipants)
      && (r.Success? ==> forall x :: x in r.value <==> x in Requested(playerIds, members).value && x !in existing))
  {
    match Requested(playerIds, members)
    case Failure(e) => Failure(e)
    case Success(requested) =>
      var newIds := Keep(requested, existing, false);
      KeepNonEmpty(requested, existing, false);
      if |newIds| == 0 then Failure(AllAlreadyParticipants) else Success(newIds)
  }

  /** Listed faction members are kept in the order listed, repeats and all. */
  lemma InFactionKeepsOrder(ids: seq<int>, members: seq<int>)
    ensures InFaction(ids, members).Success? ==>
      Collections.IsFilterOf(InFaction(ids, members).value, ids, InOrOut(MemberSet(members), true))
  {
    KeepKeepsOrder(ids, MemberSet(members), true);
  }

  /**
   * The players added keep the order of the request: the listed ids in the
   * order given (or the members in roster order), those already taking part
   * dropped.
   */
  lemma PlayersToAddKeepsOrder(playerIds: Option<string>, members: seq<int>, existing: set<int>)
    ensures var req := Requested(playerIds, members);
      Listed(playerIds) && req.Success? ==>
        Collections.IsFilterOf(req.value, ListedIds(playerIds.value).value, InOrOut(MemberSet(members), true))
    ensures var req, r := Requested(playerIds, members), PlayersToAdd(playerIds, members, existing);
      req.Success? && r.Success? ==> Collections.IsFilterOf(r.value, req.value, InOrOut(existing, false))
  {
    if Listed(playerIds) && ListedIds(playerIds.value).Some? {
      InFactionKeepsOrder(ListedIds(playerIds.value).value, members);
    }
    if Requested(playerIds, members).Success? {
      KeepKeepsOrder(Requested(playerIds, members).value, existing, false);
    }
  }

  /** Without a list, every member not yet taking part is added. */
  lemma AllMembersByDefault(members: seq<int>, existing: set<int>, x: int)
    requires x in members && x !in existing
    ensures PlayersToAdd(None, members, existing).Success?
    ensures x in PlayersToAdd(None, members, existing).value
  {
  }

  /** A new participant: the player, the team, and the start stat recorded on joining. */
  datatype Placement = Placement(playerId: int, teamId: Option<int>, start: Option<real>)

  /**
   * The team and start stat of each new participant, `shuffled` being the
   * players in the random order drawn for them: the i-th goes to team
   * `i mod k` of the competition's `k` teams (none when it has no teams),
   * and once the competition has started (`now >= startDate`) the
   * player's current stat, when known, becomes the start stat.
   */
  function AssignTeams(shuffled: seq<int>, teamIds: seq<int>, currents: map<int, real>, now: int, startDate: int)
    : (r: seq<Placement>)
    ensures |r| == |shuffled|
    ensures forall i :: 0 <= i < |r| ==> r[i].playerId == shuffled[i]
    ensures forall i :: 0 <= i < |r| ==> (r[i].teamId.Some? <==> |teamIds| > 0)
    ensures forall i :: 0 <= i < |r| ==> r[i].teamId.Some? ==> r[i].teamId.value == teamIds[i % |teamIds|]
    ensures forall i :: 0 <= i < |r| ==>
      (r[i].start.Some? <==> now >= startDate && shuffled[i] in currents)
    ensures forall i :: 0 <= i < |r| && r[i].start.Some? ==> r[i].start.value == currents[shuffled[i]]
  {
    seq(|shuffled|, i requires 0 <= i < |shuffled| =>
      Placement(shuffled[i],
                if |teamIds| > 0 then Some(teamIds[i % |teamIds|]) else None,
                if now >= startDate then Stat(currents, shuffled[i]) else None))
  }

  /** How many placements went to team `t`. */
  function OnTeam(r: seq<Placement>, t: int): nat {
    if |r| == 0 then 0
    else OnTeam(r[..|r| - 1], t) + (if r[|r| - 1].teamId == Some(t) then 1 else 0)
  }

  /** One more placement adds one to the team whose turn it is. */
  lemma RoundRobinStep(n: nat, k: nat, j: nat)
    requires k > 0 && j < k && n > 0
    ensures n / k + (if j < n % k then 1 else 0)
         == (n - 1) / k + (if j < (n - 1) % k then 1 else 0) + (if (n - 1) % k == j then 1 else 0)
  {
    var q := (n - 1) / k;
    var m := (n - 1) % k;
    if m + 1 < k {
      DivModUnique(n, k, q, m + 1);
    } else {
      DivModUnique(n, k, q + 1, 0);
    }
  }

  /**
   * Round-robin keeps the teams balanced: of `n` new participants, team
   * number `j` of `k` receives `n / k`, plus one when `j < n mod k`.
   */
  lemma AssignmentIsBalanced(shuffled: seq<int>, teamIds: seq<int>, currents: map<int, real>,
                             now: int, startDate: int, j: nat)
    requires j < |teamIds|
    requires forall a, b :: 0 <= a < b < |teamIds| ==> teamIds[a] != teamIds[b]
    ensures OnTeam(AssignTeams(shuffled, teamIds, currents, now, startDate), teamIds[j])
         == |shuffled| / |teamIds| + (if j < |shuffled| % |teamIds| then 1 else 0)
  {
    var r := AssignTeams(shuffled, teamIds, currents, now, startDate);
    forall i | 0 <= i < |r| ensures r[i].teamId == Some(teamIds[j]) <==> i % |teamIds| == j {
      DistinctAt(teamIds, i % |teamIds|, j);
    }
    RoundRobinTally(r, teamIds[j], |teamIds|, j);
  }

  /** Of placements where team `x` gets every `k`-th one from the `j`-th on, `x` receives its round-robin share. */
  lemma {:induction false} RoundRobinTally(r: seq<Placement>, x: int, k: nat, j: nat)
    requires j < k
    requires forall i :: 0 <= i < |r| ==> (r[i].teamId == Some(x) <==> i % k == j)
    ensures OnTeam(r, x) == |r| / k + (if j < |r| % k then 1 else 0)
  {
    var n := |r|;
    if n > 0 {
      var init := r[..n - 1];
      RoundRobinTally(init, x, k, j);
      var last := r[n - 1].teamId == Some(x);
      assert OnTeam(r, x) == OnTeam(init, x) + (if last then 1 else 0);
      RoundRobinCount(OnTeam(init, x), OnTeam(r, x), last, n, k, j);
    }
  }

  /** Two positions of a sequence without repeats hold the same element only when they are the same position. */
  lemma DistinctAt(s: seq<int>, a: nat, b: nat)
    requires a < |s| && b < |s|
    requires forall x, y :: 0 <= x < y < |s| ==> s[x] != s[y]
    ensures s[a] == s[b] <==> a == b
  {
    if a < b {
      assert s[a] != s[b];
    } else if b < a {
      assert s[b] != s[a];
    }
  }

  /** The count after one more placement, from the count before it and whose turn it was. */
  lemma RoundRobinCount(before: int, after: int, last: bool, n: nat, k: nat, j: nat)
    requires k > 0 && j < k && n > 0
    requires before == (n - 1) / k + (if j < (n - 1) % k then 1 else 0)
    requires last <==> (n - 1) % k == j
    requires after == before + (if last then 1 else 0)
    ensures after == n / k + (if j < n % k then 1 else 0)
  {
    RoundRobinStep(n, k, j);
  }

  /** No two teams differ by more than one new participant. */
  lemma AssignmentDiffersByAtMostOne(shuffled: seq<int>, teamIds: seq<int>, currents: map<int, real>,
                                     now: int, startDate: int, a: nat, b: nat)
    requires a < |teamIds| && b < |teamIds|
    requires forall x, y :: 0 <= x < y < |teamIds| ==> teamIds[x] != teamIds[y]
    ensures var r := AssignTeams(shuffled, teamIds, currents, now, startDate);
      OnTeam(r, teamIds[a]) <= OnTeam(r, teamIds[b]) + 1
  {
    AssignmentIsBalanced(shuffled, teamIds, currents, now, startDate, a);
    AssignmentIsBalanced(shuffled, teamIds, currents, now, startDate, b);
  }
}

=== FILE: competitionutils.dfy ===
/**
 * Helpers shared by the competition commands: the trackable contributor
 * stats, the status emoji, signed number display, and choosing an API key
 * with faction access for a faction.
 */
module CompetitionUtils {
  import opened Wrappers
  import opened PyText
  import opened Keys
  import Collections

  /** The contributor stats a competition may track, `gym_e_spent` being a sum of the four gym stats. */
  const ContributorStats: seq<string> := [
    "gymstrength", "gymspeed", "gymdefense", "gymdexterity", "gym_e_spent",
    "attacksdamagehits", "attacksdamage", "attacksdamaging", "attacksrunaway",
    "criminaloffences", "busts", "jails",
    "revives", "medicalcooldownused", "medicalitemrecovery", "hosptimereceived", "hosptimegiven",
    "drugsused", "drugoverdoses", "candyused", "alcoholused", "energydrinkused",
    "traveltime", "hunting", "rehabs", "caymaninterest"]

  const GymStats: seq<string> := ["gymstrength", "gymspeed", "gymdefense", "gymdexterity"]

  lemma ContributorStatsShape()
    ensures |ContributorStats| == 26
    ensures forall s :: s in GymStats ==> s in ContributorStats
    ensures "gym_e_spent" in ContributorStats
  {
  }

  /** The emoji shown for a competition status, matched case-insensitively. */
  function StatusEmoji(status: string): (e: string)
    ensures Lower(status) == "active" <==> e == "🟢"
    ensures Lower(status) == "cancelled" <==> e == "🔴"
    ensures Lower(status) == "completed" <==> e == "⚪"
    ensures e == "⚫" <==> Lower(status) !in {"active", "cancelled", "completed"}
  {
    var s := Lower(status);
    if s == "active" then "🟢"
    else if s == "cancelled" then "🔴"
    else if s == "completed" then "⚪"
    else "⚫"
  }

  /** Decimal digits with a comma before every group of three from the right. */
  function GroupThousands(d: string): (r: string)
    ensures |r| == |d| + (if |d| == 0 then 0 else (|d| - 1) / 3)
  {
    if |d| <= 3 then d else GroupThousands(d[..|d| - 3]) + "," + d[|d| - 3..]
  }

  function RemoveCommas(s: string): (r: string)
    ensures |r| <= |s|
  {
    if |s| == 0 then ""
    else if s[|s| - 1] == ',' then RemoveCommas(s[..|s| - 1])
    else RemoveCommas(s[..|s| - 1]) + [s[|s| - 1]]
  }

  lemma {:induction false} RemoveCommasAppend(a: string, b: string)
    ensures RemoveCommas(a + b) == RemoveCommas(a) + RemoveCommas(b)
    decreases |b|
  {
    if |b| == 0 {
      assert a + b == a;
    } else {
      assert (a + b)[..|a + b| - 1] == a + b[..|b| - 1];
      RemoveCommasAppend(a, b[..|b| - 1]);
    }
  }

  lemma {:induction false} RemoveCommasOfDigits(d: string)
    requires AllDigits(d)
    ensures RemoveCommas(d) == d
  {
    if |d| > 0 {
      RemoveCommasOfDigits(d[..|d| - 1]);
      assert d[..|d| - 1] + [d[|d| - 1]] == d;
    }
  }

  /** Dropping the separators gives the digits back. */
  lemma {:induction false} GroupThousandsRoundTrip(d: string)
    requires AllDigits(d)
    ensures RemoveCommas(GroupThousands(d)) == d
  {
    if |d| > 3 {
      var head := d[..|d| - 3];
      var tail := d[|d| - 3..];
      var grouped := GroupThousands(head);
      assert GroupThousands(d) == grouped + "," + tail;
      GroupThousandsRoundTrip(head);
      RemoveCommasOfDigits(tail);
      assert RemoveCommas(",") == "";
      calc {
        RemoveCommas(GroupThousands(d));
        RemoveCommas(grouped + "," + tail);
        { RemoveCommasAppend(grouped + ",", tail); }
        RemoveCommas(grouped + ",") + RemoveCommas(tail);
        { RemoveCommasAppend(grouped, ","); }
        RemoveCommas(grouped) + RemoveCommas(",") + tail;
        head + tail;
        { assert head + tail == d; }
        d;
      }
    } else {
      RemoveCommasOfDigits(d);
    }
  }

  /**
   * A whole number for display: "N/A" for a missing value, a '+' before
   * zero and positive values, a '-' before negative ones, and thousands
   * separated by commas.
   */
  function FormatNumberWithSign(v: Option<int>): (r: string)
    ensures v.None? <==> r == "N/A"
    ensures v.Some? ==> |r| >= 2 && (r[0] == '+' <==> v.value >= 0) && (r[0] == '-' <==> v.value < 0)
  {
    match v
    case None => "N/A"
    case Some(n) =>
      var digits := GroupThousands(NatToString(if n >= 0 then n else -n));
      var sign := if n >= 0 then '+' else '-';
      assert ([sign] + digits)[0] == sign;
      [sign] + digits
  }

  /** The displayed number reads back as the value: sign, then its digits once the commas go. */
  lemma FormatNumberWithSignRoundTrip(n: int)
    ensures var r := FormatNumberWithSign(Some(n));
      RemoveCommas(r[1..]) == NatToString(if n >= 0 then n else -n)
      && (if r[0] == '-' then 0 - DigitsValue(RemoveCommas(r[1..])) else DigitsValue(RemoveCommas(r[1..]))) == n
  {
    var m: nat := if n >= 0 then n else -n;
    var d := NatToString(m);
    var r := FormatNumberWithSign(Some(n));
    assert r[1..] == GroupThousands(d);
    GroupThousandsRoundTrip(d);
    DigitsValueOfNatToString(m);
    assert DigitsValue(RemoveCommas(r[1..])) == m;
  }

  /** A key alias together with its key. */
  type KeyPair = (string, string)

  predicate FactionCapable(reg: Registry, k: KeyPair) {
    HasPermission(reg, k.0, "faction")
  }

  predicate OwnedBy(owners: map<string, int>, k: KeyPair, faction: int) {
    k.0 in owners && owners[k.0] == faction
  }

  /** The first key of `keys` satisfying `p`. */
  function FirstKey(keys: seq<KeyPair>, p: KeyPair -> bool): (r: Option<KeyPair>)
    ensures r.Some? ==> r.value in keys && p(r.value)
    ensures r.None? <==> forall i :: 0 <= i < |keys| ==> !p(keys[i])
  {
    if |keys| == 0 then None
    else if p(keys[0]) then Some(keys[0])
    else
      assert forall i :: 1 <= i < |keys| ==> keys[i] == keys[1..][i - 1];
      FirstKey(keys[1..], p)
  }

  /** The first key satisfying `p` is the one found. */
  lemma {:induction false} FirstKeyAt(keys: seq<KeyPair>, p: KeyPair -> bool, i: nat)
    requires i < |keys| && p(keys[i])
    requires forall j :: 0 <= j < i ==> !p(keys[j])
    ensures FirstKey(keys, p) == Some(keys[i])
  {
    if i > 0 {
      assert forall j :: 0 <= j < i - 1 ==> keys[1..][j] == keys[j + 1];
      FirstKeyAt(keys[1..], p, i - 1);
    }
  }

  /** No key before the one found satisfies `p`. */
  lemma {:induction false} FirstKeyIsFirst(keys: seq<KeyPair>, p: KeyPair -> bool, i: nat)
    requires i < |keys| && p(keys[i])
    ensures FirstKey(keys, p).Some?
    ensures exists j :: (0 <= j <= i && keys[j] == FirstKey(keys, p).value
      && forall k :: 0 <= k < j ==> !p(keys[k]))
  {
    if !p(keys[0]) {
      FirstKeyIsFirst(keys[1..], p, i - 1);
      var j :| 0 <= j <= i - 1 && keys[1..][j] == FirstKey(keys[1..], p).value
        && forall k :: 0 <= k < j ==> !p(keys[1..][k]);
      assert keys[j + 1] == FirstKey(keys, p).value;
      assert forall k :: 1 <= k < j + 1 ==> keys[k] == keys[1..][k - 1];
    } else {
      assert keys[0] == FirstKey(keys, p).value;
    }
  }

  /**
   * The key to use for `faction` among keys that may have faction access:
   * the first faction-capable key whose owner is in that faction (per the
   * `owners` lookup), else the first faction-capable key, else none.
   */
  function FindBestKeyForFaction(keys: seq<KeyPair>, reg: Registry, faction: int, owners: map<string, int>)
    : (r: Option<KeyPair>)
    ensures r.Some? ==> r.value in keys && FactionCapable(reg, r.value)
    ensures r.None? <==> forall i :: 0 <= i < |keys| ==> !FactionCapable(reg, keys[i])
    ensures (exists i :: 0 <= i < |keys| && FactionCapable(reg, keys[i]) && OwnedBy(owners, keys[i], faction)) ==>
      r == FirstKey(keys, k => FactionCapable(reg, k) && OwnedBy(owners, k, faction))
    ensures (forall i :: 0 <= i < |keys| ==> !(FactionCapable(reg, keys[i]) && OwnedBy(owners, keys[i], faction))) ==>
      r == FirstKey(keys, k => FactionCapable(reg, k))
  {
    var own := FirstKey(keys, k => FactionCapable(reg, k) && OwnedBy(owners, k, faction));
    if own.Some? then own else FirstKey(keys, k => FactionCapable(reg, k))
  }

  /** A key from the faction itself wins over any earlier key from elsewhere. */
  lemma SameFactionKeyPreferred(keys: seq<KeyPair>, reg: Registry, faction: int, owners: map<string, int>, i: nat)
    requires i < |keys| && FactionCapable(reg, keys[i]) && OwnedBy(owners, keys[i], faction)
    ensures var r := FindBestKeyForFaction(keys, reg, faction, owners);
      r.Some? && OwnedBy(owners, r.value, faction)
  {
  }

  /** Whether an entry has faction access and a non-empty key. */
  function FactionUsable(reg: Registry, env: Env): Entry -> bool {
    (e: Entry) => HasPermission(reg, e.alias, "faction") && KeyValue(reg, env, e.alias).GetOr("") != ""
  }

  /** An entry's alias with its key. */
  function PairIn(reg: Registry, env: Env): Entry -> KeyPair {
    (e: Entry) => (e.alias, KeyValue(reg, env, e.alias).GetOr(""))
  }

  /** The registered keys, in registry order, that have faction access and a non-empty key. */
  function FactionKeys(reg: Registry, env: Env, from: nat): (r: seq<KeyPair>)
    requires from <= |reg|
    ensures forall k :: k in r ==> FactionCapable(reg, k) && KeyValue(reg, env, k.0) == Some(k.1) && k.1 != ""
    ensures forall i :: (from <= i < |reg| && FactionCapable(reg, (reg[i].alias, ""))
      && KeyValue(reg, env, reg[i].alias).Some? && KeyValue(reg, env, reg[i].alias).value != "") ==>
      (reg[i].alias, KeyValue(reg, env, reg[i].alias).value) in r
    decreases |reg| - from
  {
    if from == |reg| then []
    else
      var alias := reg[from].alias;
      var rest := FactionKeys(reg, env, from + 1);
      match KeyValue(reg, env, alias)
      case Some(v) =>
        if HasPermission(reg, alias, "faction") && v != "" then [(alias, v)] + rest else rest
      case None => rest
  }

  /** The faction keys come in registry order, one per usable entry. */
  lemma {:induction false} FactionKeysKeepOrder(reg: Registry, env: Env, from: nat)
    requires from <= |reg|
    ensures FactionKeys(reg, env, from) == Collections.FilterMap(reg[from..], FactionUsable(reg, env), PairIn(reg, env))
    ensures Collections.IsFilterMapOf(FactionKeys(reg, env, from), reg[from..], FactionUsable(reg, env), PairIn(reg, env))
    decreases |reg| - from
  {
    if from < |reg| {
      FactionKeysKeepOrder(reg, env, from + 1);
      assert reg[from..][1..] == reg[from + 1..];
    }
    Collections.FilterMapPicks(reg[from..], FactionUsable(reg, env), PairIn(reg, env));
  }

  /** Whether a key's owner is in `faction`. */
  function OwnedIn(owners: map<string, int>, faction: int): KeyPair -> bool {
    k => OwnedBy(owners, k, faction)
  }

  /**
   * A key with faction access for `faction`, the owner's faction being
   * looked up through `owners` when a client is available (a failed lookup
   * is an absent entry). Without a faction the first usable key is taken;
   * with one, the first key whose owner is in it, else the first usable key.
   */
  function FindFactionApiKey(reg: Registry, env: Env, faction: Option<int>, hasClient: bool,
                             owners: map<string, int>): (r: Option<KeyPair>)
    ensures r.Some? ==> r.value in FactionKeys(reg, env, 0)
    ensures r.None? <==> |FactionKeys(reg, env, 0)| == 0
    ensures faction.None? ==> r == FirstKey(FactionKeys(reg, env, 0), k => true)
    ensures (faction.Some? && hasClient
      && (exists k :: k in FactionKeys(reg, env, 0) && OwnedBy(owners, k, faction.value))) ==>
      r.Some? && OwnedBy(owners, r.value, faction.value)
    ensures faction.Some? && hasClient ==>
      var owned := FirstKey(FactionKeys(reg, env, 0), OwnedIn(owners, faction.value));
      r == if owned.Some? then owned else FirstKey(FactionKeys(reg, env, 0), k => true)
    ensures faction.Some? && !hasClient ==> r == FirstKey(FactionKeys(reg, env, 0), k => true)
  {
    var keys := FactionKeys(reg, env, 0);
    match faction
    case None => FirstKey(keys, k => true)
    case Some(f) =>
      var own := if hasClient then FirstKey(keys, OwnedIn(owners, f)) else None;
      if own.Some? then own else FirstKey(keys, k => true)
  }

  /**
   * With a client, the key chosen for a faction is the first usable key, in
   * registry order, whose owner is in the faction.
   */
  lemma OwnedKeyChosen(reg: Registry, env: Env, faction: int, owners: map<string, int>, i: nat)
    requires var keys := FactionKeys(reg, env, 0);
      i < |keys| && OwnedBy(owners, keys[i], faction)
      && forall j :: 0 <= j < i ==> !OwnedBy(owners, keys[j], faction)
    ensures FindFactionApiKey(reg, env, Some(faction), true, owners) == Some(FactionKeys(reg, env, 0)[i])
  {
    var keys := FactionKeys(reg, env, 0);
    OwnedFirst(keys, owners, faction, i);
  }

  lemma OwnedFirst(keys: seq<KeyPair>, owners: map<string, int>, faction: int, i: nat)
    requires i < |keys| && OwnedBy(owners, keys[i], faction)
    requires forall j :: 0 <= j < i ==> !OwnedBy(owners, keys[j], faction)
    ensures FirstKey(keys, OwnedIn(owners, faction)) == Some(keys[i])
  {
    FirstKeyAt(keys, OwnedIn(owners, faction), i);
  }

  /**
   * When no usable key's owner is in the faction, or the faction or client
   * is missing, the first usable key in registry order is taken.
   */
  lemma FirstUsableKeyOtherwise(reg: Registry, env: Env, faction: Option<int>, hasClient: bool,
                                owners: map<string, int>)
    requires |FactionKeys(reg, env, 0)| > 0
    requires faction.Some? && hasClient ==>
      forall j :: 0 <= j < |FactionKeys(reg, env, 0)| ==> !OwnedBy(owners, FactionKeys(reg, env, 0)[j], faction.value)
    ensures FindFactionApiKey(reg, env, faction, hasClient, owners) == Some(FactionKeys(reg, env, 0)[0])
  {
  }
}

=== FILE: crimes.dfy ===
/**
 * The organized-crime snapshot reconciler: every crime record fetched from
 * the faction crimes feed is parsed, compared with the faction's stored
 * current-state row, and turned into history events, per-participant
 * statistics updates and a refreshed current-state row.
 *
 * One `Store` holds the tables of one faction: the current-state rows keyed
 * by crime id, the append-only event history and the sequence of statistics
 * updates handed to the database.
 */
module Crimes {
  import opened Wrappers
  import opened PyText
  import opened Json
  import opened Collections

  // ---------------------------------------------------------------------
  // Statuses
  // ---------------------------------------------------------------------

  datatype Status = Planning | Ready | Completed | Failed | Cancelled

  /** Completed, failed and cancelled crimes are not expected to change again. */
  predicate IsTerminal(s: Status) {
    s.Completed? || s.Failed? || s.Cancelled?
  }

  /** The upstream status lower-cased; a value that is not a string reads as "planning". */
  function LoweredStatus(raw: Json): string {
    if raw.JStr? then Lower(raw.s) else "planning"
  }

  /** The fixed table from upstream status names to stored statuses. */
  function StatusTable(name: string): Option<Status> {
    if name == "available" || name == "recruiting" || name == "planning" then Some(Planning)
    else if name == "ready" then Some(Ready)
    else if name == "completed" || name == "successful" then Some(Completed)
    else if name == "failure" then Some(Failed)
    else if name == "expired" then Some(Cancelled)
    else None
  }

  /**
   * The stored status of a crime whose upstream status is `raw` and whose
   * readiness timestamp is `readyAt`.
   */
  function MapStatus(raw: Json, readyAt: Json): (s: Status)
    ensures var n := LoweredStatus(raw);
      && (s == Ready <==> n == "ready" || (Truthy(readyAt) && (n == "planning" || n == "recruiting")))
      && (s == Completed <==> n == "completed" || n == "successful")
      && (s == Failed <==> n == "failure")
      && (s == Cancelled <==> n == "expired")
      && (s == Planning <==> StatusTable(n) == None || (StatusTable(n) == Some(Planning) && !(Truthy(readyAt) && (n == "planning" || n == "recruiting"))))
  {
    var n := LoweredStatus(raw);
    if Truthy(readyAt) && (n == "planning" || n == "recruiting") then Ready
    else StatusTable(n).GetOr(Planning)
  }

  /** Upstream status names are matched without regard to letter case. */
  lemma MapStatusIgnoresCase(s: string, readyAt: Json)
    ensures MapStatus(JStr(s), readyAt) == MapStatus(JStr(Lower(s)), readyAt)
  {
    LowerIdempotent(s);
  }

  // ---------------------------------------------------------------------
  // Slots and rewards
  // ---------------------------------------------------------------------

  /**
   * The participant id a slot record yields, if any. A missing or null user
   * yields nothing; an embedded user object yields the first truthy of its
   * `id`, `user_id` and `player_id` fields (the last one even when falsy but
   * present); every other value goes through `int()`.
   */
  function SlotUser(slot: Json): (r: Option<int>)
    ensures !slot.JObj? ==> r.None?
    ensures slot.JObj? && Get(slot, "user").JNull? ==> r.None?
    ensures slot.JObj? && Get(slot, "user").JInt? ==> r == Some(Get(slot, "user").i)
    ensures slot.JObj? && Get(slot, "user").JStr? ==> r == ParseInt(Get(slot, "user").s)
    ensures slot.JObj? && Get(slot, "user").JObj? ==>
      var u := Get(slot, "user");
      && (Truthy(Get(u, "id")) ==> r == ToInt(Get(u, "id")))
      && (!Truthy(Get(u, "id")) && Truthy(Get(u, "user_id")) ==> r == ToInt(Get(u, "user_id")))
      && (!Truthy(Get(u, "id")) && !Truthy(Get(u, "user_id")) ==>
            r == (if Get(u, "player_id").JNull? then None else ToInt(Get(u, "player_id"))))
  {
    if !slot.JObj? then None
    else
      var u := Get(slot, "user");
      match u
      case JNull => None
      case JObj(_) =>
        var picked := Or(Or(Get(u, "id"), Get(u, "user_id")), Get(u, "player_id"));
        if picked.JNull? then None else ToInt(picked)
      case _ => ToInt(u)
  }

  /** The participant ids of a crime's slots, in slot order. */
  function Participants(slots: seq<Json>): (r: seq<int>)
    ensures |r| <= |slots|
    ensures forall p :: p in r <==> exists i :: 0 <= i < |slots| && SlotUser(slots[i]) == Some(p)
  {
    if |slots| == 0 then []
    else
      var rest := Participants(slots[1..]);
      assert forall i :: 1 <= i < |slots| ==> slots[1..][i - 1] == slots[i];
      match SlotUser(slots[0])
      case Some(p) => [p] + rest
      case None => rest
  }

  /** Extraction distributes over consecutive runs of slots. */
  lemma {:induction false} ParticipantsAppend(a: seq<Json>, b: seq<Json>)
    ensures Participants(a + b) == Participants(a) + Participants(b)
  {
    if |a| > 0 {
      assert (a + b)[1..] == a[1..] + b;
      ParticipantsAppend(a[1..], b);
    } else {
      assert a + b == b;
    }
  }

  /** The reward fields of a crime: money, respect and everything else. */
  datatype Rewards = Rewards(money: Json, respect: Json, other: Option<seq<(string, Json)>>)

  const NoRewards := Rewards(JNull, JNull, None)

  /** Whether a reward pair is one of the other rewards. */
  function IsOtherReward(): ((string, Json)) -> bool {
    (p: (string, Json)) => p.0 != "money" && p.0 != "respect"
  }

  /**
   * `{k: v for k, v in rewards.items() if k not in ["money", "respect"]}`:
   * the items of the decoded dict, in its order, without money and
   * respect. A key repeated in the object appears once, with its last value.
   */
  function OtherFields(fields: seq<(string, Json)>): (r: seq<(string, Json)>)
    ensures UniqueKeys(r)
    ensures forall k :: Lookup(r, k) == if k == "money" || k == "respect" then None else Lookup(fields, k)
  {
    OtherFieldsAreTheDict(fields);
    Filter(Items(fields), IsOtherReward())
  }

  lemma OtherFieldsAreTheDict(fields: seq<(string, Json)>)
    ensures var r := Filter(Items(fields), IsOtherReward());
      && UniqueKeys(r)
      && forall k :: Lookup(r, k) == if k == "money" || k == "respect" then None else Lookup(fields, k)
  {
    var items := Items(fields);
    var r := Filter(items, IsOtherReward());
    ItemsAreTheDict(fields);
    FilterKeepsUniqueKeys(items, IsOtherReward());
    FilterMembers(items, IsOtherReward());
    forall k ensures Lookup(r, k) == if k == "money" || k == "respect" then None else Lookup(fields, k) {
      if k == "money" || k == "respect" {
        forall i | 0 <= i < |r| ensures r[i].0 != k {
          assert r[i] in r;
        }
      } else {
        match Lookup(items, k)
        case Some(w) =>
          LookupUnique(items, k, w);
          LookupUnique(r, k, w);
        case None =>
          forall i | 0 <= i < |r| ensures r[i].0 != k {
            assert r[i] in r;
          }
      }
    }
  }

  /**
   * Splits a crime's `rewards` value. A value that is not an object carries
   * no rewards; `other` is present only when some key besides money and
   * respect exists.
   */
  function SplitRewards(rewards: Json): (r: Rewards)
    ensures !rewards.JObj? ==> r == NoRewards
    ensures rewards.JObj? ==> r.money == Get(rewards, "money") && r.respect == Get(rewards, "respect")
    ensures rewards.JObj? ==>
      (r.other.Some? <==> exists pair :: pair in rewards.fields && pair.0 != "money" && pair.0 != "respect")
    ensures r.other.Some? ==> UniqueKeys(r.other.value)
    ensures r.other.Some? ==>
      forall k :: Lookup(r.other.value, k) == if k == "money" || k == "respect" then None else Lookup(rewards.fields, k)
  {
    if !rewards.JObj? then NoRewards
    else
      var others := OtherFields(rewards.fields);
      OthersPresent(rewards.fields, others);
      Rewards(Get(rewards, "money"), Get(rewards, "respect"), if |others| > 0 then Some(others) else None)
  }

  /** Some other reward is left exactly when the object has a key besides money and respect. */
  lemma OthersPresent(fields: seq<(string, Json)>, others: seq<(string, Json)>)
    requires forall k :: Lookup(others, k) == if k == "money" || k == "respect" then None else Lookup(fields, k)
    ensures |others| > 0 <==> exists pair :: pair in fields && pair.0 != "money" && pair.0 != "respect"
  {
    if |others| > 0 {
      var k := others[0].0;
      assert Lookup(others, k).Some?;
      var i :| 0 <= i < |fields| && fields[i] == (k, Lookup(fields, k).value);
      assert fields[i] in fields;
    }
    if exists pair :: pair in fields && pair.0 != "money" && pair.0 != "respect" {
      var pair :| pair in fields && pair.0 != "money" && pair.0 != "respect";
      var i :| 0 <= i < |fields| && fields[i] == pair;
      assert Lookup(fields, pair.0).Some?;
      assert Lookup(others, pair.0).Some?;
    }
  }

  // ---------------------------------------------------------------------
  // Parsed crime records
  // ---------------------------------------------------------------------

  /** One crime record of the feed after parsing. */
  datatype Snapshot = Snapshot(
    id: int,
    name: Json,
    participants: seq<int>,
    required: nat,
    started: Json,
    executed: Json,
    status: Status,
    rewards: Rewards)

  function DefaultName(id: int): Json {
    JStr("Crime " + IntToString(id))
  }

  /** The slot list of a record; a value that is not a list counts as no slots. */
  function SlotList(crime: Json): seq<Json>
    requires crime.JObj?
  {
    var v := GetOr(crime, "slots", JArr([]));
    if v.JArr? then v.items else []
  }

  /**
   * Parses one record of the feed. Records that are not objects, and records
   * whose `id` is missing, null or not convertible by `int()`, are skipped.
   */
  function ParseCrime(crime: Json): (r: Option<Snapshot>)
    ensures r.Some? <==> crime.JObj? && ToInt(Get(crime, "id")).Some?
    ensures r.Some? ==>
      && r.value.id == ToInt(Get(crime, "id")).value
      && r.value.participants == Participants(SlotList(crime))
      && r.value.required == |SlotList(crime)|
      && r.value.status == MapStatus(GetOr(crime, "status", JStr("planning")), Get(crime, "ready_at"))
      && r.value.rewards == SplitRewards(Get(crime, "rewards"))
      && r.value.name == GetOr(crime, "name", DefaultName(r.value.id))
  {
    if !crime.JObj? then None
    else
      var idValue := Get(crime, "id");
      if idValue.JNull? then None
      else match ToInt(idValue)
        case None => None
        case Some(id) =>
          var slots := SlotList(crime);
          Some(Snapshot(
            id,
            GetOr(crime, "name", DefaultName(id)),
            Participants(slots),
            |slots|,
            Get(crime, "created_at"),
            Get(crime, "executed_at"),
            MapStatus(GetOr(crime, "status", JStr("planning")), Get(crime, "ready_at")),
            SplitRewards(Get(crime, "rewards"))))
  }

  // ---------------------------------------------------------------------
  // Stored state
  // ---------------------------------------------------------------------

  /** A current-state row; `lastUpdated` is the time of its last write. */
  datatype Row = Row(
    name: Json,
    participants: seq<int>,
    required: nat,
    started: Json,
    executed: Json,
    status: Status,
    rewards: Rewards,
    lastUpdated: int)

  function RowOf(s: Snapshot, name: Json, now: int): Row {
    Row(name, s.participants, s.required, s.started, s.executed, s.status, s.rewards, now)
  }

  datatype EventKind =
    | Created(status: Status, participants: seq<int>, rewards: Rewards)
    | StatusChanged(oldStatus: Status, newStatus: Status)
    | Joined(player: int, before: seq<int>, after: seq<int>)
    | Left(player: int, before: seq<int>, after: seq<int>)
    | Finished(oldStatus: Status, newStatus: Status, rewards: Rewards)

  /** A history event; `at` is the event timestamp as the feed or the clock gave it. */
  datatype Event = Event(crimeId: int, kind: EventKind, at: Json)

  /** One per-participant statistics update for a crime that has just finished. */
  datatype StatsUpdate = StatsUpdate(player: int, completed: nat, failed: nat, money: Json, respect: Json)

  datatype Store = Store(current: map<int, Row>, history: seq<Event>, stats: seq<StatsUpdate>)

  /** The counters the reconciler reports. */
  datatype Counts = Counts(updated: nat, events: nat, newCrimes: nat, existing: nat)

  const NoCounts := Counts(0, 0, 0, 0)

  /** Seconds after which an unchanged row is rewritten anyway. */
  const Heartbeat := 300

  // ---------------------------------------------------------------------
  // Diffing one crime against its stored row
  // ---------------------------------------------------------------------

  function ToSet(xs: seq<int>): set<int> {
    set p | p in xs
  }

  /** The elements of `xs` that do not occur in `ys`, in order and with repeats. */
  function Without(xs: seq<int>, ys: seq<int>): (r: seq<int>)
    ensures |r| <= |xs|
    ensures forall p :: p in r <==> p in xs && p !in ys
  {
    if |xs| == 0 then []
    else
      var rest := Without(xs[1..], ys);
      assert forall p :: p in xs <==> p == xs[0] || p in xs[1..];
      if xs[0] in ys then rest else [xs[0]] + rest
  }

  function JoinEvents(id: int, players: seq<int>, before: seq<int>, after: seq<int>, at: Json): (r: seq<Event>)
    ensures |r| == |players|
    ensures forall k :: 0 <= k < |r| ==> r[k] == Event(id, Joined(players[k], before, after), at)
  {
    seq(|players|, k requires 0 <= k < |players| => Event(id, Joined(players[k], before, after), at))
  }

  function LeaveEvents(id: int, players: seq<int>, before: seq<int>, after: seq<int>, at: Json): (r: seq<Event>)
    ensures |r| == |players|
    ensures forall k :: 0 <= k < |r| ==> r[k] == Event(id, Left(players[k], before, after), at)
  {
    seq(|players|, k requires 0 <= k < |players| => Event(id, Left(players[k], before, after), at))
  }

  /** One statistics update per participant of a crime that has just finished. */
  function StatsFor(s: Snapshot): (r: seq<StatsUpdate>)
    ensures |r| == |s.participants|
    ensures forall k :: 0 <= k < |r| ==> r[k].player == s.participants[k]
  {
    seq(|s.participants|, k requires 0 <= k < |s.participants| =>
      StatsUpdate(
        s.participants[k],
        if s.status.Completed? then 1 else 0,
        if s.status.Failed? then 1 else 0,
        Or(s.rewards.money, JInt(0)),
        Or(s.rewards.respect, JInt(0))))
  }

  /**
   * The outcome of comparing a stored row with a fresh snapshot: the events
   * to append, the statistics updates, whether a change was detected and
   * whether the crime has just become terminal.
   */
  datatype Delta = Delta(events: seq<Event>, stats: seq<StatsUpdate>, changed: bool, terminal: bool)

  /**
   * Compares `stored` with `s`. With `joinsMarkChange` false this is the
   * behaviour as written, where a join alone does not count as a change;
   * with it true, joins count like leaves.
   */
  function Diff(stored: Row, s: Snapshot, now: int, joinsMarkChange: bool): (r: Delta)
    ensures forall e :: e in r.events ==> e.crimeId == s.id
    ensures r.terminal ==> stored.status != s.status && r.changed && r.stats == StatsFor(s)
    ensures !r.terminal ==> r.stats == []
    ensures stored.status != s.status ==>
      r.changed && |r.events| > 0 && r.events[0] == Event(s.id, StatusChanged(stored.status, s.status), JInt(now))
    ensures r.changed ==> stored.status != s.status || ToSet(stored.participants) != ToSet(s.participants)
    ensures |r.events| > 0 ==> stored.status != s.status || ToSet(stored.participants) != ToSet(s.participants)
  {
    var statusEvents :=
      if stored.status != s.status then [Event(s.id, StatusChanged(stored.status, s.status), JInt(now))] else [];
    var membershipDiffers := ToSet(stored.participants) != ToSet(s.participants);
    var joined := if membershipDiffers then Without(s.participants, stored.participants) else [];
    var left := if membershipDiffers then Without(stored.participants, s.participants) else [];
    var terminal := IsTerminal(s.status) && !IsTerminal(stored.status);
    var finishEvents :=
      if terminal then [Event(s.id, Finished(stored.status, s.status, s.rewards), Or(s.executed, JInt(now)))] else [];
    Delta(
      statusEvents
        + JoinEvents(s.id, joined, stored.participants, s.participants, JInt(now))
        + LeaveEvents(s.id, left, stored.participants, s.participants, JInt(now))
        + finishEvents,
      if terminal then StatsFor(s) else [],
      stored.status != s.status || |left| > 0 || (joinsMarkChange && |joined| > 0) || terminal,
      terminal)
  }

  /**
   * Reconciles one parsed record. The stored row is looked up in `prior`,
   * the current-state table as read before the batch started; writes go to
   * `st`.
   */
  function ReconcileOne(prior: map<int, Row>, st: Store, c: Counts, s: Snapshot, now: int, joinsMarkChange: bool)
    : (r: (Store, Counts))
    ensures IsPrefix(st.history, r.0.history) && IsPrefix(st.stats, r.0.stats)
    ensures r.1.events == c.events + |r.0.history| - |st.history|
    ensures s.id in r.0.current || (s.id in prior && s.id !in st.current && r.0.current == st.current)
    ensures forall k :: k != s.id ==> (k in r.0.current <==> k in st.current)
    ensures forall k :: k != s.id && k in st.current ==> r.0.current[k] == st.current[k]
  {
    if s.id !in prior then
      var name := if Truthy(s.name) then s.name else DefaultName(s.id);
      var created := Event(s.id, Created(s.status, s.participants, s.rewards), Or(s.started, JInt(now)));
      (Store(st.current[s.id := RowOf(s, name, now)], st.history + [created], st.stats),
       Counts(c.updated + 1, c.events + 1, c.newCrimes + 1, c.existing))
    else
      var stored := prior[s.id];
      var d := Diff(stored, s, now, joinsMarkChange);
      var afterDelete := if d.terminal then st.current - {s.id} else st.current;
      var refresh := d.changed || stored.lastUpdated < now - Heartbeat;
      var current := if refresh then afterDelete[s.id := RowOf(s, s.name, now)] else afterDelete;
      assert (st.history + d.events)[..|st.history|] == st.history;
      assert (st.stats + d.stats)[..|st.stats|] == st.stats;
      (Store(current, st.history + d.events, st.stats + d.stats),
       Counts(c.updated + (if refresh then 1 else 0), c.events + |d.events|, c.newCrimes, c.existing + 1))
  }

  /**
   * Reconciles the records of a batch in order, skipping unparsable ones.
   * Over the whole batch the history and the statistics only grow at the
   * end, and the reported event count equals the number of appended events.
   */
  function ReconcileBatch(prior: map<int, Row>, st: Store, c: Counts, records: seq<Json>, now: int, joinsMarkChange: bool)
    : (r: (Store, Counts))
    ensures IsPrefix(st.history, r.0.history) && IsPrefix(st.stats, r.0.stats)
    ensures r.1.events == c.events + |r.0.history| - |st.history|
    decreases |records|
  {
    if |records| == 0 then (st, c)
    else
      match ParseCrime(records[0])
      case None => ReconcileBatch(prior, st, c, records[1..], now, joinsMarkChange)
      case Some(s) =>
        var step := ReconcileOne(prior, st, c, s, now, joinsMarkChange);
        var r := ReconcileBatch(prior, step.0, step.1, records[1..], now, joinsMarkChange);
        PrefixTransitive(st.history, step.0.history, r.0.history);
        PrefixTransitive(st.stats, step.0.stats, r.0.stats);
        r
  }

  /**
   * Processes one fetched payload: its `crimes` entry must be a list,
   * otherwise nothing is written and every counter is zero.
   */
  function Process(crimeData: Json, st: Store, now: int, joinsMarkChange: bool): (r: (Store, Counts))
    requires crimeData.JObj?
    ensures !GetOr(crimeData, "crimes", JArr([])).JArr? ==> r == (st, NoCounts)
  {
    var crimes := GetOr(crimeData, "crimes", JArr([]));
    if !crimes.JArr? then (st, NoCounts)
    else ReconcileBatch(st.current, st, NoCounts, crimes.items, now, joinsMarkChange)
  }

  // ---------------------------------------------------------------------
  // Properties
  // ---------------------------------------------------------------------

  /** The events `ReconcileOne` appends. */
  function Appended(prior: map<int, Row>, st: Store, c: Counts, s: Snapshot, now: int, joinsMarkChange: bool): seq<Event> {
    ReconcileOne(prior, st, c, s, now, joinsMarkChange).0.history[|st.history|..]
  }

  /**
   * A crime absent from the stored state gets exactly one `created` event,
   * timestamped with its start time or else the current time, and a row.
   */
  lemma NewCrimeIsCreated(prior: map<int, Row>, st: Store, c: Counts, s: Snapshot, now: int, joinsMarkChange: bool)
    requires s.id !in prior
    ensures var r := ReconcileOne(prior, st, c, s, now, joinsMarkChange);
      && Appended(prior, st, c, s, now, joinsMarkChange)
         == [Event(s.id, Created(s.status, s.participants, s.rewards), Or(s.started, JInt(now)))]
      && r.0.stats == st.stats
      && s.id in r.0.current
      && r.0.current[s.id].status == s.status
      && r.0.current[s.id].participants == s.participants
      && Truthy(r.0.current[s.id].name)
      && r.1 == Counts(c.updated + 1, c.events + 1, c.newCrimes + 1, c.existing)
  {
    var r := ReconcileOne(prior, st, c, s, now, joinsMarkChange);
    assert r.0.history == st.history + [Event(s.id, Created(s.status, s.participants, s.rewards), Or(s.started, JInt(now)))];
  }

  /** Equal participant sets produce no join or leave, whatever the order. */
  lemma SameMembersNoChurn(stored: Row, s: Snapshot, now: int, joinsMarkChange: bool)
    requires ToSet(stored.participants) == ToSet(s.participants)
    requires stored.status == s.status
    ensures Diff(stored, s, now, joinsMarkChange) == Delta([], [], false, false)
  {
  }

  /**
   * Idempotence of one record: a stored row with the same status and the
   * same participant set yields no events and no statistics; the row is
   * rewritten exactly when it is older than the heartbeat.
   */
  lemma UnchangedCrimeIsQuiet(prior: map<int, Row>, st: Store, c: Counts, s: Snapshot, now: int, joinsMarkChange: bool)
    requires s.id in prior
    requires prior[s.id].status == s.status
    requires ToSet(prior[s.id].participants) == ToSet(s.participants)
    ensures var r := ReconcileOne(prior, st, c, s, now, joinsMarkChange);
      && r.0.history == st.history
      && r.0.stats == st.stats
      && (prior[s.id].lastUpdated < now - Heartbeat ==> r.0.current == st.current[s.id := RowOf(s, s.name, now)])
      && (prior[s.id].lastUpdated >= now - Heartbeat ==> r.0.current == st.current)
      && r.1.events == c.events
  {
    SameMembersNoChurn(prior[s.id], s, now, joinsMarkChange);
    assert st.history + [] == st.history;
    assert st.stats + [] == st.stats;
  }

  lemma WithoutEmpty(xs: seq<int>, ys: seq<int>)
    ensures Without(xs, ys) == [] <==> ToSet(xs) <= ToSet(ys)
  {
    var w := Without(xs, ys);
    if w != [] {
      assert w[0] in w;
      assert w[0] in ToSet(xs) && w[0] !in ToSet(ys);
    } else {
      forall p | p in ToSet(xs) ensures p in ToSet(ys) {
        assert p !in w;
      }
    }
  }

  /** The players named by the join events of a list. */
  lemma JoinEventPlayers(id: int, players: seq<int>, before: seq<int>, after: seq<int>, at: Json, p: int)
    ensures (exists e :: e in JoinEvents(id, players, before, after, at) && e.kind.Joined? && e.kind.player == p)
            <==> p in players
  {
    var r := JoinEvents(id, players, before, after, at);
    if p in players {
      var k :| 0 <= k < |players| && players[k] == p;
      assert r[k] in r;
    }
  }

  /** The players named by the leave events of a list. */
  lemma LeaveEventPlayers(id: int, players: seq<int>, before: seq<int>, after: seq<int>, at: Json, p: int)
    ensures (exists e :: e in LeaveEvents(id, players, before, after, at) && e.kind.Left? && e.kind.player == p)
            <==> p in players
  {
    var r := LeaveEvents(id, players, before, after, at);
    if p in players {
      var k :| 0 <= k < |players| && players[k] == p;
      assert r[k] in r;
    }
  }

  /**
   * Membership churn: one `participant_joined` per id of the new list that
   * the stored list lacks, then one `participant_left` per id of the stored
   * list that the new one lacks, all at the current time. When the status is
   * unchanged these are all the events; a leave marks a change, and a join
   * marks one only when `joinsMarkChange` holds.
   */
  lemma ChurnEvents(stored: Row, s: Snapshot, now: int, joinsMarkChange: bool)
    requires stored.status == s.status
    ensures var d := Diff(stored, s, now, joinsMarkChange);
      var joined := Without(s.participants, stored.participants);
      var left := Without(stored.participants, s.participants);
      && d.events == JoinEvents(s.id, joined, stored.participants, s.participants, JInt(now))
                   + LeaveEvents(s.id, left, stored.participants, s.participants, JInt(now))
      && (forall p :: (exists e :: e in d.events && e.kind.Joined? && e.kind.player == p)
                      <==> p in s.participants && p !in stored.participants)
      && (forall p :: (exists e :: e in d.events && e.kind.Left? && e.kind.player == p)
                      <==> p in stored.participants && p !in s.participants)
      && (d.changed <==> |left| > 0 || (joinsMarkChange && |joined| > 0))
      && d.stats == []
  {
    var joined := Without(s.participants, stored.participants);
    var left := Without(stored.participants, s.participants);
    var je := JoinEvents(s.id, joined, stored.participants, s.participants, JInt(now));
    var le := LeaveEvents(s.id, left, stored.participants, s.participants, JInt(now));
    ChurnShape(stored, s, now, joinsMarkChange);
    forall p
      ensures (exists e: Event :: e in je + le && e.kind.Joined? && e.kind.player == p)
              <==> p in s.participants && p !in stored.participants
    {
      JoinEventPlayers(s.id, joined, stored.participants, s.participants, JInt(now), p);
      assert forall e :: e in le ==> e.kind.Left?;
    }
    forall p
      ensures (exists e: Event :: e in je + le && e.kind.Left? && e.kind.player == p)
              <==> p in stored.participants && p !in s.participants
    {
      LeaveEventPlayers(s.id, left, stored.participants, s.participants, JInt(now), p);
      assert forall e :: e in je ==> e.kind.Joined?;
    }
  }

  /** With an unchanged status, the events are the joins followed by the leaves. */
  lemma ChurnShape(stored: Row, s: Snapshot, now: int, joinsMarkChange: bool)
    requires stored.status == s.status
    ensures var d := Diff(stored, s, now, joinsMarkChange);
      var joined := Without(s.participants, stored.participants);
      var left := Without(stored.participants, s.participants);
      && d.events == JoinEvents(s.id, joined, stored.participants, s.participants, JInt(now))
                   + LeaveEvents(s.id, left, stored.participants, s.participants, JInt(now))
      && (d.changed <==> |left| > 0 || (joinsMarkChange && |joined| > 0))
      && d.stats == []
  {
    var joined := Without(s.participants, stored.participants);
    var left := Without(stored.participants, s.participants);
    assert joined == (if ToSet(stored.participants) != ToSet(s.participants) then joined else []) by {
      WithoutEmpty(s.participants, stored.participants);
    }
    assert left == (if ToSet(stored.participants) != ToSet(s.participants) then left else []) by {
      WithoutEmpty(stored.participants, s.participants);
    }
    var je := JoinEvents(s.id, joined, stored.participants, s.participants, JInt(now));
    var le := LeaveEvents(s.id, left, stored.participants, s.participants, JInt(now));
    assert Diff(stored, s, now, joinsMarkChange).events == [] + je + le + [];
    assert [] + je + le + [] == je + le;
  }

  /**
   * Moving into a terminal status appends a `status_changed` event first
   * and exactly one event named after the new status last, timestamped with
   * the execution time or else the current time; every participant gets one
   * statistics update; the row is deleted and written again with the
   * terminal status.
   */
  lemma TerminalTransition(prior: map<int, Row>, st: Store, c: Counts, s: Snapshot, now: int, joinsMarkChange: bool)
    requires s.id in prior
    requires IsTerminal(s.status) && !IsTerminal(prior[s.id].status)
    ensures var r := ReconcileOne(prior, st, c, s, now, joinsMarkChange);
      var ev := Appended(prior, st, c, s, now, joinsMarkChange);
      && |ev| >= 2
      && ev[0] == Event(s.id, StatusChanged(prior[s.id].status, s.status), JInt(now))
      && ev[|ev| - 1] == Event(s.id, Finished(prior[s.id].status, s.status, s.rewards), Or(s.executed, JInt(now)))
      && (forall k :: 0 <= k < |ev| - 1 ==> !ev[k].kind.Finished?)
      && r.0.stats == st.stats + StatsFor(s)
      && s.id in r.0.current
      && r.0.current[s.id] == RowOf(s, s.name, now)
      && r.1.updated == c.updated + 1
  {
    var stored := prior[s.id];
    var d := Diff(stored, s, now, joinsMarkChange);
    var r := ReconcileOne(prior, st, c, s, now, joinsMarkChange);
    assert r.0.history == st.history + d.events;
    assert r.0.history[|st.history|..] == d.events;
    TerminalEvents(stored, s, now, joinsMarkChange);
  }

  /** The events of a move into a terminal status: the status change first, the finish last, no other finish. */
  lemma TerminalEvents(stored: Row, s: Snapshot, now: int, joinsMarkChange: bool)
    requires IsTerminal(s.status) && !IsTerminal(stored.status)
    ensures var e := Diff(stored, s, now, joinsMarkChange).events;
      && |e| >= 2
      && e[0] == Event(s.id, StatusChanged(stored.status, s.status), JInt(now))
      && e[|e| - 1] == Event(s.id, Finished(stored.status, s.status, s.rewards), Or(s.executed, JInt(now)))
      && (forall k :: 0 <= k < |e| - 1 ==> !e[k].kind.Finished?)
  {
    var differs := ToSet(stored.participants) != ToSet(s.participants);
    var joined := if differs then Without(s.participants, stored.participants) else [];
    var left := if differs then Without(stored.participants, s.participants) else [];
    var first := Event(s.id, StatusChanged(stored.status, s.status), JInt(now));
    var last := Event(s.id, Finished(stored.status, s.status, s.rewards), Or(s.executed, JInt(now)));
    var mid := JoinEvents(s.id, joined, stored.participants, s.participants, JInt(now))
      + LeaveEvents(s.id, left, stored.participants, s.participants, JInt(now));
    assert forall k :: 0 <= k < |mid| ==> !mid[k].kind.Finished?;
    Associative([first], JoinEvents(s.id, joined, stored.participants, s.participants, JInt(now)),
      LeaveEvents(s.id, left, stored.participants, s.participants, JInt(now)));
    assert Diff(stored, s, now, joinsMarkChange).events == [first] + mid + [last];
    FinishOnlyLast(first, mid, last);
  }

  lemma FinishOnlyLast(first: Event, mid: seq<Event>, last: Event)
    requires !first.kind.Finished?
    requires forall k :: 0 <= k < |mid| ==> !mid[k].kind.Finished?
    ensures var e := [first] + mid + [last];
      |e| >= 2 && e[0] == first && e[|e| - 1] == last && forall k :: 0 <= k < |e| - 1 ==> !e[k].kind.Finished?
  {
    var e := [first] + mid + [last];
    forall k | 0 <= k < |e| - 1 ensures !e[k].kind.Finished? {
      if k > 0 {
        assert e[k] == mid[k - 1];
      }
    }
  }

  /**
   * The heartbeat: for a crime already stored, the row is rewritten (and
   * counted as updated) exactly when a change was detected or the stored
   * row is older than 300 seconds.
   */
  lemma HeartbeatRefresh(prior: map<int, Row>, st: Store, c: Counts, s: Snapshot, now: int, joinsMarkChange: bool)
    requires s.id in prior
    ensures var r := ReconcileOne(prior, st, c, s, now, joinsMarkChange);
      var refresh := Diff(prior[s.id], s, now, joinsMarkChange).changed || prior[s.id].lastUpdated < now - Heartbeat;
      && (refresh ==> s.id in r.0.current && r.0.current[s.id] == RowOf(s, s.name, now) && r.1.updated == c.updated + 1)
      && (!refresh ==> r.0.current == st.current && r.1.updated == c.updated)
  {
  }

  /** A record that does not parse leaves the store and the counters as they are. */
  lemma SkippedRecord(prior: map<int, Row>, st: Store, c: Counts, record: Json, rest: seq<Json>, now: int, joinsMarkChange: bool)
    requires ParseCrime(record).None?
    ensures ReconcileBatch(prior, st, c, [record] + rest, now, joinsMarkChange)
         == ReconcileBatch(prior, st, c, rest, now, joinsMarkChange)
  {
    assert ([record] + rest)[1..] == rest;
  }

  /** `a` is an initial segment of `b`. */
  predicate IsPrefix<T(==)>(a: seq<T>, b: seq<T>) {
    |a| <= |b| && b[..|a|] == a
  }

  lemma PrefixTransitive<T>(a: seq<T>, b: seq<T>, c: seq<T>)
    requires IsPrefix(a, b) && IsPrefix(b, c)
    ensures IsPrefix(a, c)
  {
    assert c[..|a|] == c[..|b|][..|a|];
  }

  /**
   * With joins counted as changes, reconciling a record a second time
   * against the state the first pass left appends nothing, at any later
   * time.
   */
  lemma {:induction false} ReprocessingIsQuiet(st: Store, c: Counts, s: Snapshot, now: int, later: int)
    ensures var first := ReconcileOne(st.current, st, c, s, now, true);
      var second := ReconcileOne(first.0.current, first.0, first.1, s, later, true);
      && second.0.history == first.0.history
      && second.0.stats == first.0.stats
  {
    var first := ReconcileOne(st.current, st, c, s, now, true);
    assert s.id in first.0.current;
    var row := first.0.current[s.id];
    if s.id in st.current {
      var stored := st.current[s.id];
      var d := Diff(stored, s, now, true);
      if !(d.changed || stored.lastUpdated < now - Heartbeat) {
        WithoutEmpty(s.participants, stored.participants);
        WithoutEmpty(stored.participants, s.participants);
        assert row == stored;
      }
    }
    assert row.status == s.status && ToSet(row.participants) == ToSet(s.participants);
    UnchangedCrimeIsQuiet(first.0.current, first.0, first.1, s, later, true);
  }

  /**
   * As written, a join alone is not a change: a row stored ten seconds ago
   * with members [5, 9], seen again with [5, 9, 12], is not rewritten, so
   * the next pass inside the heartbeat appends the same `participant_joined`
   * event a second time.
   */
  lemma JoinIsRepeatedAsWritten()
    ensures var stored := Row(JStr("Heist"), [5, 9], 3, JNull, JNull, Planning, NoRewards, 990);
      var s := Snapshot(101, JStr("Heist"), [5, 9, 12], 3, JNull, JNull, Planning, NoRewards);
      var st := Store(map[101 := stored], [], []);
      var first := ReconcileOne(st.current, st, NoCounts, s, 1000, false);
      var second := ReconcileOne(first.0.current, first.0, first.1, s, 1000, false);
      && first.0.history == [Event(101, Joined(12, [5, 9], [5, 9, 12]), JInt(1000))]
      && second.0.history == first.0.history + first.0.history
  {
    var stored := Row(JStr("Heist"), [5, 9], 3, JNull, JNull, Planning, NoRewards, 990);
    var s := Snapshot(101, JStr("Heist"), [5, 9, 12], 3, JNull, JNull, Planning, NoRewards);
    assert ToSet(stored.participants) != ToSet(s.participants) by { assert 12 in ToSet(s.participants); }
    assert Without(s.participants, stored.participants) == [12];
    assert Without(stored.participants, s.participants) == [];
  }
}

=== FILE: crimesync.dfy ===
/**
 * The pure steps of the faction crime sync loop: reading the next page's
 * offset out of the feed's `next` link, recovering an API error code from
 * an error message, and choosing the failure note a key leaves behind.
 */
module CrimeSync {
  import opened Wrappers
  import opened PyText
  import Gateway

  /** The step taken when the next link carries no usable offset. */
  const PageStep := 100

  /**
   * The offset of the next page, or `None` when pagination stops because
   * there is no next link (absent, null and empty all read as "").
   * The offset is the text after the first `offset=` up to the next `&`;
   * when it is missing or not an integer the old offset advances by 100.
   */
  function NextOffset(nextLink: string, offset: int): (r: Option<int>)
    ensures nextLink == "" <==> r.None?
    ensures nextLink != "" && !Contains(nextLink, "offset=") ==> r == Some(offset + PageStep)
    ensures nextLink != "" && Contains(nextLink, "offset=") ==>
      var value := Split(Split(nextLink, "offset=")[1], "&")[0];
      r == Some(ParseInt(value).GetOr(offset + PageStep))
  {
    if nextLink == "" then None
    else if Contains(nextLink, "offset=") then
      var value := Split(Split(nextLink, "offset=")[1], "&")[0];
      match ParseInt(value)
      case Some(n) => Some(n)
      case None => Some(offset + PageStep)
    else Some(offset + PageStep)
  }

  /**
   * A next link whose first `offset=` is followed by a rendered integer and
   * then `&` (or the end of the link) yields exactly that integer.
   */
  lemma NextOffsetReadsParameter(prefix: string, n: int, rest: string, offset: int)
    requires Find(prefix + "offset=", "offset=") == Some(|prefix|)
    ensures NextOffset(prefix + "offset=" + IntToString(n) + "&" + rest, offset) == Some(n)
    ensures NextOffset(prefix + "offset=" + IntToString(n), offset) == Some(n)
  {
    RenderedIntHasNoMarkers(n);
    FieldAfterFirst(prefix, "offset=", IntToString(n), '&', rest);
    ParseIntOfIntToString(n);
  }

  /** No character of a rendered integer is one the parsers split on. */
  lemma RenderedIntHasNoMarkers(n: int)
    ensures forall i :: 0 <= i < |IntToString(n)| ==>
      var c := IntToString(n)[i];
      c != 'o' && c != '&' && c != 'E' && c != ':' && c != ' '
  {
    IntToStringChars(n);
  }

  /** A link without `offset=` advances by one page. */
  lemma NextOffsetDefaultStep(link: string, offset: int)
    requires link != "" && !Contains(link, "offset=")
    ensures NextOffset(link, offset) == Some(offset + PageStep)
  {
  }

  /**
   * The API error code recovered from an error message: the text after the
   * first "Error" up to the next ':', stripped and converted with `int()`.
   * `None` when the message has no "Error" or the text is not an integer.
   */
  function ErrorCodeFromMessage(msg: string): (r: Option<int>)
    ensures !Contains(msg, "Error") ==> r.None?
    ensures Contains(msg, "Error") ==> r == ParseInt(Strip(Split(Split(msg, "Error")[1], ":")[0]))
  {
    if Contains(msg, "Error") then
      ParseInt(Strip(Split(Split(msg, "Error")[1], ":")[0]))
    else None
  }

  /**
   * The client's error-envelope message carries its code back: the code
   * recovered from the message is the code the envelope held.
   */
  lemma ErrorCodeRoundTrip(code: int)
    ensures ErrorCodeFromMessage(Gateway.EnvelopeMessage(code)) == Some(code)
  {
    var text := Gateway.KnownError(code).GetOr("Unknown error code: " + IntToString(code));
    RenderedIntHasNoMarkers(code);
    IntToStringChars(code);
    CodeAfterError(IntToString(code), text);
    ParseIntOfIntToString(code);
  }

  /** Different error codes raise different messages. */
  lemma EnvelopeMessagesDistinct(a: int, b: int)
    requires a != b
    ensures Gateway.EnvelopeMessage(a) != Gateway.EnvelopeMessage(b)
  {
    ErrorCodeRoundTrip(a);
    ErrorCodeRoundTrip(b);
  }

  /** In "Torn API Error <d>: <text>" the code field is `d`. */
  lemma CodeAfterError(d: string, text: string)
    requires |d| > 0 && !IsSpace(d[0]) && !IsSpace(d[|d| - 1])
    requires forall i :: 0 <= i < |d| ==> d[i] != 'E' && d[i] != ':' && d[i] != ' '
    ensures Contains("Torn API Error " + d + ": " + text, "Error")
    ensures Strip(Split(Split("Torn API Error " + d + ": " + text, "Error")[1], ":")[0]) == d
  {
    var sd := " " + d;
    MessageShape(d, text);
    ErrorMarkerFirst();
    FieldAfterFirst("Torn API ", "Error", sd, ':', " " + text);
    StripLeadingSpace(d);
  }

  lemma MessageShape(d: string, text: string)
    ensures "Torn API Error " + d + ": " + text == "Torn API " + "Error" + (" " + d) + [':'] + (" " + text)
  {
  }

  lemma ErrorMarkerFirst()
    ensures Find("Torn API " + "Error", "Error") == Some(|"Torn API "|)
  {
    FindPastPrefix("Torn API ", "Error", "Error");
    FindAtStart("Error", "");
    assert "Error" + "" == "Error";
  }

  /** How the sync loop reacts to an API error raised while using one key. */
  datatype Disposition =
    | PermissionDenied   // code 7: move on to the next key
    | RateLimited        // code 5 or a rate-limit message: wait a minute, move on
    | OtherApiError      // anything else: move on to the next key

  /** The reaction to the API error whose message is `msg`. */
  function Classify(msg: string): (d: Disposition)
    ensures d == PermissionDenied <==> ErrorCodeFromMessage(msg) == Some(7)
    ensures d == RateLimited <==>
      ErrorCodeFromMessage(msg) != Some(7)
      && (ErrorCodeFromMessage(msg) == Some(5) || Contains(Lower(msg), "rate limit"))
  {
    var code := ErrorCodeFromMessage(msg);
    if code == Some(7) then PermissionDenied
    else if code == Some(5) || Contains(Lower(msg), "rate limit") then RateLimited
    else OtherApiError
  }

  /** An error envelope with code 7 makes the loop try the next key. */
  lemma PermissionEnvelopeMovesOn()
    ensures Classify(Gateway.EnvelopeMessage(7)) == PermissionDenied
  {
    ErrorCodeRoundTrip(7);
  }

  /** An error envelope with code 5 is treated as a rate limit. */
  lemma RateEnvelopeWaits()
    ensures Classify(Gateway.EnvelopeMessage(5)) == RateLimited
  {
    ErrorCodeRoundTrip(5);
  }
}

=== FILE: database.dfy ===
/**
 * The storage layer for Torn data: the schema-version gate, upserts of the
 * current player and faction rows, the append-only history tables, their
 * monthly summaries and their pruning. Each table is a value: a `map` for a
 * table with a primary key, a `seq` in insertion order for a history table.
 */
module Database {
  import opened Wrappers
  import opened Calendar
  import PyText
  import opened Collections

  // ---------------------------------------------------------------------
  // Schema version gate
  // ---------------------------------------------------------------------

  const CurrentSchemaVersion := 1

  /** The `schema_version` table; `Missing` before it is first created. */
  datatype VersionTable = Missing | Rows(versions: seq<int>)

  function MaxOf(s: seq<int>): (m: int)
    requires |s| > 0
    ensures m in s
    ensures forall i :: 0 <= i < |s| ==> s[i] <= m
  {
    if |s| == 1 then s[0]
    else
      var rest := MaxOf(s[1..]);
      if s[0] >= rest then s[0] else rest
  }

  /**
   * The schema version in force: the largest recorded version, or 0 when
   * the table is missing or empty.
   */
  function SchemaVersion(t: VersionTable): (v: int)
    ensures t.Missing? ==> v == 0
    ensures t.Rows? && |t.versions| == 0 ==> v == 0
    ensures t.Rows? && |t.versions| > 0 ==>
      v in t.versions && forall i :: 0 <= i < |t.versions| ==> t.versions[i] <= v
  {
    match t
    case Missing => 0
    case Rows(vs) => if |vs| == 0 then 0 else MaxOf(vs)
  }

  /**
   * Schema initialisation at connect time: a store whose version is below 1
   * gets the version-1 tables and the row for version 1; any other store is
   * left alone.
   */
  function InitializeSchema(t: VersionTable): (r: VersionTable)
    ensures SchemaVersion(r) >= CurrentSchemaVersion
    ensures SchemaVersion(t) >= 1 ==> r == t
    ensures SchemaVersion(t) < 1 ==>
      r.Rows? && |r.versions| > 0 && r.versions[|r.versions| - 1] == 1
      && r.versions[..|r.versions| - 1] == (if t.Rows? then t.versions else [])
  {
    if SchemaVersion(t) >= 1 then t
    else
      var prior := if t.Rows? then t.versions else [];
      var vs := prior + [1];
      assert vs[|vs| - 1] == 1;
      Rows(vs)
  }

  /** Connecting a second time changes nothing. */
  lemma InitializeIsIdempotent(t: VersionTable)
    ensures InitializeSchema(InitializeSchema(t)) == InitializeSchema(t)
  {
  }

  // ---------------------------------------------------------------------
  // Current-state tables and their upserts
  // ---------------------------------------------------------------------

  datatype Player = Player(
    name: string,
    level: Option<int>,
    rank: Option<string>,
    faction: Option<int>,
    statusState: Option<string>,
    statusDescription: Option<string>,
    lifeCurrent: Option<int>,
    lifeMaximum: Option<int>,
    createdAt: int,
    lastUpdated: int)

  /** The arguments of a player upsert; `None` means "not given". */
  datatype PlayerUpdate = PlayerUpdate(
    name: string,
    level: Option<int>,
    rank: Option<string>,
    faction: Option<int>,
    statusState: Option<string>,
    statusDescription: Option<string>,
    lifeCurrent: Option<int>,
    lifeMaximum: Option<int>)

  datatype Faction = Faction(
    name: string,
    tag: Option<string>,
    leader: Option<int>,
    coLeader: Option<int>,
    respect: Option<int>,
    age: Option<int>,
    bestChain: Option<int>,
    memberCount: Option<int>,
    createdAt: int,
    lastUpdated: int)

  datatype FactionUpdate = FactionUpdate(
    name: string,
    tag: Option<string>,
    leader: Option<int>,
    coLeader: Option<int>,
    respect: Option<int>,
    age: Option<int>,
    bestChain: Option<int>,
    memberCount: Option<int>)

  /** SQL `COALESCE(given, kept)`. */
  function Coalesce<T>(given: Option<T>, kept: Option<T>): Option<T> {
    if given.Some? then given else kept
  }

  /**
   * A column after an upsert: the given value when there is one, else the
   * value the row held before, else NULL for a new row.
   */
  predicate KeepsUnlessGiven<T(==)>(given: Option<T>, before: Option<T>, after: Option<T>) {
    (given.Some? ==> after == given) && (given.None? ==> after == before)
  }

  /** The stand-in row written for a faction first seen through a player. */
  function PlaceholderFaction(id: int, now: int): (f: Faction)
    ensures f.name == "Faction " + PyText.IntToString(id)
    ensures f.tag.None? && f.leader.None? && f.respect.None? && f.memberCount.None?
    ensures f.createdAt == now && f.lastUpdated == now
  {
    Faction("Faction " + PyText.IntToString(id), None, None, None, None, None, None, None, now, now)
  }

  /** The player row written by an upsert over `prior` (absent: `None`). */
  function MergePlayer(prior: Option<Player>, u: PlayerUpdate, now: int): Player {
    match prior
    case None =>
      Player(u.name, u.level, u.rank, u.faction, u.statusState, u.statusDescription,
             u.lifeCurrent, u.lifeMaximum, now, now)
    case Some(p) =>
      Player(u.name, Coalesce(u.level, p.level), Coalesce(u.rank, p.rank),
             Coalesce(u.faction, p.faction), Coalesce(u.statusState, p.statusState),
             Coalesce(u.statusDescription, p.statusDescription),
             Coalesce(u.lifeCurrent, p.lifeCurrent), Coalesce(u.lifeMaximum, p.lifeMaximum),
             p.createdAt, now)
  }

  function Prior<K, V>(m: map<K, V>, k: K): (r: Option<V>)
    ensures r.Some? <==> k in m
    ensures r.Some? ==> r.value == m[k]
  {
    if k in m then Some(m[k]) else None
  }

  function PriorField<V, T>(prior: Option<V>, f: V -> Option<T>): Option<T> {
    if prior.Some? then f(prior.value) else None
  }

  /**
   * Upsert of player `id`: a faction the update names that has no row yet
   * first gets a placeholder row; then the player row is inserted, or
   * updated with its name always overwritten, every other given column
   * overwritten and every column not given kept, and `lastUpdated` = now.
   */
  function UpsertPlayer(players: map<int, Player>, factions: map<int, Faction>,
                        id: int, u: PlayerUpdate, now: int): (r: (map<int, Player>, map<int, Faction>))
    ensures id in r.0
    ensures r.0[id].name == u.name && r.0[id].lastUpdated == now
    ensures r.0[id].createdAt == (if id in players then players[id].createdAt else now)
    ensures var before := Prior(players, id);
      KeepsUnlessGiven(u.level, PriorField(before, (p: Player) => p.level), r.0[id].level)
      && KeepsUnlessGiven(u.rank, PriorField(before, (p: Player) => p.rank), r.0[id].rank)
      && KeepsUnlessGiven(u.faction, PriorField(before, (p: Player) => p.faction), r.0[id].faction)
      && KeepsUnlessGiven(u.statusState, PriorField(before, (p: Player) => p.statusState), r.0[id].statusState)
      && KeepsUnlessGiven(u.statusDescription, PriorField(before, (p: Player) => p.statusDescription),
                          r.0[id].statusDescription)
      && KeepsUnlessGiven(u.lifeCurrent, PriorField(before, (p: Player) => p.lifeCurrent), r.0[id].lifeCurrent)
      && KeepsUnlessGiven(u.lifeMaximum, PriorField(before, (p: Player) => p.lifeMaximum), r.0[id].lifeMaximum)
    ensures forall k :: k != id ==> (k in r.0 <==> k in players)
    ensures forall k :: k != id && k in players ==> r.0[k] == players[k]
    ensures u.faction.Some? && u.faction.value !in factions ==>
      r.1 == factions[u.faction.value := PlaceholderFaction(u.faction.value, now)]
    ensures !(u.faction.Some? && u.faction.value !in factions) ==> r.1 == factions
  {
    var factions' :=
      if u.faction.Some? && u.faction.value !in factions
      then factions[u.faction.value := PlaceholderFaction(u.faction.value, now)]
      else factions;
    (players[id := MergePlayer(Prior(players, id), u, now)], factions')
  }

  /** The faction row written by an upsert over `prior`. */
  function MergeFaction(prior: Option<Faction>, u: FactionUpdate, now: int): Faction {
    match prior
    case None =>
      Faction(u.name, u.tag, u.leader, u.coLeader, u.respect, u.age, u.bestChain,
              u.memberCount, now, now)
    case Some(f) =>
      Faction(u.name, Coalesce(u.tag, f.tag), Coalesce(u.leader, f.leader),
              Coalesce(u.coLeader, f.coLeader), Coalesce(u.respect, f.respect),
              Coalesce(u.age, f.age), Coalesce(u.bestChain, f.bestChain),
              Coalesce(u.memberCount, f.memberCount), f.createdAt, now)
  }

  /** Upsert of faction `id`, with the same column rules as a player upsert. */
  function UpsertFaction(factions: map<int, Faction>, id: int, u: FactionUpdate, now: int)
    : (r: map<int, Faction>)
    ensures id in r
    ensures r[id].name == u.name && r[id].lastUpdated == now
    ensures r[id].createdAt == (if id in factions then factions[id].createdAt else now)
    ensures var before := Prior(factions, id);
      KeepsUnlessGiven(u.tag, PriorField(before, (f: Faction) => f.tag), r[id].tag)
      && KeepsUnlessGiven(u.leader, PriorField(before, (f: Faction) => f.leader), r[id].leader)
      && KeepsUnlessGiven(u.coLeader, PriorField(before, (f: Faction) => f.coLeader), r[id].coLeader)
      && KeepsUnlessGiven(u.respect, PriorField(before, (f: Faction) => f.respect), r[id].respect)
      && KeepsUnlessGiven(u.age, PriorField(before, (f: Faction) => f.age), r[id].age)
      && KeepsUnlessGiven(u.bestChain, PriorField(before, (f: Faction) => f.bestChain), r[id].bestChain)
      && KeepsUnlessGiven(u.memberCount, PriorField(before, (f: Faction) => f.memberCount), r[id].memberCount)
    ensures forall k :: k != id ==> (k in r <==> k in factions)
    ensures forall k :: k != id && k in factions ==> r[k] == factions[k]
  {
    factions[id := MergeFaction(Prior(factions, id), u, now)]
  }

  /** Repeating an upsert at the same instant changes nothing further. */
  lemma UpsertPlayerIsIdempotent(players: map<int, Player>, factions: map<int, Faction>,
                                 id: int, u: PlayerUpdate, now: int)
    ensures var (p1, f1) := UpsertPlayer(players, factions, id, u, now);
      UpsertPlayer(p1, f1, id, u, now) == (p1, f1)
  {
    var (p1, f1) := UpsertPlayer(players, factions, id, u, now);
    assert MergePlayer(Prior(p1, id), u, now) == p1[id];
    assert p1[id := p1[id]] == p1;
  }

  lemma UpsertFactionIsIdempotent(factions: map<int, Faction>, id: int, u: FactionUpdate, now: int)
    ensures UpsertFaction(UpsertFaction(factions, id, u, now), id, u, now)
         == UpsertFaction(factions, id, u, now)
  {
    var f1 := UpsertFaction(factions, id, u, now);
    assert MergeFaction(Prior(f1, id), u, now) == f1[id];
    assert f1[id := f1[id]] == f1;
  }

  /**
   * A player upsert naming a new faction leaves a placeholder that the
   * faction's own upsert later overwrites: the real name wins and the
   * placeholder's creation time is kept.
   */
  lemma PlaceholderIsFilledIn(players: map<int, Player>, factions: map<int, Faction>,
                              id: int, u: PlayerUpdate, t1: int, fu: FactionUpdate, t2: int)
    requires u.faction.Some? && u.faction.value !in factions
    ensures var (_, f1) := UpsertPlayer(players, factions, id, u, t1);
      var f2 := UpsertFaction(f1, u.faction.value, fu, t2);
      f2[u.faction.value].name == fu.name && f2[u.faction.value].createdAt == t1
      && f2[u.faction.value].respect == fu.respect
  {
  }

  // ---------------------------------------------------------------------
  // History tables
  // ---------------------------------------------------------------------

  /** The body of one history row, one variant per history table. */
  datatype Payload =
    | PlayerStats(strength: Option<int>, defense: Option<int>, speed: Option<int>,
                  dexterity: Option<int>, totalStats: Option<int>, level: Option<int>,
                  lifeMaximum: Option<int>, networth: Option<int>)
    | FactionStats(respect: Option<int>, memberCount: Option<int>, bestChain: Option<int>)
    | WarStatus(warType: string, territory: Option<int>, attacker: Option<int>,
                defender: Option<int>, attackerScore: Option<int>, defenderScore: Option<int>,
                requiredScore: Option<int>, status: Option<string>, startedAt: Option<int>,
                endsAt: Option<int>)
    | TerritoryOwner(owner: Option<int>, sector: Option<string>, coordinates: Option<string>,
                     racketLevel: Option<int>, racketType: Option<string>, warStatus: Option<string>)

  /**
   * One history row: the entity it is about (player, faction, war or
   * territory id), the second it was written, and its data source.
   */
  datatype Sample = Sample(entity: int, at: int, payload: Payload, source: Option<string>)

  /** A history row is appended with the current time as its timestamp. */
  function Append(table: seq<Sample>, entity: int, payload: Payload, source: Option<string>, now: int)
    : seq<Sample>
  {
    table + [Sample(entity, now, payload, source)]
  }

  // ---------------------------------------------------------------------
  // Pruning
  // ---------------------------------------------------------------------

  /** The rows written at or after `cutoff`, in table order. */
  function KeepFrom(table: seq<Sample>, cutoff: int): (r: seq<Sample>)
    ensures |r| <= |table|
    ensures forall x :: x in r <==> x in table && x.at >= cutoff
  {
    if |table| == 0 then []
    else
      var rest := KeepFrom(table[1..], cutoff);
      assert table == [table[0]] + table[1..];
      if table[0].at >= cutoff then [table[0]] + rest else rest
  }

  /** How many rows were written strictly before `cutoff`. */
  function CountBefore(table: seq<Sample>, cutoff: int): (n: nat)
    ensures n <= |table|
    ensures n == 0 <==> forall i :: 0 <= i < |table| ==> table[i].at >= cutoff
  {
    if |table| == 0 then 0
    else (if table[0].at < cutoff then 1 else 0) + CountBefore(table[1..], cutoff)
  }

  lemma {:induction false} KeepAndCountPartition(table: seq<Sample>, cutoff: int)
    ensures |KeepFrom(table, cutoff)| + CountBefore(table, cutoff) == |table|
  {
    if |table| > 0 {
      KeepAndCountPartition(table[1..], cutoff);
    }
  }

  /**
   * Pruning a history table `days` days back from `now`: exactly the rows
   * strictly older than `now - days * 86400` go, and their number is
   * returned. Summary tables are not touched.
   */
  function Prune(table: seq<Sample>, now: int, days: int): (r: (seq<Sample>, nat))
    ensures var cutoff := now - days * SecondsPerDay;
      (forall x :: x in r.0 <==> x in table && x.at >= cutoff)
      && r.1 + |r.0| == |table|
      && (r.1 == 0 <==> forall i :: 0 <= i < |table| ==> table[i].at >= cutoff)
  {
    var cutoff := now - days * SecondsPerDay;
    KeepAndCountPartition(table, cutoff);
    (KeepFrom(table, cutoff), CountBefore(table, cutoff))
  }

  lemma {:induction false} KeepFromAll(table: seq<Sample>, cutoff: int)
    requires forall i :: 0 <= i < |table| ==> table[i].at >= cutoff
    ensures KeepFrom(table, cutoff) == table
  {
    if |table| > 0 {
      KeepFromAll(table[1..], cutoff);
      assert table == [table[0]] + table[1..];
    }
  }

  /** Pruning again with the same cutoff deletes nothing. */
  lemma PruneIsIdempotent(table: seq<Sample>, now: int, days: int)
    ensures var (kept, _) := Prune(table, now, days);
      Prune(kept, now, days) == (kept, 0)
  {
    var cutoff := now - days * SecondsPerDay;
    var kept := KeepFrom(table, cutoff);
    assert forall i :: 0 <= i < |kept| ==> kept[i].at >= cutoff by {
      forall i | 0 <= i < |kept| ensures kept[i].at >= cutoff {
        assert kept[i] in kept;
      }
    }
    KeepFromAll(kept, cutoff);
  }

  /** A row appended now survives any prune of a non-negative age. */
  lemma AppendedRowSurvivesPrune(table: seq<Sample>, entity: int, payload: Payload,
                                 source: Option<string>, now: int, days: nat)
    ensures Sample(entity, now, payload, source)
            in Prune(Append(table, entity, payload, source, now), now, days).0
  {
  }

  // ---------------------------------------------------------------------
  // Chronological order
  // ---------------------------------------------------------------------

  predicate Chronological(s: seq<Sample>) {
    forall i, j :: 0 <= i < j < |s| ==> s[i].at <= s[j].at
  }

  /** Places `x` after every row no later than it: a stable insertion. */
  function Insert(x: Sample, s: seq<Sample>): (r: seq<Sample>)
    ensures |r| == |s| + 1
    ensures multiset(r) == multiset(s) + multiset{x}
  {
    if |s| == 0 then [x]
    else if x.at < s[0].at then [x] + s
    else
      assert s == [s[0]] + s[1..];
      [s[0]] + Insert(x, s[1..])
  }

  lemma {:induction false} InsertKeepsOrder(x: Sample, s: seq<Sample>)
    requires Chronological(s)
    ensures Chronological(Insert(x, s))
  {
    if |s| > 0 && x.at >= s[0].at {
      InsertKeepsOrder(x, s[1..]);
      var r := Insert(x, s[1..]);
      assert forall k :: 0 <= k < |r| ==> s[0].at <= r[k].at by {
        forall k | 0 <= k < |r| ensures s[0].at <= r[k].at {
          assert r[k] in multiset(s[1..]) + multiset{x};
          if r[k] in multiset(s[1..]) {
            var j :| 0 <= j < |s[1..]| && s[1..][j] == r[k];
            assert s[j + 1] == r[k];
          }
        }
      }
    }
  }

  /** The rows of `s` ordered by time, rows with equal times kept in table order. */
  function SortByTime(s: seq<Sample>): (r: seq<Sample>)
    ensures |r| == |s|
    ensures multiset(r) == multiset(s)
  {
    if |s| == 0 then []
    else
      assert s == s[..|s| - 1] + [s[|s| - 1]];
      Insert(s[|s| - 1], SortByTime(s[..|s| - 1]))
  }

  lemma {:induction false} SortByTimeIsChronological(s: seq<Sample>)
    ensures Chronological(SortByTime(s))
  {
    if |s| > 0 {
      SortByTimeIsChronological(s[..|s| - 1]);
      InsertKeepsOrder(s[|s| - 1], SortByTime(s[..|s| - 1]));
    }
  }

  lemma {:induction false} InsertAtEnd(x: Sample, s: seq<Sample>)
    requires forall i :: 0 <= i < |s| ==> s[i].at <= x.at
    ensures Insert(x, s) == s + [x]
  {
    if |s| > 0 {
      InsertAtEnd(x, s[1..]);
      assert s == [s[0]] + s[1..];
    }
  }

  /** A table already in time order is left as it is. */
  lemma {:induction false} SortOfChronological(s: seq<Sample>)
    requires Chronological(s)
    ensures SortByTime(s) == s
  {
    if |s| > 0 {
      var init := s[..|s| - 1];
      assert Chronological(init);
      SortOfChronological(init);
      InsertAtEnd(s[|s| - 1], init);
      assert init + [s[|s| - 1]] == s;
    }
  }

  // ---------------------------------------------------------------------
  // Monthly summaries
  // ---------------------------------------------------------------------

  /** The three summarised history tables. */
  datatype Kind = PlayerStatsKind | FactionKind | TerritoryKind

  /** Numeric columns a rollup summary covers, in summary-column order. */
  function Width(kind: Kind): nat {
    match kind
    case PlayerStatsKind => 8
    case FactionKind => 3
    case TerritoryKind => 0
  }

  /**
   * Whether column `i` of a rollup has a `_change` column. The player
   * summary stores `life_maximum` start and end but no change.
   */
  predicate HasChange(kind: Kind, i: nat) {
    !(kind == PlayerStatsKind && i == 6)
  }

  /** The numeric columns of a row, `None` (SQL NULL) for the wrong table. */
  function Columns(kind: Kind, p: Payload): (c: seq<Option<int>>)
    ensures |c| == Width(kind)
  {
    match kind
    case PlayerStatsKind =>
      if p.PlayerStats? then
        [p.strength, p.defense, p.speed, p.dexterity, p.totalStats, p.level, p.lifeMaximum, p.networth]
      else seq(8, _ => None)
    case FactionKind =>
      if p.FactionStats? then [p.respect, p.memberCount, p.bestChain] else seq(3, _ => None)
    case TerritoryKind => []
  }

  /** A NULL column reads as 0 in a summary. */
  function OrZero(v: Option<int>): int {
    if v.Some? then v.value else 0
  }

  /** The owner recorded by a territory row; NULL for other tables. */
  function Owner(p: Payload): Option<int> {
    if p.TerritoryOwner? then p.owner else None
  }

  predicate Owned(owner: Option<int>) {
    owner.Some? && owner.value != 0
  }

  /** Whether an ownership step from `prev` to `cur` counts as a change. */
  predicate IsChange(prev: Option<int>, cur: Option<int>) {
    prev.Some? && prev != cur
  }

  /**
   * The number of consecutive pairs whose earlier owner is known and
   * differs from the later one: a move to NULL counts, a move from NULL
   * does not.
   */
  function OwnershipChanges(owners: seq<Option<int>>): (n: nat)
    ensures |owners| <= 1 ==> n == 0
  {
    if |owners| <= 1 then 0
    else
      OwnershipChanges(owners[..|owners| - 1])
      + (if IsChange(owners[|owners| - 2], owners[|owners| - 1]) then 1 else 0)
  }

  /**
   * The ownership-change loop as the summariser runs it: walk the owners in
   * time order, remembering the previous one.
   */
  method CountOwnershipChanges(owners: seq<Option<int>>) returns (n: nat)
    ensures n == OwnershipChanges(owners)
  {
    n := 0;
    var prev: Option<int> := None;
    var i := 0;
    while i < |owners|
      invariant 0 <= i <= |owners|
      invariant i == 0 ==> prev.None?
      invariant i > 0 ==> prev == owners[i - 1]
      invariant n == OwnershipChanges(owners[..i])
    {
      if prev.Some? && prev != owners[i] {
        n := n + 1;
      }
      assert owners[..i + 1][..i] == owners[..i];
      prev := owners[i];
      i := i + 1;
    }
    assert owners[..i] == owners;
  }

  /** There can be no more changes than steps. */
  lemma {:induction false} OwnershipChangesBound(owners: seq<Option<int>>)
    ensures |owners| > 0 ==> OwnershipChanges(owners) <= |owners| - 1
  {
    if |owners| > 1 {
      OwnershipChangesBound(owners[..|owners| - 1]);
    }
  }

  /** A territory held by one owner throughout has no changes. */
  lemma {:induction false} SteadyOwnerHasNoChanges(owners: seq<Option<int>>, o: Option<int>)
    requires forall i :: 0 <= i < |owners| ==> owners[i] == o
    ensures OwnershipChanges(owners) == 0
  {
    if |owners| > 1 {
      SteadyOwnerHasNoChanges(owners[..|owners| - 1], o);
    }
  }

  /** Losing a territory to no owner counts; gaining an unowned one does not. */
  lemma ChangesAroundNull(x: int, y: int)
    ensures OwnershipChanges([Some(x), None]) == 1
    ensures OwnershipChanges([None, Some(y)]) == 0
    ensures OwnershipChanges([Some(x), None, Some(y)]) == 1
  {
    assert [Some(x), None, Some(y)][..2] == [Some(x), None];
    assert [Some(x), None][..1] == [Some(x)];
    assert [None, Some(y)][..1] == [None];
  }

  /** The owners a territory's rows record, in time order. */
  function OwnersInOrder(w: seq<Sample>): (owners: seq<Option<int>>)
    ensures |owners| == |w|
  {
    var sorted := SortByTime(w);
    seq(|w|, i requires 0 <= i < |w| => Owner(sorted[i].payload))
  }

  /** One summary row. */
  datatype Summary =
    | Rollup(starts: seq<int>, ends: seq<int>, changes: seq<Option<int>>, recordCount: nat)
    | Ownership(ownerStart: Option<int>, ownerEnd: Option<int>, ownershipChanges: nat,
                daysOwned: nat, recordCount: nat)

  /** The unique key of a summary row; the period type is always monthly. */
  datatype Key = Key(entity: int, periodStart: int, periodEnd: int)

  predicate OfPeriod(k: Key, p: Period) {
    k.periodStart == p.start && k.periodEnd == p.end
  }

  predicate InPeriod(x: Sample, p: Period) {
    p.start <= x.at <= p.end
  }

  /** The rows of `entity` inside the period, both bounds included. */
  function Window(table: seq<Sample>, entity: int, p: Period): (w: seq<Sample>)
    ensures forall x :: x in w <==> x in table && x.entity == entity && InPeriod(x, p)
  {
    if |table| == 0 then []
    else
      var rest := Window(table[1..], entity, p);
      assert table == [table[0]] + table[1..];
      if table[0].entity == entity && InPeriod(table[0], p) then [table[0]] + rest else rest
  }

  /** The earliest row: the first of the time-ordered rows. */
  function First(w: seq<Sample>): (x: Sample)
    requires |w| > 0
    ensures x in w
    ensures forall y :: y in w ==> x.at <= y.at
  {
    var sorted := SortByTime(w);
    SortByTimeIsChronological(w);
    assert sorted[0] in multiset(w);
    assert forall y :: y in w ==> y in multiset(sorted);
    sorted[0]
  }

  /** The latest row: the last of the time-ordered rows. */
  function Last(w: seq<Sample>): (x: Sample)
    requires |w| > 0
    ensures x in w
    ensures forall y :: y in w ==> y.at <= x.at
  {
    var sorted := SortByTime(w);
    SortByTimeIsChronological(w);
    assert sorted[|sorted| - 1] in multiset(w);
    assert forall y :: y in w ==> y in multiset(sorted);
    sorted[|sorted| - 1]
  }

  /**
   * The summary of one entity's rows `w` over period `p`: for a rollup,
   * start and end values from the earliest and latest row with NULL read
   * as 0 and change = end − start; for a territory, the first and last
   * owner, the ownership changes in time order, and the period's days
   * when the last owner is a (truthy) faction.
   */
  function SummaryOf(kind: Kind, w: seq<Sample>, p: Period): (s: Summary)
    requires |w| > 0 && p.start <= p.end
    ensures s.recordCount == |w|
    ensures kind != TerritoryKind ==> (
      s.Rollup?
      && |s.starts| == |s.ends| == |s.changes| == Width(kind)
      && (forall i :: 0 <= i < Width(kind) ==>
            s.starts[i] == OrZero(Columns(kind, First(w).payload)[i])
            && s.ends[i] == OrZero(Columns(kind, Last(w).payload)[i])
            && (HasChange(kind, i) ==> s.changes[i] == Some(s.ends[i] - s.starts[i]))
            && (!HasChange(kind, i) ==> s.changes[i].None?)))
    ensures kind == TerritoryKind ==> (
      s.Ownership?
      && s.ownerStart == Owner(First(w).payload) && s.ownerEnd == Owner(Last(w).payload)
      && s.ownershipChanges == OwnershipChanges(OwnersInOrder(w))
      && s.daysOwned == (if Owned(s.ownerEnd) then DaysInPeriod(p) else 0))
  {
    if kind == TerritoryKind then
      var end := Owner(Last(w).payload);
      Ownership(Owner(First(w).payload), end, OwnershipChanges(OwnersInOrder(w)),
                if Owned(end) then DaysInPeriod(p) else 0, |w|)
    else RollupOf(kind, Columns(kind, First(w).payload), Columns(kind, Last(w).payload), |w|)
  }

  /**
   * The rollup half of `SummaryOf`, from the columns of the earliest and
   * the latest row: start, end and change per column.
   */
  function RollupOf(kind: Kind, first: seq<Option<int>>, last: seq<Option<int>>, count: nat): (s: Summary)
    requires |first| == |last| == Width(kind)
    ensures s.Rollup? && s.recordCount == count
    ensures |s.starts| == |s.ends| == |s.changes| == Width(kind)
    ensures forall i :: 0 <= i < Width(kind) ==>
      s.starts[i] == OrZero(first[i]) && s.ends[i] == OrZero(last[i])
    ensures forall i :: 0 <= i < Width(kind) ==>
      (HasChange(kind, i) ==> s.changes[i] == Some(s.ends[i] - s.starts[i]))
      && (!HasChange(kind, i) ==> s.changes[i].None?)
  {
    var starts := seq(Width(kind), i requires 0 <= i < Width(kind) => OrZero(first[i]));
    var ends := seq(Width(kind), i requires 0 <= i < Width(kind) => OrZero(last[i]));
    var changes := seq(Width(kind), i requires 0 <= i < Width(kind) =>
                         if HasChange(kind, i) then Some(ends[i] - starts[i]) else None);
    Rollup(starts, ends, changes, count)
  }

  /** Whether some summary row exists for period `p`, for any entity. */
  predicate Summarized(summaries: map<Key, Summary>, p: Period) {
    exists k :: k in summaries && OfPeriod(k, p)
  }

  /** Entity ids with at least one row in the period, in first-seen order. */
  function Entities(table: seq<Sample>, p: Period, seen: set<int>): (ids: seq<int>)
    ensures forall i, j :: 0 <= i < j < |ids| ==> ids[i] != ids[j]
    ensures forall e :: e in ids <==> e !in seen && exists x :: x in table && x.entity == e && InPeriod(x, p)
  {
    if |table| == 0 then []
    else
      assert table == [table[0]] + table[1..];
      var x := table[0];
      if InPeriod(x, p) && x.entity !in seen then
        [x.entity] + Entities(table[1..], p, seen + {x.entity})
      else
        Entities(table[1..], p, seen)
  }

  /** The set of entities with data in the period. */
  function Active(table: seq<Sample>, p: Period): set<int> {
    set x | x in table && InPeriod(x, p) :: x.entity
  }

  lemma {:induction false} DistinctCardinality(ids: seq<int>)
    requires forall i, j :: 0 <= i < j < |ids| ==> ids[i] != ids[j]
    ensures |set e | e in ids| == |ids|
  {
    if |ids| > 0 {
      var tail := ids[1..];
      DistinctCardinality(tail);
      assert (set e | e in ids) == (set e | e in tail) + {ids[0]};
      assert ids[0] !in tail;
    }
  }

  /** INSERT OR REPLACE of each row in turn: a row replaces any row with the same key. */
  function Upsert<K, V>(m: map<K, V>, rows: seq<(K, V)>): map<K, V>
    decreases |rows|
  {
    if |rows| == 0 then m else Upsert(m[rows[0].0 := rows[0].1], rows[1..])
  }

  /** The keys of a list of rows. */
  function KeysOf<K, V>(rows: seq<(K, V)>): set<K> {
    set i | 0 <= i < |rows| :: rows[i].0
  }

  predicate DistinctKeys<K(==), V>(rows: seq<(K, V)>) {
    forall i, j :: 0 <= i < j < |rows| ==> rows[i].0 != rows[j].0
  }

  /**
   * With distinct keys, every row ends up stored under its key, and every
   * key not written keeps its old row or its absence.
   */
  lemma {:induction false} UpsertStores<K, V>(m: map<K, V>, rows: seq<(K, V)>)
    requires DistinctKeys(rows)
    decreases |rows|
    ensures forall i :: 0 <= i < |rows| ==> rows[i].0 in Upsert(m, rows) && Upsert(m, rows)[rows[i].0] == rows[i].1
    ensures forall k :: k !in KeysOf(rows) ==>
      (k in Upsert(m, rows) <==> k in m) && (k in m ==> Upsert(m, rows)[k] == m[k])
  {
    if |rows| > 0 {
      var m' := m[rows[0].0 := rows[0].1];
      var tail := rows[1..];
      UpsertStores(m', tail);
      assert forall i :: 0 <= i < |tail| ==> tail[i] == rows[i + 1];
      assert forall k :: k in KeysOf(rows) <==> k == rows[0].0 || k in KeysOf(tail) by {
        forall k | k in KeysOf(rows) && k != rows[0].0 ensures k in KeysOf(tail) {
          var i :| 0 <= i < |rows| && rows[i].0 == k;
          assert tail[i - 1].0 == k;
        }
        forall k | k in KeysOf(tail) ensures k in KeysOf(rows) {
          var i :| 0 <= i < |tail| && tail[i].0 == k;
          assert rows[i + 1].0 == k;
        }
      }
      assert forall i :: 0 <= i < |tail| ==> tail[i].0 != rows[0].0;
    }
  }

  /** Writing the same rows a second time changes nothing. */
  lemma UpsertTwice<K, V>(m: map<K, V>, rows: seq<(K, V)>)
    requires DistinctKeys(rows)
    ensures Upsert(Upsert(m, rows), rows) == Upsert(m, rows)
  {
    var once := Upsert(m, rows);
    var twice := Upsert(once, rows);
    UpsertStores(m, rows);
    UpsertStores(once, rows);
    forall k ensures (k in once <==> k in twice) && (k in once ==> once[k] == twice[k]) {
      if k in KeysOf(rows) {
        var i :| 0 <= i < |rows| && rows[i].0 == k;
      }
    }
    SameEntries(once, twice);
  }

  /** The summary rows of a run: one per listed entity, keyed by the entity and the period. */
  function SummaryRows(kind: Kind, table: seq<Sample>, p: Period, ids: seq<int>): (rows: seq<(Key, Summary)>)
    requires p.start <= p.end
    requires forall e :: e in ids ==> |Window(table, e, p)| > 0
    ensures |rows| == |ids|
    ensures forall i :: 0 <= i < |ids| ==> rows[i].0 == Key(ids[i], p.start, p.end)
  {
    seq(|ids|, i requires 0 <= i < |ids| =>
      (Key(ids[i], p.start, p.end), SummaryOf(kind, Window(table, ids[i], p), p)))
  }

  /**
   * Writes the summary of each entity in `ids`, in order, with INSERT OR
   * REPLACE semantics: a row with the same key is overwritten.
   */
  function WriteSummaries(kind: Kind, table: seq<Sample>, summaries: map<Key, Summary>,
                          p: Period, ids: seq<int>): map<Key, Summary>
    requires p.start <= p.end
    requires forall e :: e in ids ==> |Window(table, e, p)| > 0
  {
    Upsert(summaries, SummaryRows(kind, table, p, ids))
  }

  /**
   * After the writes, every listed entity has its summary for the period
   * and every other row is as it was.
   */
  lemma WrittenSummaries(kind: Kind, table: seq<Sample>, summaries: map<Key, Summary>,
                         p: Period, ids: seq<int>)
    requires p.start <= p.end
    requires forall e :: e in ids ==> |Window(table, e, p)| > 0
    requires forall i, j :: 0 <= i < j < |ids| ==> ids[i] != ids[j]
    ensures var r := WriteSummaries(kind, table, summaries, p, ids);
      forall e :: e in ids ==>
        (Key(e, p.start, p.end) in r && r[Key(e, p.start, p.end)] == SummaryOf(kind, Window(table, e, p), p))
    ensures var r := WriteSummaries(kind, table, summaries, p, ids);
      forall k: Key :: !(k.entity in ids && OfPeriod(k, p)) ==>
        ((k in r <==> k in summaries) && (k in summaries ==> r[k] == summaries[k]))
  {
    var rows := SummaryRows(kind, table, p, ids);
    UpsertStores(summaries, rows);
    forall e | e in ids
      ensures Key(e, p.start, p.end) in Upsert(summaries, rows)
      ensures Upsert(summaries, rows)[Key(e, p.start, p.end)] == SummaryOf(kind, Window(table, e, p), p)
    {
      var i :| 0 <= i < |ids| && ids[i] == e;
      assert rows[i] == (Key(e, p.start, p.end), SummaryOf(kind, Window(table, e, p), p));
    }
    forall k: Key | !(k.entity in ids && OfPeriod(k, p)) ensures k !in KeysOf(rows) {
      forall i | 0 <= i < |rows| ensures rows[i].0 != k {
        assert rows[i].0 == Key(ids[i], p.start, p.end);
      }
    }
  }

  /** Writing the same summaries twice is the same as writing them once. */
  lemma WriteSummariesTwice(kind: Kind, table: seq<Sample>, summaries: map<Key, Summary>,
                            p: Period, ids: seq<int>)
    requires p.start <= p.end
    requires forall e :: e in ids ==> |Window(table, e, p)| > 0
    requires forall i, j :: 0 <= i < j < |ids| ==> ids[i] != ids[j]
    ensures var once := WriteSummaries(kind, table, summaries, p, ids);
      WriteSummaries(kind, table, once, p, ids) == once
  {
    UpsertTwice(summaries, SummaryRows(kind, table, p, ids));
  }

  lemma ActiveHaveRows(table: seq<Sample>, p: Period, e: int)
    requires e in Active(table, p)
    ensures |Window(table, e, p)| > 0
  {
    var x :| x in table && InPeriod(x, p) && x.entity == e;
    assert x in Window(table, e, p);
  }

  /**
   * A monthly summary run for one history table. `None` when the month is
   * one `datetime` rejects. Without `force`, a period that already has a
   * summary row for any entity is skipped and 0 is returned; otherwise
   * every entity with rows in the month gets its summary written (an
   * existing one for the same key is replaced) and the number of such
   * entities is returned.
   */
  function Summarize(kind: Kind, table: seq<Sample>, summaries: map<Key, Summary>,
                     year: int, month: int, force: bool): (r: Option<(map<Key, Summary>, nat)>)
    ensures r.Some? <==> MonthlyPeriod(year, month).Some?
    ensures r.Some? && !force && Summarized(summaries, MonthlyPeriod(year, month).value) ==>
      r.value == (summaries, 0)
    ensures r.Some? && (force || !Summarized(summaries, MonthlyPeriod(year, month).value)) ==>
      var p := MonthlyPeriod(year, month).value;
      var (written, count) := r.value;
      count == |Active(table, p)|
      && (forall e :: e in Active(table, p) ==>
            Key(e, p.start, p.end) in written
            && written[Key(e, p.start, p.end)] == SummaryOf(kind, Window(table, e, p), p))
      && (forall k: Key :: !(k.entity in Active(table, p) && OfPeriod(k, p)) ==>
            ((k in written <==> k in summaries) && (k in summaries ==> written[k] == summaries[k])))
  {
    match MonthlyPeriod(year, month)
    case None => None
    case Some(p) =>
      if !force && Summarized(summaries, p) then Some((summaries, 0))
      else
        var ids := Entities(table, p, {});
        RunEntities(table, p);
        WrittenSummaries(kind, table, summaries, p, ids);
        Some((WriteSummaries(kind, table, summaries, p, ids), |ids|))
  }

  /** The entities a run visits: each once, exactly the active ones, each with rows in the period. */
  lemma RunEntities(table: seq<Sample>, p: Period)
    ensures var ids := Entities(table, p, {});
      && (forall e :: e in ids <==> e in Active(table, p))
      && (forall i, j :: 0 <= i < j < |ids| ==> ids[i] != ids[j])
      && |ids| == |Active(table, p)|
      && (forall e :: e in ids ==> |Window(table, e, p)| > 0)
  {
    var ids := Entities(table, p, {});
    assert forall e :: e in ids <==> e in Active(table, p);
    assert (set e | e in ids) == Active(table, p);
    DistinctCardinality(ids);
    forall e | e in ids ensures |Window(table, e, p)| > 0 {
      ActiveHaveRows(table, p, e);
    }
  }

  /**
   * Once a run has written anything, running it again without `force`
   * writes nothing and reports 0.
   */
  lemma SecondRunIsSkipped(kind: Kind, table: seq<Sample>, summaries: map<Key, Summary>,
                           year: int, month: int, force: bool)
    requires Summarize(kind, table, summaries, year, month, force).Some?
    requires Summarize(kind, table, summaries, year, month, force).value.1 > 0
    ensures var written := Summarize(kind, table, summaries, year, month, force).value.0;
      Summarize(kind, table, written, year, month, false) == Some((written, 0))
  {
    var p := MonthlyPeriod(year, month).value;
    var written := Summarize(kind, table, summaries, year, month, force).value.0;
    if !force && Summarized(summaries, p) {
    } else {
      assert |Active(table, p)| > 0;
      var e :| e in Active(table, p);
      assert Key(e, p.start, p.end) in written;
    }
  }

  /** A forced re-run over unchanged history rewrites the same rows. */
  lemma ForcedRerunIsStable(kind: Kind, table: seq<Sample>, summaries: map<Key, Summary>,
                            year: int, month: int)
    requires MonthlyPeriod(year, month).Some?
    ensures var written := Summarize(kind, table, summaries, year, month, true).value.0;
      Summarize(kind, table, written, year, month, true).value.0 == written
  {
    var p := MonthlyPeriod(year, month).value;
    var ids := Entities(table, p, {});
    RunEntities(table, p);
    WriteSummariesTwice(kind, table, summaries, p, ids);
  }

  /**
   * The guard is per period, not per entity: a summary for one entity
   * keeps a later unforced run from summarising any other entity.
   */
  lemma GuardIsPerPeriod(kind: Kind, table: seq<Sample>, summaries: map<Key, Summary>,
                         year: int, month: int, someone: int, other: int)
    requires MonthlyPeriod(year, month).Some?
    requires var p := MonthlyPeriod(year, month).value;
      Key(someone, p.start, p.end) in summaries && Key(other, p.start, p.end) !in summaries
    ensures var p := MonthlyPeriod(year, month).value;
      Key(other, p.start, p.end) !in Summarize(kind, table, summaries, year, month, false).value.0
  {
    var p := MonthlyPeriod(year, month).value;
    assert Summarized(summaries, p) by {
      var k := Key(someone, p.start, p.end);
      assert k in summaries && OfPeriod(k, p);
    }
  }
}

=== FILE: dbutils.dfy ===
/**
 * Turning stored competition rows into records keyed by column name. A
 * row is the sequence of its column values in table order.
 */
module DbUtils {
  import opened Wrappers
  import opened Json

  /** The column names, by position in a competition row. */
  const CompetitionColumns: seq<string> :=
    ["id", "name", "tracked_stat", "start_date", "end_date", "status", "created_at", "created_by"]

  lemma CompetitionColumnsDistinct()
    ensures |CompetitionColumns| == 8
    ensures forall i, j :: 0 <= i < j < 8 ==> CompetitionColumns[i] != CompetitionColumns[j]
  {
  }

  /** What converting one row gives. */
  datatype Converted =
    | NoRow                                   // the row was missing or empty
    | ShortRow                                // fewer than eight values: the IndexError Python raises
    | Record(fields: seq<(string, Json)>)

  /**
   * One row as a record: a missing or empty row gives none, otherwise the
   * first eight values are named by their column; later values are ignored.
   */
  function CompetitionRowToDict(row: Option<seq<Json>>): (r: Converted)
    ensures r == NoRow <==> (row.None? || row.value == [])
    ensures r == ShortRow <==> (row.Some? && 0 < |row.value| < 8)
    ensures r.Record? ==> (|r.fields| == 8
      && forall i :: 0 <= i < 8 ==> r.fields[i] == (CompetitionColumns[i], row.value[i]))
  {
    match row
    case None => NoRow
    case Some(values) =>
      if values == [] then NoRow
      else if |values| < 8 then ShortRow
      else Record(seq(8, i requires 0 <= i < 8 => (CompetitionColumns[i], values[i])))
  }

  /** Reading a column of the record gives back the row's value at that column's position. */
  lemma RecordReadsBack(row: seq<Json>, i: nat)
    requires |row| >= 8 && i < 8
    ensures CompetitionRowToDict(Some(row)).Record?
    ensures Lookup(CompetitionRowToDict(Some(row)).fields, CompetitionColumns[i]) == Some(row[i])
  {
    var fields := CompetitionRowToDict(Some(row)).fields;
    CompetitionColumnsDistinct();
    LookupDistinct(fields, i);
  }

  /** In a record whose keys are all different, looking a key up finds its one entry. */
  lemma {:induction false} LookupDistinct(fields: seq<(string, Json)>, i: nat)
    requires i < |fields|
    requires forall a, b :: 0 <= a < b < |fields| ==> fields[a].0 != fields[b].0
    ensures Lookup(fields, fields[i].0) == Some(fields[i].1)
  {
    if i < |fields| - 1 {
      LookupDistinct(fields[..|fields| - 1], i);
      assert fields[..|fields| - 1][i] == fields[i];
    }
  }

  /** Every row converted, in order. */
  function CompetitionRowToDictList(rows: seq<Option<seq<Json>>>): (r: seq<Converted>)
    ensures |r| == |rows|
    ensures forall i :: 0 <= i < |rows| ==> r[i] == CompetitionRowToDict(rows[i])
  {
    seq(|rows|, i requires 0 <= i < |rows| => CompetitionRowToDict(rows[i]))
  }
}

=== FILE: games.dfy ===
/**
 * The dice-roll command: reading "NdS" notation ("2d6", "d20"), the limits
 * on dice and sides, and the reply built from the rolls. The rolls come
 * from a random source and are taken as an input.
 */
module Games {
  import opened Wrappers
  import opened PyText

  const MinDice := 1
  const MaxDice := 100
  const MinSides := 2
  const MaxSides := 1000

  /** The notation used when none is given. */
  const DefaultDice := "1d6"

  /** What the notation asks for, or which check it fails. */
  datatype DiceRequest =
    | InvalidFormat                       // the format hint; also every ValueError
    | DiceOutOfRange(count: int)          // "Number of dice must be between 1 and 100."
    | SidesOutOfRange(sides: int)         // "Number of sides must be between 2 and 1000."
    | Dice(count: int, sides: int)

  /** The dice count as written before the 'd': none written means one die. */
  function CountOf(piece: string): Option<int> {
    if piece == "" then Some(1) else ParseInt(piece)
  }

  /**
   * Reading the notation: lower-cased, it must split on 'd' into exactly
   * two pieces, both of which must convert (the count and the sides are
   * converted before either is checked), then the count must be 1..100
   * and the sides 2..1000.
   */
  function ParseDice(dice: string): (r: DiceRequest)
    ensures r.Dice? ==> MinDice <= r.count <= MaxDice && MinSides <= r.sides <= MaxSides
    ensures !Contains(Lower(dice), "d") ==> r == InvalidFormat
    ensures |Split(Lower(dice), "d")| != 2 ==> r == InvalidFormat
    ensures var parts := Split(Lower(dice), "d");
      |parts| == 2 && (CountOf(parts[0]).None? || ParseInt(parts[1]).None?) ==> r == InvalidFormat
    ensures var parts := Split(Lower(dice), "d");
      |parts| == 2 && CountOf(parts[0]).Some? && ParseInt(parts[1]).Some? ==>
        var n := CountOf(parts[0]).value;
        var s := ParseInt(parts[1]).value;
        && (r == DiceOutOfRange(n) <==> n < MinDice || n > MaxDice)
        && (r == SidesOutOfRange(s) <==> MinDice <= n <= MaxDice && (s < MinSides || s > MaxSides))
        && (r == Dice(n, s) <==> MinDice <= n <= MaxDice && MinSides <= s <= MaxSides)
    ensures r.DiceOutOfRange? ==> r.count < MinDice || r.count > MaxDice
    ensures r.SidesOutOfRange? ==> r.sides < MinSides || r.sides > MaxSides
  {
    var t := Lower(dice);
    if !Contains(t, "d") then InvalidFormat
    else
      var parts := Split(t, "d");
      if |parts| != 2 then InvalidFormat
      else
        match (CountOf(parts[0]), ParseInt(parts[1]))
        case (Some(n), Some(s)) =>
          if n < MinDice || n > MaxDice then DiceOutOfRange(n)
          else if s < MinSides || s > MaxSides then SidesOutOfRange(s)
          else Dice(n, s)
        case _ => InvalidFormat
  }

  /** Notation written out from a valid count and side number reads back as those numbers. */
  lemma WrittenDiceReadBack(count: nat, sides: nat)
    requires MinDice <= count <= MaxDice && MinSides <= sides <= MaxSides
    ensures ParseDice(NatToString(count) + "d" + NatToString(sides)) == Dice(count, sides)
  {
    var a := NatToString(count);
    ReadBack(a, sides);
    ParseIntOfIntToString(count);
    assert IntToString(count) == a;
    assert CountOf(a) == Some(count);
    ReadParts(a + "d" + NatToString(sides), a, NatToString(sides), count, sides);
  }

  /** Without an argument one six-sided die is rolled. */
  lemma DefaultDiceIsOneSixSided()
    ensures ParseDice(DefaultDice) == Dice(1, 6)
  {
    assert NatToString(1) + "d" + NatToString(6) == DefaultDice;
    WrittenDiceReadBack(1, 6);
  }

  /** Notation that splits into a count and a side number within the limits asks for those dice. */
  lemma ReadParts(dice: string, a: string, b: string, count: int, sides: int)
    requires Split(Lower(dice), "d") == [a, b]
    requires CountOf(a) == Some(count) && ParseInt(b) == Some(sides)
    requires MinDice <= count <= MaxDice && MinSides <= sides <= MaxSides
    ensures ParseDice(dice) == Dice(count, sides)
  {
    var t := Lower(dice);
    assert Contains(t, "d") by {
      assert Split(t, "d") != [t];
    }
  }

  /** With the count left out, one die is rolled. */
  lemma MissingCountIsOneDie(sides: nat)
    requires MinSides <= sides <= MaxSides
    ensures ParseDice("d" + NatToString(sides)) == Dice(1, sides)
  {
    var b := NatToString(sides);
    ReadBack("", sides);
    assert "" + "d" + b == "d" + b;
    ReadParts("d" + b, "", b, 1, sides);
  }

  lemma ReadBack(a: string, sides: nat)
    requires AllDigits(a)
    ensures var t := a + "d" + NatToString(sides);
      Lower(t) == t && Split(t, "d") == [a, NatToString(sides)]
    ensures ParseInt(NatToString(sides)) == Some(sides)
  {
    var b := NatToString(sides);
    var t := a + "d" + b;
    assert Lower(t) == t by {
      assert forall i :: 0 <= i < |t| ==> LowerChar(t[i]) == t[i];
    }
    assert Split(t, "d") == [a, b] by {
      assert Join([a, b], "d") == t by {
        assert [a, b][1..] == [b];
      }
      SplitJoin([a, b], 'd');
    }
    DigitsValueOfNatToString(sides);
  }

  /** Rolls a random source may give for `count` dice of `sides` sides. */
  predicate ValidRolls(rolls: seq<int>, count: int, sides: int) {
    |rolls| == count && forall i :: 0 <= i < |rolls| ==> 1 <= rolls[i] <= sides
  }

  function Sum(rolls: seq<int>): int {
    if |rolls| == 0 then 0 else rolls[0] + Sum(rolls[1..])
  }

  /** The total lies between one per die and the number of sides per die. */
  lemma {:induction false} SumBounds(rolls: seq<int>, sides: int)
    requires forall i :: 0 <= i < |rolls| ==> 1 <= rolls[i] <= sides
    ensures |rolls| <= Sum(rolls) <= |rolls| * sides
  {
    if |rolls| > 0 {
      SumBounds(rolls[1..], sides);
    }
  }

  /** The reply: one die shows only its roll, several show every roll and the total. */
  datatype Reply =
    | Refused(request: DiceRequest)
    | Single(notation: string, roll: int)
    | Several(notation: string, rolls: seq<int>, total: int)

  function Roll(dice: string, rolls: seq<int>): (r: Reply)
    requires ParseDice(dice).Dice? ==> ValidRolls(rolls, ParseDice(dice).count, ParseDice(dice).sides)
    ensures r.Refused? <==> !ParseDice(dice).Dice?
    ensures r.Refused? ==> r.request == ParseDice(dice)
    ensures r.Single? <==> ParseDice(dice).Dice? && ParseDice(dice).count == 1
    ensures r.Single? ==> r.roll == rolls[0] && 1 <= r.roll <= ParseDice(dice).sides && r.notation == dice
    ensures r.Several? ==> (r.rolls == rolls && r.notation == dice && r.total == Sum(rolls)
      && |rolls| <= r.total <= |rolls| * ParseDice(dice).sides)
  {
    match ParseDice(dice)
    case Dice(n, s) =>
      if n == 1 then Single(dice, rolls[0])
      else
        SumBounds(rolls, s);
        Several(dice, rolls, Sum(rolls))
    case other => Refused(other)
  }

  /** The total shown is the sum of the rolls shown. */
  lemma {:induction false} TotalIsSumOfShown(dice: string, rolls: seq<int>)
    requires ParseDice(dice).Dice? && ValidRolls(rolls, ParseDice(dice).count, ParseDice(dice).sides)
    requires Roll(dice, rolls).Several?
    ensures Roll(dice, rolls).total == Sum(Roll(dice, rolls).rolls)
    ensures Roll(dice, rolls).total >= 2
  {
    SumBounds(rolls, ParseDice(dice).sides);
  }
}

=== FILE: gateway.dfy ===
/**
 * The Torn API client: a per-key sliding-window pre-flight rate limit, the
 * mapping from responses to data or error messages, and the endpoint and
 * query-parameter construction of the request helpers.
 *
 * The network is an input: `MakeRequest` receives the outcome of the HTTP
 * exchange, and the clock readings before the request and at the response.
 * Timestamps are integers in microseconds, the resolution of the clock the
 * client reads.
 */
module Gateway {
  import opened Wrappers
  import opened PyText
  import opened Json

  const MaxRequestsPerMinute := 100

  /** One minute in microseconds. */
  const Window := 60_000_000

  const BaseUrl := "https://api.torn.com"
  const BaseUrlV2 := "https://api.torn.com/v2"

  /** The documented meaning of each API error code, indexed by the code. */
  const ErrorTexts: seq<string> := [
    "Unknown error",
    "Key is empty",
    "Incorrect Key",
    "Wrong type",
    "Wrong fields",
    "Too many requests (max 100 per minute)",
    "Incorrect ID",
    "Incorrect ID-entity relation (private data)",
    "IP block (temporary ban due to abuse)",
    "API disabled",
    "Key owner is in federal jail",
    "Key change error (can only change once per 60 seconds)",
    "Key read error",
    "Key temporarily disabled due to owner inactivity (7+ days offline)",
    "Daily read limit reached",
    "Temporary error (testing)",
    "Access level of this key is not high enough",
    "Backend error occurred, please try again",
    "API key has been paused by the owner",
    "Must be migrated to crimes 2.0",
    "Race not yet finished",
    "Incorrect category",
    "This selection is only available in API v1",
    "This selection is only available in API v2",
    "Closed temporarily"]

  /** The meaning of `code`, when it is one of the documented codes 0..24. */
  function KnownError(code: int): (r: Option<string>)
    ensures r.Some? <==> 0 <= code < 25
  {
    if 0 <= code < |ErrorTexts| then Some(ErrorTexts[code]) else None
  }

  /** The message of the error raised for an error envelope carrying `code`. */
  function EnvelopeMessage(code: int): (m: string)
    ensures var prefix := "Torn API Error " + IntToString(code) + ": ";
      && |prefix| <= |m| && m[..|prefix|] == prefix
      && (0 <= code < |ErrorTexts| ==> m[|prefix|..] == ErrorTexts[code])
      && (!(0 <= code < |ErrorTexts|) ==> m[|prefix|..] == "Unknown error code: " + IntToString(code))
  {
    "Torn API Error " + IntToString(code) + ": "
      + KnownError(code).GetOr("Unknown error code: " + IntToString(code))
  }

  const RateLimitMessage := "Rate limit exceeded. Maximum 100 requests per minute."

  // ---------------------------------------------------------------------
  // Sliding-window rate limit
  // ---------------------------------------------------------------------

  /** Request timestamps per API key; an absent key has none. */
  type RateLimits = map<string, seq<int>>

  function Stamps(limits: RateLimits, key: string): seq<int> {
    if key in limits then limits[key] else []
  }

  /** The timestamps strictly newer than one minute before `now`, in order. */
  function Recent(ts: seq<int>, now: int): (r: seq<int>)
    ensures |r| <= |ts|
    ensures forall t :: t in r <==> t in ts && t > now - Window
  {
    if |ts| == 0 then []
    else
      var rest := Recent(ts[1..], now);
      assert forall t :: t in ts <==> t == ts[0] || t in ts[1..];
      if ts[0] > now - Window then [ts[0]] + rest else rest
  }

  /**
   * The pre-flight check: evicts old timestamps of `key` (creating an empty
   * entry for a key not seen before) and allows the request iff fewer than
   * 100 remain.
   */
  function CheckRateLimit(limits: RateLimits, key: string, now: int): (r: (RateLimits, bool))
    ensures key in r.0 && r.0[key] == Recent(Stamps(limits, key), now)
    ensures forall k :: k != key ==> (k in r.0 <==> k in limits) && (k in limits ==> r.0[k] == limits[k])
    ensures r.1 <==> |r.0[key]| < MaxRequestsPerMinute
  {
    var kept := Recent(Stamps(limits, key), now);
    (limits[key := kept], |kept| < MaxRequestsPerMinute)
  }

  function RecordRequest(limits: RateLimits, key: string, at: int): (r: RateLimits)
    ensures key in r && r[key] == Stamps(limits, key) + [at]
    ensures forall k :: k != key ==> (k in r <==> k in limits) && (k in limits ==> r[k] == limits[k])
  {
    limits[key := Stamps(limits, key) + [at]]
  }

  /** A timestamp exactly one minute old no longer counts against the limit. */
  lemma MinuteOldStampEvicted(t: int)
    ensures Recent([t], t + Window) == []
  {
  }

  /** A timestamp within the last minute still counts. */
  lemma FreshStampKept(t: int, now: int)
    requires now - Window < t
    ensures Recent([t], now) == [t]
  {
  }

  /** Eviction is monotone: checking again later keeps no more timestamps. */
  lemma {:induction false} RecentLater(ts: seq<int>, now: int, later: int)
    requires now <= later
    ensures Recent(Recent(ts, now), later) == Recent(ts, later)
  {
    if |ts| > 0 {
      RecentLater(ts[1..], now, later);
      if ts[0] > now - Window {
        assert ([ts[0]] + Recent(ts[1..], now))[1..] == Recent(ts[1..], now);
      }
    }
  }

  // ---------------------------------------------------------------------
  // Requests
  // ---------------------------------------------------------------------

  datatype Param = PStr(s: string) | PInt(i: int)

  /** An endpoint with its query parameters, in insertion order. */
  datatype Call = Call(endpoint: string, params: seq<(string, Param)>, useV2: bool)

  /** What goes over the wire. */
  datatype Request = Request(url: string, params: seq<(string, Param)>)

  /** Python `d[k] = v` on an insertion-ordered dictionary. */
  function Put(params: seq<(string, Param)>, k: string, v: Param): (r: seq<(string, Param)>)
    ensures (k, v) in r
    ensures forall i :: 0 <= i < |params| && params[i].0 != k ==> params[i] in r
    ensures |r| == |params| || |r| == |params| + 1
  {
    if |params| == 0 then [(k, v)]
    else if params[0].0 == k then [(k, v)] + params[1..]
    else [params[0]] + Put(params[1..], k, v)
  }

  /**
   * The HTTP exchange as the network resolved it. The first two end before
   * any response arrives; the others after it. Once the response is there,
   * reading its body can still time out (`TimedOutReading`), the HTTP
   * library can refuse a body that is not JSON with a client error
   * (`Undecodable`), or the JSON decoder itself can reject a body the
   * library handed on, raising a `ValueError` (`MalformedJson`).
   */
  datatype Outcome =
    | ConnectionFailed(reason: string)
    | TimedOut
    | Responded(status: int, text: string, body: Json)
    | Undecodable(reason: string)
    | TimedOutReading
    | MalformedJson

  /** Whether a response arrived, so that the client recorded the request. */
  predicate Arrived(outcome: Outcome) {
    !(outcome.ConnectionFailed? || outcome.TimedOut?)
  }

  /**
   * The exceptions a request can end in: the client's own API error with
   * its message, or an exception of another kind (the client reads the
   * error envelope's `code` through `.get`, which fails on a non-object,
   * and lets the JSON decoder's `ValueError` through).
   */
  datatype Failure = ApiError(message: string) | OtherException

  datatype Reply = Reply(limits: RateLimits, sent: Option<Request>, result: Result<Json, Failure>)

  /**
   * The message raised for an error envelope whose `error` value is `err`:
   * its `code` entry (0 when absent) as Python prints it, then the
   * documented meaning or "Unknown error code". `None` when the lookup
   * itself raises (`error` is not an object, or the code is a list or an
   * object, which cannot be a dictionary key) and when the code is a float,
   * whose printed form is not modelled. `True` and `False` equal 1 and 0 as
   * dictionary keys.
   */
  function EnvelopeError(err: Json): (r: Option<string>)
    ensures !err.JObj? ==> r.None?
    ensures err.JObj? && Lookup(err.fields, "code").None? ==> r == Some(EnvelopeMessage(0))
    ensures err.JObj? && Lookup(err.fields, "code").Some? && Lookup(err.fields, "code").value.JInt? ==>
      r == Some(EnvelopeMessage(Lookup(err.fields, "code").value.i))
    ensures err.JObj? && Lookup(err.fields, "code").Some? && Lookup(err.fields, "code").value.JBool? ==>
      var b := Lookup(err.fields, "code").value.b;
      r == Some("Torn API Error " + (if b then "True" else "False") + ": " + ErrorTexts[if b then 1 else 0])
    ensures r.Some? ==> |r.value| >= 15 && r.value[..15] == "Torn API Error "
  {
    if !err.JObj? then None
    else match CodeShown(Lookup(err.fields, "code").GetOr(JInt(0)))
      case Some((shown, text)) =>
        var m := "Torn API Error " + shown + ": " + text;
        assert m[..15] == "Torn API Error ";
        Some(m)
      case None => None
  }

  /** How the client prints an error code, and the text it looks up for it. */
  function CodeShown(code: Json): Option<(string, string)> {
    match code
    case JInt(c) => Some((IntToString(c), KnownError(c).GetOr("Unknown error code: " + IntToString(c))))
    case JBool(b) => Some((if b then "True" else "False", ErrorTexts[if b then 1 else 0]))
    case JStr(t) => Some((t, "Unknown error code: " + t))
    case JNull => Some(("None", "Unknown error code: None"))
    case _ => None
  }

  /** The data of a 200 response, or the error its envelope reports. */
  function Interpret(body: Json): (r: Result<Json, Failure>)
    ensures r.Success? <==> !(body.JObj? && Lookup(body.fields, "error").Some?)
    ensures r.Success? ==> r.value == body
    ensures body.JObj? && Lookup(body.fields, "error").Some? ==>
      var err := Lookup(body.fields, "error").value;
      && (err.JObj? && Lookup(err.fields, "code").None? ==> r == Failure(ApiError(EnvelopeMessage(0))))
      && (err.JObj? && Lookup(err.fields, "code").Some? && Lookup(err.fields, "code").value.JInt? ==>
            r == Failure(ApiError(EnvelopeMessage(Lookup(err.fields, "code").value.i))))
      && (!err.JObj? ==> r == Failure(OtherException))
  {
    if body.JObj? && Lookup(body.fields, "error").Some? then
      match EnvelopeError(Lookup(body.fields, "error").value)
      case Some(m) => Failure(ApiError(m))
      case None => Failure(OtherException)
    else Success(body)
  }

  /**
   * One request through the client. A rejected pre-flight raises without
   * sending anything; a timestamp is recorded whenever a response arrives,
   * before its status and body are looked at, so a body that then fails to
   * arrive in time or to decode still counts against the window.
   */
  function MakeRequest(limits: RateLimits, call: Call, key: string, now: int, respondedAt: int, outcome: Outcome): (r: Reply)
    ensures var pre := CheckRateLimit(limits, key, now);
      && (!pre.1 ==> r == Reply(pre.0, None, Failure(ApiError(RateLimitMessage))))
      && (pre.1 ==> r.sent == Some(Request((if call.useV2 then BaseUrlV2 else BaseUrl) + "/" + call.endpoint,
                                          Put(call.params, "key", PStr(key)))))
      && (pre.1 && Arrived(outcome) ==> r.limits == RecordRequest(pre.0, key, respondedAt))
      && (pre.1 && !Arrived(outcome) ==> r.limits == pre.0)
      && (pre.1 && outcome.Responded? && outcome.status != 200 ==>
            r.result == Failure(ApiError("HTTP " + IntToString(outcome.status) + ": " + outcome.text)))
      && (pre.1 && outcome.Responded? && outcome.status == 200 ==> r.result == Interpret(outcome.body))
      && (pre.1 && outcome.ConnectionFailed? ==> r.result == Failure(ApiError("Network error: " + outcome.reason)))
      && (pre.1 && (outcome.TimedOut? || outcome.TimedOutReading?) ==> r.result == Failure(ApiError("Request timeout")))
      && (pre.1 && outcome.Undecodable? ==> r.result == Failure(ApiError("Network error: " + outcome.reason)))
      && (pre.1 && outcome.MalformedJson? ==> r.result == Failure(OtherException))
  {
    var pre := CheckRateLimit(limits, key, now);
    if !pre.1 then Reply(pre.0, None, Failure(ApiError(RateLimitMessage)))
    else
      var base := if call.useV2 then BaseUrlV2 else BaseUrl;
      var request := Request(base + "/" + call.endpoint, Put(call.params, "key", PStr(key)));
      match outcome
      case ConnectionFailed(reason) => Reply(pre.0, Some(request), Failure(ApiError("Network error: " + reason)))
      case TimedOut => Reply(pre.0, Some(request), Failure(ApiError("Request timeout")))
      case Undecodable(reason) =>
        Reply(RecordRequest(pre.0, key, respondedAt), Some(request), Failure(ApiError("Network error: " + reason)))
      case TimedOutReading =>
        Reply(RecordRequest(pre.0, key, respondedAt), Some(request), Failure(ApiError("Request timeout")))
      case MalformedJson =>
        Reply(RecordRequest(pre.0, key, respondedAt), Some(request), Failure(OtherException))
      case Responded(status, text, body) =>
        var recorded := RecordRequest(pre.0, key, respondedAt);
        if status != 200 then
          Reply(recorded, Some(request), Failure(ApiError("HTTP " + IntToString(status) + ": " + text)))
        else
          Reply(recorded, Some(request), Interpret(body))
  }

  /**
   * The window never exceeds its budget through the client: when every
   * response arrives at the time of its pre-flight and the key's window held
   * at most 100 recent timestamps, it still does after the request.
   */
  lemma WindowStaysWithinBudget(limits: RateLimits, call: Call, key: string, now: int, outcome: Outcome)
    requires |Recent(Stamps(limits, key), now)| <= MaxRequestsPerMinute
    ensures |Recent(Stamps(MakeRequest(limits, call, key, now, now, outcome).limits, key), now)| <= MaxRequestsPerMinute
  {
    var kept := Recent(Stamps(limits, key), now);
    RecentLater(Stamps(limits, key), now, now);
    RecentAppend(kept, [now], now);
  }

  lemma {:induction false} RecentAppend(a: seq<int>, b: seq<int>, now: int)
    ensures Recent(a + b, now) == Recent(a, now) + Recent(b, now)
  {
    if |a| > 0 {
      assert (a + b)[1..] == a[1..] + b;
      RecentAppend(a[1..], b, now);
    } else {
      assert a + b == b;
    }
  }

  // ---------------------------------------------------------------------
  // Request helpers
  // ---------------------------------------------------------------------

  /** `selections` joined with commas when there are any. */
  function WithSelections(selections: seq<string>): seq<(string, Param)> {
    if |selections| > 0 then [("selections", PStr(Join(selections, ",")))] else []
  }

  /** The user endpoint: the id is appended only when it is given and non-zero. */
  function UserCall(userId: Option<int>, selections: seq<string>): (c: Call)
    ensures userId.Some? && userId.value != 0 ==> c.endpoint == "user/" + IntToString(userId.value)
    ensures !(userId.Some? && userId.value != 0) ==> c.endpoint == "user"
    ensures |selections| == 0 <==> c.params == []
    ensures Get(c.params, "selections") == (if |selections| > 0 then Some(PStr(Join(selections, ","))) else None)
    ensures !c.useV2
  {
    var endpoint := if userId.Some? && userId.value != 0 then "user/" + IntToString(userId.value) else "user";
    Call(endpoint, WithSelections(selections), false)
  }

  /** The faction endpoint; `stat` is sent only when non-empty. */
  function FactionCall(factionId: Option<int>, selections: seq<string>, stat: string, useV2: bool): (c: Call)
    ensures factionId.Some? && factionId.value != 0 ==> c.endpoint == "faction/" + IntToString(factionId.value)
    ensures !(factionId.Some? && factionId.value != 0) ==> c.endpoint == "faction"
    ensures "stat" in ParamNames(c.params) <==> |stat| > 0
    ensures Get(c.params, "selections") == (if |selections| > 0 then Some(PStr(Join(selections, ","))) else None)
    ensures Get(c.params, "stat") == (if |stat| > 0 then Some(PStr(stat)) else None)
    ensures c.useV2 == useV2
  {
    var endpoint := if factionId.Some? && factionId.value != 0 then "faction/" + IntToString(factionId.value) else "faction";
    var statParam := if |stat| > 0 then [("stat", PStr(stat))] else [];
    var params := WithSelections(selections) + statParam;
    assert ParamNames(WithSelections(selections)) == if |selections| > 0 then ["selections"] else [];
    assert ParamNames(statParam) == if |stat| > 0 then ["stat"] else [];
    assert ParamNames(params) == ParamNames(WithSelections(selections)) + ParamNames(statParam);
    Call(endpoint, params, useV2)
  }

  function KeyInfoCall(): Call {
    Call("key", [("selections", PStr("info"))], false)
  }

  /** The names of a parameter list, in order. */
  function ParamNames(params: seq<(string, Param)>): (r: seq<string>)
    ensures |r| == |params|
    ensures forall i :: 0 <= i < |params| ==> r[i] == params[i].0
  {
    seq(|params|, i requires 0 <= i < |params| => params[i].0)
  }

  /** Python `d.get(k)`: the value stored under `k`, if any. */
  function Get(params: seq<(string, Param)>, k: string): Option<Param> {
    if |params| == 0 then None
    else if params[0].0 == k then Some(params[0].1)
    else Get(params[1..], k)
  }

  /** Storing `v` under `k` makes `k` read `v` and leaves every other name as it was. */
  lemma {:induction false} GetAfterPut(params: seq<(string, Param)>, k: string, v: Param, j: string)
    ensures Get(Put(params, k, v), j) == if j == k then Some(v) else Get(params, j)
  {
    if |params| > 0 && params[0].0 != k {
      GetAfterPut(params[1..], k, v, j);
    }
  }

  /** `if present: d[k] = v`. */
  function PutIf(params: seq<(string, Param)>, present: bool, k: string, v: Param): (r: seq<(string, Param)>)
    ensures forall j :: Get(r, j) == if present && j == k then Some(v) else Get(params, j)
  {
    if present then
      forall j ensures Get(Put(params, k, v), j) == if j == k then Some(v) else Get(params, j) {
        GetAfterPut(params, k, v, j);
      }
      Put(params, k, v)
    else params
  }

  lemma CrimesParamNamesDistinct()
    ensures "offset" != "sort" && "offset" != "cat" && "offset" != "from"
    ensures "sort" != "cat" && "sort" != "from" && "cat" != "from"
  {
    assert "sort"[0] != "from"[0];
  }

  /**
   * The v2 faction crimes endpoint: `offset` and `from` are sent whenever
   * given (zero included), `sort` and `cat` only when non-empty.
   */
  function FactionCrimesCall(offset: Option<int>, sort: string, cat: string, from: Option<int>): (c: Call)
    ensures c.endpoint == "faction/crimes" && c.useV2
  {
    var a := PutIf([], offset.Some?, "offset", PInt(offset.GetOr(0)));
    var b := PutIf(a, |sort| > 0, "sort", PStr(sort));
    var d := PutIf(b, |cat| > 0, "cat", PStr(cat));
    var params := PutIf(d, from.Some?, "from", PInt(from.GetOr(0)));
    Call("faction/crimes", params, true)
  }

  /** What the faction crimes call sends under each of its four names. */
  lemma FactionCrimesParams(offset: Option<int>, sort: string, cat: string, from: Option<int>)
    ensures var c := FactionCrimesCall(offset, sort, cat, from);
      && Get(c.params, "offset") == (if offset.Some? then Some(PInt(offset.value)) else None)
      && Get(c.params, "sort") == (if |sort| > 0 then Some(PStr(sort)) else None)
      && Get(c.params, "cat") == (if |cat| > 0 then Some(PStr(cat)) else None)
      && Get(c.params, "from") == (if from.Some? then Some(PInt(from.value)) else None)
  {
    CrimesSendsOffset(offset, sort, cat, from);
    CrimesSendsSort(offset, sort, cat, from);
    CrimesSendsCat(offset, sort, cat, from);
    CrimesSendsFrom(offset, sort, cat, from);
  }

  lemma CrimesSendsOffset(offset: Option<int>, sort: string, cat: string, from: Option<int>)
    ensures Get(FactionCrimesCall(offset, sort, cat, from).params, "offset")
      == if offset.Some? then Some(PInt(offset.value)) else None
  {
    CrimesParamNamesDistinct();
  }

  lemma CrimesSendsSort(offset: Option<int>, sort: string, cat: string, from: Option<int>)
    ensures Get(FactionCrimesCall(offset, sort, cat, from).params, "sort")
      == if |sort| > 0 then Some(PStr(sort)) else None
  {
    CrimesParamNamesDistinct();
  }

  lemma CrimesSendsCat(offset: Option<int>, sort: string, cat: string, from: Option<int>)
    ensures Get(FactionCrimesCall(offset, sort, cat, from).params, "cat")
      == if |cat| > 0 then Some(PStr(cat)) else None
  {
    CrimesParamNamesDistinct();
  }

  lemma CrimesSendsFrom(offset: Option<int>, sort: string, cat: string, from: Option<int>)
    ensures Get(FactionCrimesCall(offset, sort, cat, from).params, "from")
      == if from.Some? then Some(PInt(from.value)) else None
  {
    CrimesParamNamesDistinct();
  }

  /** Selections without commas are recovered from the joined parameter. */
  lemma SelectionsRecoverable(selections: seq<string>)
    requires |selections| > 0
    requires forall k, i :: 0 <= k < |selections| && 0 <= i < |selections[k]| ==> selections[k][i] != ','
    ensures WithSelections(selections)[0].1.PStr?
    ensures Split(WithSelections(selections)[0].1.s, ",") == selections
  {
    SplitJoin(selections, ',');
  }
}

=== FILE: json.dfy ===
/**
 * Decoded JSON values as Python's `json` module hands them to the bot, and
 * the Python operations the bot applies to them: truthiness, `dict.get`,
 * `a or b` and `int(value)`.
 */
module Json {
  import opened Wrappers
  import opened PyText
  import opened Collections

  /**
   * A decoded JSON value. An object is the list of its key/value pairs in
   * document order; a Python `dict` keeps the last pair for a repeated key,
   * and so does `Lookup`. Floats are the real numbers they denote.
   */
  datatype Json =
    | JNull
    | JBool(b: bool)
    | JInt(i: int)
    | JFloat(f: real)
    | JStr(s: string)
    | JArr(items: seq<Json>)
    | JObj(fields: seq<(string, Json)>)

  /** Python truthiness: `None`, `False`, zero and empty containers are false. */
  predicate Truthy(j: Json) {
    match j
    case JNull => false
    case JBool(b) => b
    case JInt(i) => i != 0
    case JFloat(f) => f != 0.0
    case JStr(s) => |s| > 0
    case JArr(items) => |items| > 0
    case JObj(fields) => |fields| > 0
  }

  /** The value bound to `k` in an object's pairs: the last binding wins. */
  function Lookup(fields: seq<(string, Json)>, k: string): (r: Option<Json>)
    ensures r.None? <==> forall i :: 0 <= i < |fields| ==> fields[i].0 != k
    ensures r.Some? ==> exists i :: 0 <= i < |fields| && fields[i] == (k, r.value)
  {
    if |fields| == 0 then None
    else if fields[|fields| - 1].0 == k then Some(fields[|fields| - 1].1)
    else Lookup(fields[..|fields| - 1], k)
  }

  /** Python `d.get(k, default)` on a decoded object. */
  function GetOr(obj: Json, k: string, default: Json): Json
    requires obj.JObj?
  {
    Lookup(obj.fields, k).GetOr(default)
  }

  /** Python `d.get(k)`: an absent key reads as `None`. */
  function Get(obj: Json, k: string): Json
    requires obj.JObj?
  {
    GetOr(obj, k, JNull)
  }

  /** Every key of `items` occurs once. */
  predicate UniqueKeys(items: seq<(string, Json)>) {
    forall i, j :: 0 <= i < j < |items| ==> items[i].0 != items[j].0
  }

  /** With each key occurring once, a key reads as `v` exactly when the pair is there. */
  lemma LookupUnique(items: seq<(string, Json)>, k: string, v: Json)
    requires UniqueKeys(items)
    ensures Lookup(items, k) == Some(v) <==> (k, v) in items
  {
    if (k, v) in items {
      var i :| 0 <= i < |items| && items[i] == (k, v);
      var r := Lookup(items, k);
      assert r.Some?;
      var j :| 0 <= j < |items| && items[j] == (k, r.value);
      assert i == j;
    }
  }

  /**
   * Python `d[k] = v` on the items of an insertion-ordered dict: a key
   * already present keeps its place and takes the new value, a new key
   * goes last.
   */
  function Assign(items: seq<(string, Json)>, k: string, v: Json): seq<(string, Json)> {
    if |items| == 0 then [(k, v)]
    else if items[0].0 == k then [(k, v)] + items[1..]
    else [items[0]] + Assign(items[1..], k, v)
  }

  /** Assigning keeps each key once, binds `k` to `v` and leaves every other pair. */
  lemma {:induction false} AssignFacts(items: seq<(string, Json)>, k: string, v: Json)
    requires UniqueKeys(items)
    ensures UniqueKeys(Assign(items, k, v))
    ensures forall p :: p in Assign(items, k, v) <==> p == (k, v) || (p in items && p.0 != k)
  {
    if |items| > 0 {
      var rest := items[1..];
      UniqueTail(items);
      assert items == [items[0]] + rest;
      if items[0].0 == k {
        assert Assign(items, k, v) == [(k, v)] + rest;
        ConsUnique((k, v), rest);
      } else {
        AssignFacts(rest, k, v);
        assert Assign(items, k, v) == [items[0]] + Assign(rest, k, v);
        ConsUnique(items[0], Assign(rest, k, v));
      }
    }
  }

  /** A pair whose key the rest lacks can go in front. */
  lemma ConsUnique(p: (string, Json), tail: seq<(string, Json)>)
    requires UniqueKeys(tail)
    requires forall q :: q in tail ==> q.0 != p.0
    ensures UniqueKeys([p] + tail)
  {
    var r := [p] + tail;
    forall i, j | 0 <= i < j < |r| ensures r[i].0 != r[j].0 {
      assert r[j] == tail[j - 1] && tail[j - 1] in tail;
      if i > 0 {
        assert r[i] == tail[i - 1];
      }
    }
  }

  /**
   * The items of the dict Python's decoder builds from an object's pairs:
   * each key once, where it first occurs, bound to its last value.
   */
  function Items(fields: seq<(string, Json)>): seq<(string, Json)> {
    if |fields| == 0 then []
    else
      var last := fields[|fields| - 1];
      Assign(Items(fields[..|fields| - 1]), last.0, last.1)
  }

  /** The decoded dict holds each key once, and every key reads as it does in the object. */
  lemma {:induction false} ItemsAreTheDict(fields: seq<(string, Json)>)
    ensures UniqueKeys(Items(fields))
    ensures forall k :: Lookup(Items(fields), k) == Lookup(fields, k)
  {
    if |fields| > 0 {
      var pre := fields[..|fields| - 1];
      var last := fields[|fields| - 1];
      ItemsAreTheDict(pre);
      var items := Items(pre);
      var r := Items(fields);
      assert r == Assign(items, last.0, last.1);
      AssignFacts(items, last.0, last.1);
      forall k ensures Lookup(r, k) == Lookup(fields, k) {
        AssignedLookup(items, r, last.0, last.1, k);
        assert Lookup(fields, k) == if k == last.0 then Some(last.1) else Lookup(pre, k);
      }
    }
  }

  /** How a key reads after an assignment. */
  lemma AssignedLookup(items: seq<(string, Json)>, r: seq<(string, Json)>, key: string, v: Json, k: string)
    requires UniqueKeys(items) && UniqueKeys(r)
    requires forall p :: p in r <==> p == (key, v) || (p in items && p.0 != key)
    ensures Lookup(r, k) == if k == key then Some(v) else Lookup(items, k)
  {
    if k == key {
      LookupUnique(r, k, v);
    } else {
      match Lookup(items, k)
      case Some(w) =>
        LookupUnique(items, k, w);
        LookupUnique(r, k, w);
      case None =>
        forall i | 0 <= i < |r| ensures r[i].0 != k {
          assert r[i] in r;
        }
    }
  }

  /** The pairs after the first hold each key once, and none has the first pair's key. */
  lemma UniqueTail(items: seq<(string, Json)>)
    requires UniqueKeys(items) && |items| > 0
    ensures UniqueKeys(items[1..])
    ensures forall p :: p in items[1..] ==> p.0 != items[0].0
  {
    var rest := items[1..];
    forall i, j | 0 <= i < j < |rest| ensures rest[i].0 != rest[j].0 {
      assert rest[i] == items[i + 1] && rest[j] == items[j + 1];
    }
    forall p | p in rest ensures p.0 != items[0].0 {
      var j :| 0 <= j < |rest| && rest[j] == p;
      assert items[j + 1] == p;
    }
  }

  /** Filtering the items of a dict keeps each key once. */
  lemma {:induction false} FilterKeepsUniqueKeys(items: seq<(string, Json)>, p: ((string, Json)) -> bool)
    requires UniqueKeys(items)
    ensures UniqueKeys(Filter(items, p))
  {
    if |items| > 0 {
      var rest := items[1..];
      UniqueTail(items);
      FilterKeepsUniqueKeys(rest, p);
      FilterMembers(rest, p);
      var tail := Filter(rest, p);
      if p(items[0]) {
        var f := Filter(items, p);
        assert f == [items[0]] + tail;
        forall i, j | 0 <= i < j < |f| ensures f[i].0 != f[j].0 {
          assert f[j] == tail[j - 1] && tail[j - 1] in tail;
          if i > 0 {
            assert f[i] == tail[i - 1];
          }
        }
      } else {
        assert Filter(items, p) == tail;
      }
    }
  }

  /** Python `a or b`: `a` when it is truthy, else `b`. */
  function Or(a: Json, b: Json): (r: Json)
    ensures Truthy(a) ==> r == a
    ensures !Truthy(a) ==> r == b
  {
    if Truthy(a) then a else b
  }

  /** Truncation toward zero, as `int(float)` does. */
  function Truncate(f: real): (r: int)
    ensures f >= 0.0 ==> r as real <= f < r as real + 1.0
    ensures f < 0.0 ==> r as real - 1.0 < f <= r as real
  {
    if f >= 0.0 then f.Floor else -((-f).Floor)
  }

  /**
   * Python `int(value)` on a decoded value; `None` stands for the
   * `ValueError` or `TypeError` it raises.
   */
  function ToInt(j: Json): (r: Option<int>)
    ensures j.JInt? ==> r == Some(j.i)
    ensures j.JStr? ==> r == ParseInt(j.s)
    ensures (j.JNull? || j.JArr? || j.JObj?) ==> r.None?
  {
    match j
    case JNull => None
    case JBool(b) => Some(if b then 1 else 0)
    case JInt(i) => Some(i)
    case JFloat(f) => Some(Truncate(f))
    case JStr(s) => ParseInt(s)
    case JArr(_) => None
    case JObj(_) => None
  }

  /** A number rendered as text converts back to the same number. */
  lemma ToIntOfRenderedInt(n: int)
    ensures ToInt(JStr(IntToString(n))) == Some(n)
  {
    ParseIntOfIntToString(n);
  }
}

=== FILE: keycommands.dfy ===
/**
 * Who may do what with a registered key through the key commands: adding
 * a key is for administrators, removing one for its owner or an
 * administrator, and inspecting or re-validating one for its owner, anyone
 * when it is shared, or an administrator.
 */
module KeyCommands {
  import opened Wrappers
  import opened Keys
  import Gateway

  /** The member running a command: their Discord id and whether they administer the server. */
  datatype Invoker = Invoker(userId: string, isAdmin: bool)

  /** The owner recorded for a new key: the invoker unless one is named. */
  function OwnerFor(invoker: Invoker, owner: Option<string>): (r: string)
    ensures owner.None? ==> r == invoker.userId
    ensures owner.Some? ==> r == owner.value
  {
    owner.GetOr(invoker.userId)
  }

  /** The key type recorded for a new key. */
  function KeyTypeFor(owner: string): (t: string)
    ensures t == "shared" <==> owner == Shared
    ensures t == "user" <==> owner != Shared
  {
    if owner == Shared then "shared" else "user"
  }

  /** What a key-add command ends with. */
  datatype AddOutcome =
    | AddDenied                              // not an administrator
    | AddRefused(problem: Problem)           // the registry refused the key
    | AddedUnvalidated(registry: Registry, problem: Problem)
                                             // the key was saved, then validation raised
    | Added(registry: Registry, validation: Validation, displayRaised: bool)
                                             // validated; `displayRaised` when listing the
                                             // permission names raised and the error reply was sent

  /**
   * Whether showing a successful validation raises: a reply without
   * selections stores a list, and a list has no permission names to list.
   */
  predicate DisplayRaises(reply: Result<KeyInfo, Gateway.Failure>, v: Validation) {
    v.Valid? && reply.Success? && reply.value.selections.None?
  }

  /**
   * The key-add command: administrators only; the key is registered with
   * its owner and type, then validated against the API reply `reply`. The
   * registry saves the key before validation starts, so a validation that
   * raises leaves the key registered.
   */
  function KeyAdd(reg: Registry, env: Env, invoker: Invoker, alias: string, envVar: string,
                  owner: Option<string>, reply: Result<KeyInfo, Gateway.Failure>, now: string)
    : (r: AddOutcome)
    ensures !invoker.isAdmin <==> r == AddDenied
    ensures r.Added? ==>
      var o := OwnerFor(invoker, owner);
      AddKey(reg, env, alias, envVar, o, KeyTypeFor(o)).Success?
      && MetaOf(r.registry, alias).Some?
      && MetaOf(r.registry, alias).value.owner == o
      && MetaOf(r.registry, alias).value.keyType == KeyTypeFor(o)
      && ValidateKey(AddKey(reg, env, alias, envVar, o, KeyTypeFor(o)).value, env, alias, reply, now)
         == Success((r.registry, r.validation))
    ensures r.Added? ==> (r.displayRaised <==> DisplayRaises(reply, r.validation))
    ensures invoker.isAdmin && AddKey(reg, env, alias, envVar, OwnerFor(invoker, owner),
                                      KeyTypeFor(OwnerFor(invoker, owner))).Failure? ==>
      r == AddRefused(AddKey(reg, env, alias, envVar, OwnerFor(invoker, owner),
                             KeyTypeFor(OwnerFor(invoker, owner))).error)
    ensures r.AddRefused? ==>
      AddKey(reg, env, alias, envVar, OwnerFor(invoker, owner), KeyTypeFor(OwnerFor(invoker, owner))).Failure?
    ensures r.AddedUnvalidated? ==>
      var added := AddKey(reg, env, alias, envVar, OwnerFor(invoker, owner), KeyTypeFor(OwnerFor(invoker, owner)));
      added == Success(r.registry) && ValidateKey(r.registry, env, alias, reply, now) == Failure(r.problem)
      && Registered(r.registry, alias)
    ensures r.AddedUnvalidated? && envVar != "" ==> r.problem == Unexpected && reply == Failure(Gateway.OtherException)
  {
    if !invoker.isAdmin then AddDenied
    else
      var o := OwnerFor(invoker, owner);
      match AddKey(reg, env, alias, envVar, o, KeyTypeFor(o))
      case Failure(p) => AddRefused(p)
      case Success(added) =>
        var meta := KeyMeta(o, envVar, Unknown, [], None, KeyTypeFor(o));
        AddedMetaIsFirst(reg, alias, meta);
        match ValidateKey(added, env, alias, reply, now)
        case Failure(p) => AddedUnvalidated(added, p)
        case Success((validated, v)) =>
          ValidateKeepsOwner(added, env, alias, reply, now);
          Added(validated, v, DisplayRaises(reply, v))
  }

  lemma AddedMetaIsFirst(reg: Registry, alias: string, meta: KeyMeta)
    requires !Registered(reg, alias)
    ensures MetaOf(reg + [Entry(alias, meta)], alias) == Some(meta)
  {
    var r := reg + [Entry(alias, meta)];
    assert r[|reg|].alias == alias;
    var m := MetaOf(r, alias);
    var i :| 0 <= i < |r| && r[i] == Entry(alias, m.value);
    if i < |reg| {
      assert reg[i].alias == alias;
    }
  }

  /** Validation rewrites an entry's permissions but never its owner or type. */
  lemma ValidateKeepsOwner(reg: Registry, env: Env, alias: string,
                           reply: Result<KeyInfo, Gateway.Failure>, now: string)
    requires MetaOf(reg, alias).Some?
    requires ValidateKey(reg, env, alias, reply, now).Success?
    ensures var after := ValidateKey(reg, env, alias, reply, now).value.0;
      MetaOf(after, alias).Some?
      && MetaOf(after, alias).value.owner == MetaOf(reg, alias).value.owner
      && MetaOf(after, alias).value.keyType == MetaOf(reg, alias).value.keyType
  {
    var after := ValidateKey(reg, env, alias, reply, now).value.0;
    if reply.Success? {
      ReplaceKeepsFirst(reg, alias, MetaOf(reg, alias).value.(accessLevel := reply.value.accessLevel.GetOr(Unknown),
        permissions := reply.value.selections.GetOr([]), lastValidated := Some(now)));
    }
  }

  lemma {:induction false} ReplaceKeepsFirst(reg: Registry, alias: string, meta: KeyMeta)
    requires Registered(reg, alias)
    ensures MetaOf(Replace(reg, alias, meta), alias) == Some(meta)
  {
    var r := Replace(reg, alias, meta);
    if reg[0].alias != alias {
      assert r[1..] == Replace(reg[1..], alias, meta);
      assert Registered(reg[1..], alias) by {
        var i :| 0 <= i < |reg| && reg[i].alias == alias;
        assert reg[1..][i - 1].alias == alias;
      }
      ReplaceKeepsFirst(reg[1..], alias, meta);
    }
  }

  /** Whether the invoker may remove a key with metadata `m`. */
  predicate MayRemove(m: KeyMeta, invoker: Invoker) {
    m.owner == invoker.userId || invoker.isAdmin
  }

  /** Whether the invoker may inspect or re-validate a key with metadata `m`. */
  predicate MayInspect(m: KeyMeta, invoker: Invoker) {
    m.owner == invoker.userId || m.owner == Shared || invoker.isAdmin
  }

  /** What the key-remove command ends with. */
  datatype RemoveOutcome = NotFound | RemoveDenied | Removed(registry: Registry)

  /** The key-remove command: the key must exist and be the invoker's, or the invoker an administrator. */
  function KeyRemove(reg: Registry, invoker: Invoker, alias: string): (r: RemoveOutcome)
    ensures r == NotFound <==> !Registered(reg, alias)
    ensures r == RemoveDenied <==> Registered(reg, alias) && !MayRemove(MetaOf(reg, alias).value, invoker)
    ensures r.Removed? ==> (!Registered(r.registry, alias)
      && forall e :: e in r.registry <==> e in reg && e.alias != alias)
    ensures r.Removed? ==> r.registry == RemoveKey(reg, alias).value
  {
    match MetaOf(reg, alias)
    case None => NotFound
    case Some(m) =>
      if !MayRemove(m, invoker) then RemoveDenied
      else Removed(RemoveKey(reg, alias).value)
  }

  /** How many permission categories the key-check display lists at most. */
  const ShownCategories := 15

  /** What the key-check command shows. */
  datatype CheckOutcome =
    | CheckNotFound
    | CheckDenied
    | CheckFailed                   // the display raised; the reply is an error message
    | Details(owner: string, keyType: string, accessLevel: string, masked: string,
              permissions: seq<string>, lastValidated: Option<string>)

  /**
   * The key-check command: a registered key the invoker may inspect is
   * shown with its key masked, or "Not found" when its value is missing
   * or empty. A key never validated still holds the empty list it was
   * registered with, and listing that list's permission names raises, so
   * the command ends in its error reply. Only the first `ShownCategories`
   * permission categories are listed.
   */
  function KeyCheck(reg: Registry, env: Env, invoker: Invoker, alias: string): (r: CheckOutcome)
    ensures r == CheckNotFound <==> !Registered(reg, alias)
    ensures r == CheckDenied <==> Registered(reg, alias) && !MayInspect(MetaOf(reg, alias).value, invoker)
    ensures r == CheckFailed <==> (Registered(reg, alias) && MayInspect(MetaOf(reg, alias).value, invoker)
      && MetaOf(reg, alias).value.lastValidated.None?)
    ensures r.Details? ==> (r.owner == MetaOf(reg, alias).value.owner
      && r.lastValidated.Some? && r.lastValidated == MetaOf(reg, alias).value.lastValidated
      && r.keyType == MetaOf(reg, alias).value.keyType
      && r.accessLevel == MetaOf(reg, alias).value.accessLevel
      && r.permissions <= MetaOf(reg, alias).value.permissions
      && |r.permissions| == (if |MetaOf(reg, alias).value.permissions| < ShownCategories
                             then |MetaOf(reg, alias).value.permissions| else ShownCategories)
      && (KeyValue(reg, env, alias).GetOr("") == "" ==> r.masked == "Not found")
      && (KeyValue(reg, env, alias).GetOr("") != "" ==> r.masked == MaskKey(KeyValue(reg, env, alias).value)))
  {
    match MetaOf(reg, alias)
    case None => CheckNotFound
    case Some(m) =>
      if !MayInspect(m, invoker) then CheckDenied
      else if m.lastValidated.None? then CheckFailed
      else
        var key := KeyValue(reg, env, alias).GetOr("");
        var masked := if key != "" then MaskKey(key) else "Not found";
        var shown := if |m.permissions| < ShownCategories then m.permissions else m.permissions[..ShownCategories];
        Details(m.owner, m.keyType, m.accessLevel, masked, shown, m.lastValidated)
  }

  /** A key that was just added and not yet validated cannot be shown by key-check. */
  lemma FreshKeyCheckFails(reg: Registry, env: Env, invoker: Invoker, alias: string, envVar: string, owner: string)
    requires AddKey(reg, env, alias, envVar, owner, KeyTypeFor(owner)).Success?
    requires owner == invoker.userId || owner == Shared || invoker.isAdmin
    ensures KeyCheck(AddKey(reg, env, alias, envVar, owner, KeyTypeFor(owner)).value, env, invoker, alias) == CheckFailed
  {
    AddedMetaIsFirst(reg, alias, KeyMeta(owner, envVar, Unknown, [], None, KeyTypeFor(owner)));
  }

  /** What the key-validate command ends with. */
  datatype ValidateOutcome =
    | ValidateNotFound
    | ValidateDenied
    | ValidateRefused(problem: Problem)
    | Validated(registry: Registry, validation: Validation, displayRaised: bool)

  /**
   * The key-validate command: the same access rule as key-check, then
   * validation. The registry keeps the validation even when showing it
   * raises.
   */
  function KeyValidate(reg: Registry, env: Env, invoker: Invoker, alias: string,
                       reply: Result<KeyInfo, Gateway.Failure>, now: string): (r: ValidateOutcome)
    ensures r == ValidateNotFound <==> !Registered(reg, alias)
    ensures r == ValidateDenied <==> Registered(reg, alias) && !MayInspect(MetaOf(reg, alias).value, invoker)
    ensures r.Validated? ==> (MayInspect(MetaOf(reg, alias).value, invoker)
      && ValidateKey(reg, env, alias, reply, now) == Success((r.registry, r.validation)))
    ensures Registered(reg, alias) && MayInspect(MetaOf(reg, alias).value, invoker) ==>
      (r.Validated? <==> ValidateKey(reg, env, alias, reply, now).Success?)
    ensures r.ValidateRefused? ==> ValidateKey(reg, env, alias, reply, now) == Failure(r.problem)
    ensures r.Validated? ==> (r.displayRaised <==> DisplayRaises(reply, r.validation))
  {
    match MetaOf(reg, alias)
    case None => ValidateNotFound
    case Some(m) =>
      if !MayInspect(m, invoker) then ValidateDenied
      else
        match ValidateKey(reg, env, alias, reply, now)
        case Failure(p) => ValidateRefused(p)
        case Success((after, v)) => Validated(after, v, DisplayRaises(reply, v))
  }

  /** Anyone allowed to remove a key may also inspect it; a shared key is inspectable by all. */
  lemma RemoveRightsImplyInspectRights(m: KeyMeta, invoker: Invoker)
    ensures MayRemove(m, invoker) ==> MayInspect(m, invoker)
    ensures m.owner == Shared ==> MayInspect(m, invoker)
    ensures invoker.isAdmin ==> MayRemove(m, invoker) && MayInspect(m, invoker)
  {
  }

  /** A non-administrator cannot remove a shared key (no Discord id is "shared"). */
  lemma SharedKeysNeedAdminToRemove(m: KeyMeta, invoker: Invoker)
    requires m.owner == Shared && invoker.userId != Shared && !invoker.isAdmin
    ensures !MayRemove(m, invoker) && MayInspect(m, invoker)
  {
  }
}

=== FILE: keys.dfy ===
/**
 * The API-key registry: key aliases with their owner, the environment
 * variable holding the key, and the access level and permission
 * categories last reported for the key. The registry is the list of its
 * entries in insertion order, as the metadata file's `keys` object is.
 */
module Keys {
  import opened Wrappers
  import opened PyText
  import Gateway
  import Collections

  datatype KeyMeta = KeyMeta(
    owner: string,               // a Discord user id, or "shared"
    envVar: string,
    accessLevel: string,
    permissions: seq<string>,    // permission categories the API reported
    lastValidated: Option<string>,
    keyType: string)

  datatype Entry = Entry(alias: string, meta: KeyMeta)

  type Registry = seq<Entry>

  /** Environment variables visible to the process; none has an empty name. */
  type Env = e: map<string, string> | "" !in e witness map[]

  const Shared := "shared"
  const FullAccess := "Full Access"
  const Unknown := "Unknown"

  predicate Registered(reg: Registry, alias: string) {
    exists i :: 0 <= i < |reg| && reg[i].alias == alias
  }

  /** Aliases are unique, as the keys of a JSON object are. */
  predicate WellFormed(reg: Registry) {
    forall i, j :: 0 <= i < j < |reg| ==> reg[i].alias != reg[j].alias
  }

  /** The metadata of `alias`, if it is registered. */
  function MetaOf(reg: Registry, alias: string): (r: Option<KeyMeta>)
    ensures r.None? <==> !Registered(reg, alias)
    ensures r.Some? ==> exists i :: 0 <= i < |reg| && reg[i] == Entry(alias, r.value)
  {
    if |reg| == 0 then None
    else if reg[0].alias == alias then Some(reg[0].meta)
    else
      var r := MetaOf(reg[1..], alias);
      assert forall i :: 0 < i < |reg| ==> reg[i] == reg[1..][i - 1];
      r
  }

  /** In a well-formed registry the metadata is that of the alias's entry. */
  lemma MetaOfEntry(reg: Registry, i: nat)
    requires WellFormed(reg) && i < |reg|
    ensures MetaOf(reg, reg[i].alias) == Some(reg[i].meta)
  {
    var r := MetaOf(reg, reg[i].alias);
    var j :| 0 <= j < |reg| && reg[j] == Entry(reg[i].alias, r.value);
    assert i == j;
  }

  /**
   * The key itself: the value of the alias's environment variable. `None`
   * for an unknown alias, an empty variable name, or an unset variable.
   */
  function KeyValue(reg: Registry, env: Env, alias: string): (r: Option<string>)
    ensures r.Some? ==> Registered(reg, alias)
    ensures r.Some? ==> MetaOf(reg, alias).value.envVar != "" && MetaOf(reg, alias).value.envVar in env
  {
    match MetaOf(reg, alias)
    case None => None
    case Some(m) =>
      if m.envVar == "" || m.envVar !in env then None else Some(env[m.envVar])
  }

  /**
   * A key shown for display: only its last four characters survive, and a
   * key of four characters or fewer is hidden entirely.
   */
  function MaskKey(key: string): (r: string)
    ensures |key| <= 4 ==> r == "****"
    ensures |key| > 4 ==> |r| == 19 && r[15..] == key[|key| - 4..]
    ensures forall i :: 0 <= i < |r| - 4 ==> r[i] == '*' || r[i] == '-'
  {
    if |key| <= 4 then "****" else "****-****-****-" + key[|key| - 4..]
  }

  /** Failures the registry raises as exceptions. */
  datatype Problem = ValueError(message: string) | Unexpected

  /**
   * Registering a key: a taken alias or an environment variable that is
   * unset or empty is refused; otherwise the entry is added at the end,
   * not yet validated.
   */
  function AddKey(reg: Registry, env: Env, alias: string, envVar: string, owner: string, keyType: string)
    : (r: Result<Registry, Problem>)
    ensures Registered(reg, alias) ==>
      r == Failure(ValueError("Key alias '" + alias + "' already exists"))
    ensures !Registered(reg, alias) && (envVar !in env || env[envVar] == "") ==>
      r == Failure(ValueError("Environment variable '" + envVar + "' not found"))
    ensures r.Success? <==> !Registered(reg, alias) && envVar in env && env[envVar] != ""
    ensures r.Success? ==>
      |r.value| == |reg| + 1 && r.value[..|reg|] == reg
      && r.value[|reg|] == Entry(alias, KeyMeta(owner, envVar, Unknown, [], None, keyType))
  {
    if Registered(reg, alias) then Failure(ValueError("Key alias '" + alias + "' already exists"))
    else if envVar !in env || env[envVar] == "" then
      Failure(ValueError("Environment variable '" + envVar + "' not found"))
    else Success(reg + [Entry(alias, KeyMeta(owner, envVar, Unknown, [], None, keyType))])
  }

  /** Adding a key keeps aliases unique and makes the new alias's metadata visible. */
  lemma AddKeyKeepsWellFormed(reg: Registry, env: Env, alias: string, envVar: string,
                              owner: string, keyType: string)
    requires WellFormed(reg)
    requires AddKey(reg, env, alias, envVar, owner, keyType).Success?
    ensures var r := AddKey(reg, env, alias, envVar, owner, keyType).value;
      WellFormed(r)
      && MetaOf(r, alias) == Some(KeyMeta(owner, envVar, Unknown, [], None, keyType))
      && KeyValue(r, env, alias) == Some(env[envVar])
  {
    var r := AddKey(reg, env, alias, envVar, owner, keyType).value;
    assert !Registered(reg, alias);
    forall i, j | 0 <= i < j < |r| ensures r[i].alias != r[j].alias {
      if j == |reg| {
        assert r[i] == reg[i] && r[j].alias == alias;
        assert reg[i].alias != alias;
      } else {
        assert r[i] == reg[i] && r[j] == reg[j];
      }
    }
    MetaOfEntry(r, |reg|);
  }

  function OtherAlias(alias: string): Entry -> bool {
    (e: Entry) => e.alias != alias
  }

  /** The entries whose alias is not `alias`, in order. */
  function Without(reg: Registry, alias: string): (r: Registry)
    ensures forall e :: e in r <==> e in reg && e.alias != alias
    ensures |r| <= |reg|
  {
    if |reg| == 0 then []
    else if reg[0].alias == alias then Without(reg[1..], alias)
    else [reg[0]] + Without(reg[1..], alias)
  }

  /** `Without` keeps the other entries in their order, duplicates and all. */
  lemma {:induction false} WithoutKeepsOrder(reg: Registry, alias: string)
    ensures Without(reg, alias) == Collections.Filter(reg, OtherAlias(alias))
    ensures Collections.IsFilterOf(Without(reg, alias), reg, OtherAlias(alias))
  {
    if |reg| > 0 {
      WithoutKeepsOrder(reg[1..], alias);
    }
    Collections.FilterPicks(reg, OtherAlias(alias));
  }

  /** Removing a key: an unknown alias is refused; otherwise only its entry goes. */
  function RemoveKey(reg: Registry, alias: string): (r: Result<Registry, Problem>)
    ensures !Registered(reg, alias) <==> r == Failure(ValueError("Key alias '" + alias + "' not found"))
    ensures r.Success? ==> !Registered(r.value, alias)
    ensures r.Success? ==> forall e :: e in r.value <==> e in reg && e.alias != alias
  {
    if !Registered(reg, alias) then Failure(ValueError("Key alias '" + alias + "' not found"))
    else
      var r := Without(reg, alias);
      forall i | 0 <= i < |r| ensures r[i].alias != alias {
        assert r[i] in r;
      }
      Success(r)
  }

  /** A successful removal keeps every other entry in its place in the order. */
  lemma RemoveKeyKeepsOrder(reg: Registry, alias: string)
    requires Registered(reg, alias)
    ensures RemoveKey(reg, alias).Success?
    ensures Collections.IsFilterOf(RemoveKey(reg, alias).value, reg, OtherAlias(alias))
  {
    WithoutKeepsOrder(reg, alias);
  }

  /** Adding a key and removing it again gives back the registry. */
  lemma RemoveUndoesAdd(reg: Registry, env: Env, alias: string, envVar: string,
                        owner: string, keyType: string)
    requires AddKey(reg, env, alias, envVar, owner, keyType).Success?
    ensures RemoveKey(AddKey(reg, env, alias, envVar, owner, keyType).value, alias) == Success(reg)
  {
    var added := AddKey(reg, env, alias, envVar, owner, keyType).value;
    assert Registered(added, alias) by {
      assert added[|reg|].alias == alias;
    }
    WithoutAbsent(reg, alias);
    assert added == reg + [added[|reg|]];
    WithoutAppend(reg, added[|reg|], alias);
  }

  lemma {:induction false} WithoutAbsent(reg: Registry, alias: string)
    requires !Registered(reg, alias)
    ensures Without(reg, alias) == reg
  {
    if |reg| > 0 {
      forall i | 0 <= i < |reg[1..]| ensures reg[1..][i].alias != alias {
        assert reg[1..][i] == reg[i + 1];
      }
      WithoutAbsent(reg[1..], alias);
      assert reg == [reg[0]] + reg[1..];
    }
  }

  lemma {:induction false} WithoutAppend(reg: Registry, e: Entry, alias: string)
    requires e.alias == alias
    ensures Without(reg + [e], alias) == Without(reg, alias)
  {
    if |reg| == 0 {
      assert [e][1..] == [];
    } else {
      assert (reg + [e])[1..] == reg[1..] + [e];
      WithoutAppend(reg[1..], e, alias);
    }
  }

  /**
   * Whether `c` names the category of `selection`: `c` has no '.' and is
   * either the whole selection or the part before its first '.'.
   */
  predicate CategoryOf(selection: string, c: string) {
    && (forall i :: 0 <= i < |c| ==> c[i] != '.')
    && (c == selection || (|c| < |selection| && selection[..|c| + 1] == c + "."))
  }

  /**
   * Whether `alias` may make a request needing `selection`: a wildcard
   * permission or full access allows everything; otherwise the selection's
   * category or the whole selection must be a permission.
   */
  predicate HasPermission(reg: Registry, alias: string, selection: string) {
    match MetaOf(reg, alias)
    case None => false
    case Some(m) =>
      "*" in m.permissions || m.accessLevel == FullAccess
      || Split(selection, ".")[0] in m.permissions
      || selection in m.permissions
  }

  /**
   * What a permission check means without the split: an alias is allowed
   * a selection exactly when it is registered and holds the wildcard, full
   * access, the selection itself, or the selection's category.
   */
  lemma HasPermissionMeaning(reg: Registry, alias: string, selection: string)
    ensures HasPermission(reg, alias, selection) <==> (Registered(reg, alias) &&
      var m := MetaOf(reg, alias).value;
      || "*" in m.permissions
      || m.accessLevel == FullAccess
      || selection in m.permissions
      || exists c :: c in m.permissions && CategoryOf(selection, c))
  {
    CategoryIsFirstPiece(selection);
  }

  /** The first piece of splitting on '.' is the one category of a selection. */
  lemma CategoryIsFirstPiece(s: string)
    ensures CategoryOf(s, Split(s, ".")[0])
    ensures forall c :: CategoryOf(s, c) ==> c == Split(s, ".")[0]
  {
    FindSpec(s, ".");
    FirstPiece(s, ".");
    var head := Split(s, ".")[0];
    match Find(s, ".") {
      case None =>
        forall i | 0 <= i < |s| ensures s[i] != '.' {
          assert !OccursAt(s, ".", i);
          assert s[i..i + 1] == [s[i]];
        }
      case Some(k) =>
        forall i | 0 <= i < k ensures s[i] != '.' {
          assert !OccursAt(s, ".", i);
          assert s[i..i + 1] == [s[i]];
        }
        assert s[k..k + 1] == ".";
        assert s[..k + 1] == head + ".";
    }
    forall c | CategoryOf(s, c) ensures c == head {
      CategoryIsUnique(s, c);
    }
  }

  lemma CategoryIsUnique(s: string, c: string)
    requires CategoryOf(s, c)
    ensures c == Split(s, ".")[0]
  {
    FirstPiece(s, ".");
    if c != s {
      assert s[|c|..|c| + 1] == ".";
      forall j: nat | j < |c| ensures !OccursAt(s, ".", j) {
        assert s[j] == c[j];
        assert s[j..j + 1] == [s[j]];
      }
      FindFirst(s, ".", |c|);
      assert s[..|c|] == c;
    } else {
      FindAbsent(s, ".");
    }
  }

  lemma UnknownAliasHasNoPermission(reg: Registry, alias: string, selection: string)
    requires !Registered(reg, alias)
    ensures !HasPermission(reg, alias, selection)
  {
  }

  /** A permitted category covers every sub-selection under it. */
  lemma CategoryCoversSubselections(reg: Registry, alias: string, category: string, rest: string)
    requires Registered(reg, alias)
    requires category in MetaOf(reg, alias).value.permissions
    requires Find(category + ".", ".") == Some(|category|)
    ensures HasPermission(reg, alias, category + "." + rest)
  {
    SplitAfterFirst(category, ".", rest);
  }

  predicate Usable(reg: Registry, i: nat, owner: string, selection: string)
    requires i < |reg|
  {
    reg[i].meta.owner == owner && HasPermission(reg, reg[i].alias, selection)
  }

  /** The first entry owned by `owner` that may make the request. */
  function FirstUsable(reg: Registry, owner: string, selection: string, from: nat): (r: Option<nat>)
    requires from <= |reg|
    ensures r.Some? ==> (from <= r.value < |reg| && Usable(reg, r.value, owner, selection)
      && forall j :: from <= j < r.value ==> !Usable(reg, j, owner, selection))
    ensures r.None? ==> forall j :: from <= j < |reg| ==> !Usable(reg, j, owner, selection)
    decreases |reg| - from
  {
    if from == |reg| then None
    else if Usable(reg, from, owner, selection) then Some(from)
    else FirstUsable(reg, owner, selection, from + 1)
  }

  /**
   * The key to use for a user's request: the user's own first suitable key
   * in registry order, else the first suitable shared key, else none.
   */
  function FindKeyForRequest(reg: Registry, user: string, selection: string): (r: Option<string>)
    ensures r.Some? ==> exists i :: (0 <= i < |reg| && reg[i].alias == r.value
      && (Usable(reg, i, user, selection) || Usable(reg, i, Shared, selection)))
    ensures (exists i :: 0 <= i < |reg| && Usable(reg, i, user, selection)) ==>
      r.Some? && exists i :: (0 <= i < |reg| && reg[i].alias == r.value && Usable(reg, i, user, selection)
        && forall j :: 0 <= j < i ==> !Usable(reg, j, user, selection))
    ensures r.None? <==>
      forall i :: 0 <= i < |reg| ==> !Usable(reg, i, user, selection) && !Usable(reg, i, Shared, selection)
  {
    match FirstUsable(reg, user, selection, 0)
    case Some(i) => Some(reg[i].alias)
    case None =>
      match FirstUsable(reg, Shared, selection, 0)
      case Some(i) => Some(reg[i].alias)
      case None => None
  }

  /** A user with no suitable key of their own falls back to the first suitable shared key. */
  lemma SharedFallback(reg: Registry, user: string, selection: string, i: nat)
    requires i < |reg| && Usable(reg, i, Shared, selection)
    requires forall j :: 0 <= j < i ==> !Usable(reg, j, Shared, selection)
    requires forall j :: 0 <= j < |reg| ==> !Usable(reg, j, user, selection)
    ensures FindKeyForRequest(reg, user, selection) == Some(reg[i].alias)
  {
    var r := FirstUsable(reg, Shared, selection, 0);
    assert r.Some?;
    assert r.value == i;
  }

  /** One row of a user's key listing. */
  datatype Listing = Listing(alias: string, owner: string, keyType: string, accessLevel: string,
                             lastValidated: Option<string>, masked: string)

  predicate Visible(e: Entry, user: string) {
    e.meta.owner == user || e.meta.owner == Shared
  }

  function VisibleTo(user: string): Entry -> bool {
    (e: Entry) => Visible(e, user)
  }

  function ListingOf(reg: Registry, env: Env, e: Entry): Listing {
    Listing(e.alias, e.meta.owner, e.meta.keyType, e.meta.accessLevel, e.meta.lastValidated,
            MaskKey(KeyValue(reg, env, e.alias).GetOr("")))
  }

  function ListingIn(reg: Registry, env: Env): Entry -> Listing {
    (e: Entry) => ListingOf(reg, env, e)
  }

  /** The entries a user may see, in registry order. */
  function VisibleEntries(reg: Registry, user: string): (r: Registry)
    ensures forall e :: e in r <==> e in reg && Visible(e, user)
  {
    if |reg| == 0 then []
    else if Visible(reg[0], user) then [reg[0]] + VisibleEntries(reg[1..], user)
    else VisibleEntries(reg[1..], user)
  }

  /** `VisibleEntries` keeps the visible entries in registry order, duplicates and all. */
  lemma {:induction false} VisibleEntriesKeepOrder(reg: Registry, user: string)
    ensures VisibleEntries(reg, user) == Collections.Filter(reg, VisibleTo(user))
    ensures Collections.IsFilterOf(VisibleEntries(reg, user), reg, VisibleTo(user))
  {
    if |reg| > 0 {
      VisibleEntriesKeepOrder(reg[1..], user);
    }
    Collections.FilterPicks(reg, VisibleTo(user));
  }

  /**
   * The keys a user may see: exactly the user's own and the shared ones,
   * each with its key masked.
   */
  function ListKeysForUser(reg: Registry, env: Env, user: string): (r: seq<Listing>)
    ensures forall e :: e in reg && Visible(e, user) ==> ListingOf(reg, env, e) in r
    ensures forall l :: l in r ==> exists e :: e in reg && Visible(e, user) && l == ListingOf(reg, env, e)
  {
    var v := VisibleEntries(reg, user);
    var r := seq(|v|, k requires 0 <= k < |v| => ListingOf(reg, env, v[k]));
    forall e | e in reg && Visible(e, user)
      ensures ListingOf(reg, env, e) in r
    {
      var k :| 0 <= k < |v| && v[k] == e;
      assert r[k] == ListingOf(reg, env, e);
    }
    forall l | l in r
      ensures exists e :: e in reg && Visible(e, user) && l == ListingOf(reg, env, e)
    {
      var k :| 0 <= k < |r| && r[k] == l;
      assert v[k] in v;
    }
    r
  }

  /** The listing has a row per visible key, in registry order, and no other. */
  lemma ListingKeepsOrder(reg: Registry, env: Env, user: string)
    ensures ListKeysForUser(reg, env, user) == Collections.FilterMap(reg, VisibleTo(user), ListingIn(reg, env))
    ensures Collections.IsFilterMapOf(ListKeysForUser(reg, env, user), reg, VisibleTo(user), ListingIn(reg, env))
  {
    VisibleEntriesKeepOrder(reg, user);
    Collections.MapOfFilter(reg, VisibleTo(user), ListingIn(reg, env), ListKeysForUser(reg, env, user));
    Collections.FilterMapPicks(reg, VisibleTo(user), ListingIn(reg, env));
  }

  /** A key found for a user's request is one the user sees in their listing. */
  lemma FoundKeyIsListed(reg: Registry, env: Env, user: string, selection: string)
    requires FindKeyForRequest(reg, user, selection).Some?
    ensures exists l :: (l in ListKeysForUser(reg, env, user)
      && l.alias == FindKeyForRequest(reg, user, selection).value)
  {
    var a := FindKeyForRequest(reg, user, selection).value;
    var i :| 0 <= i < |reg| && reg[i].alias == a
      && (Usable(reg, i, user, selection) || Usable(reg, i, Shared, selection));
    assert Visible(reg[i], user);
    assert reg[i] in reg;
    assert ListingOf(reg, env, reg[i]) in ListKeysForUser(reg, env, user);
  }

  /** What the API reported about a key, `None` for an absent field. */
  datatype KeyInfo = KeyInfo(accessLevel: Option<string>, selections: Option<seq<string>>)

  datatype Validation =
    | Valid(accessLevel: string, permissions: seq<string>, lastValidated: string)
    | Invalid(error: string)

  function Replace(reg: Registry, alias: string, meta: KeyMeta): (r: Registry)
    ensures |r| == |reg|
    ensures forall i :: 0 <= i < |reg| ==>
      r[i] == (if reg[i].alias == alias then Entry(alias, meta) else reg[i])
  {
    seq(|reg|, i requires 0 <= i < |reg| => if reg[i].alias == alias then Entry(alias, meta) else reg[i])
  }

  /**
   * Validating a key against the API reply `reply` received at time `now`:
   * an unknown alias or a missing or empty key value is refused; an API error
   * leaves the metadata untouched and reports the error; success stores the
   * reported access level (default "Unknown"), permissions (default none)
   * and the validation time. Any other exception propagates.
   */
  function ValidateKey(reg: Registry, env: Env, alias: string,
                       reply: Result<KeyInfo, Gateway.Failure>, now: string)
    : (r: Result<(Registry, Validation), Problem>)
    ensures !Registered(reg, alias) ==> r == Failure(ValueError("Key alias '" + alias + "' not found"))
    ensures Registered(reg, alias) && KeyValue(reg, env, alias).GetOr("") == "" ==>
      r == Failure(ValueError("Key value not found for alias '" + alias + "'"))
    ensures KeyValue(reg, env, alias).GetOr("") != "" && reply.Failure? && reply.error.ApiError? ==>
      r == Success((reg, Invalid(reply.error.message)))
    ensures KeyValue(reg, env, alias).GetOr("") != "" && reply.Failure? && reply.error.OtherException? ==>
      r == Failure(Unexpected)
    ensures KeyValue(reg, env, alias).GetOr("") != "" && reply.Success? ==>
      var level := reply.value.accessLevel.GetOr(Unknown);
      var perms := reply.value.selections.GetOr([]);
      r.Success? && r.value.1 == Valid(level, perms, now)
      && var m := MetaOf(reg, alias).value;
         r.value.0 == Replace(reg, alias, m.(accessLevel := level, permissions := perms, lastValidated := Some(now)))
  {
    if !Registered(reg, alias) then Failure(ValueError("Key alias '" + alias + "' not found"))
    else if KeyValue(reg, env, alias).GetOr("") == "" then
      Failure(ValueError("Key value not found for alias '" + alias + "'"))
    else
      match reply
      case Failure(ApiError(msg)) => Success((reg, Invalid(msg)))
      case Failure(OtherException) => Failure(Unexpected)
      case Success(info) =>
        var m := MetaOf(reg, alias).value;
        var level := info.accessLevel.GetOr(Unknown);
        var perms := info.selections.GetOr([]);
        Success((Replace(reg, alias, m.(accessLevel := level, permissions := perms, lastValidated := Some(now))),
                 Valid(level, perms, now)))
  }

  /**
   * After a successful validation the key's permissions are exactly what
   * the API reported: a reported category is granted.
   */
  lemma ValidatedPermissionsApply(reg: Registry, env: Env, alias: string, info: KeyInfo,
                                  now: string, category: string)
    requires WellFormed(reg)
    requires KeyValue(reg, env, alias).GetOr("") != ""
    requires info.selections.Some? && category in info.selections.value
    ensures var r := ValidateKey(reg, env, alias, Success(info), now);
      r.Success? && HasPermission(r.value.0, alias, category)
  {
    var r := ValidateKey(reg, env, alias, Success(info), now).value.0;
    var i :| 0 <= i < |reg| && reg[i].alias == alias;
    assert WellFormed(r) by {
      forall a, b | 0 <= a < b < |r| ensures r[a].alias != r[b].alias {
        assert r[a].alias == reg[a].alias && r[b].alias == reg[b].alias;
      }
    }
    MetaOfEntry(r, i);
  }
}

=== FILE: permissions.dfy ===
/**
 * Per-server command permissions: whether a member may run a command,
 * given the permission entries stored for the server. Entries grant the
 * command to administrators, to holders of a role, or to one user; a
 * command without entries is open to everyone, and a failure while
 * checking lets the command through.
 */
module Permissions {
  import opened Wrappers
  import opened Json

  /** The member running the command and what the server knows about them. */
  datatype Invocation = Invocation(
    inServer: bool,            // false in a direct message
    userId: int,
    isAdmin: bool,             // the member's administrator permission
    memberRoles: set<int>,     // roles the member holds
    serverRoles: set<int>)     // roles that exist on the server

  /**
   * What the permission store gave back for the server: the entries per
   * command, or a failure (the lookup raised).
   */
  datatype Stored = StoreFailed | Entries(byCommand: map<string, seq<Json>>)

  /** The verdict and, when refused, why. */
  datatype Decision = Allow | Deny(reason: Refusal)

  /** Why a command is refused: outside a server, or no entry admits the member. */
  datatype Refusal = NotInServer | NotPermitted(command: string)

  const ServerOnly := "This command can only be used in a server."

  function NoPermission(command: string): string {
    "You don't have permission to use `/" + command + "`. Contact a server administrator if you believe this is an error."
  }

  /** The text shown for a refusal. */
  function Message(reason: Refusal): (m: string)
    ensures m != ""
  {
    match reason
    case NotInServer => ServerOnly
    case NotPermitted(command) => NoPermission(command)
  }

  /**
   * Whether reading the entry's `type` and `value` succeeds; anything else
   * raises, which ends the whole check in favour of the member.
   */
  predicate Readable(e: Json) {
    e.JObj? && Lookup(e.fields, "type").Some? && Lookup(e.fields, "value").Some?
  }

  /**
   * Whether a readable entry admits the member: an administrator entry
   * for an administrator, a role entry naming a role of the server that
   * the member holds, or a user entry naming the member. A value that
   * does not convert to an integer admits nobody.
   */
  predicate Grants(e: Json, who: Invocation)
    requires Readable(e)
  {
    var kind := Lookup(e.fields, "type").value;
    var id := ToInt(Lookup(e.fields, "value").value);
    if kind == JStr("admin") then who.isAdmin
    else if kind == JStr("role") then id.Some? && id.value in who.serverRoles && id.value in who.memberRoles
    else if kind == JStr("user") then id.Some? && id.value == who.userId
    else false
  }

  /** The entries examined in order: the first readable one that admits, or the first unreadable one, lets the member through. */
  function Scan(entries: seq<Json>, who: Invocation): (allowed: bool)
    ensures allowed <==> exists i :: 0 <= i < |entries| && (!Readable(entries[i]) || Grants(entries[i], who))
  {
    if |entries| == 0 then false
    else if !Readable(entries[0]) || Grants(entries[0], who) then true
    else
      var rest := Scan(entries[1..], who);
      assert forall i :: 1 <= i < |entries| ==> entries[i] == entries[1..][i - 1];
      assert rest ==> exists i :: 1 <= i < |entries| && (!Readable(entries[i]) || Grants(entries[i], who)) by {
        if rest {
          var k :| 0 <= k < |entries[1..]| && (!Readable(entries[1..][k]) || Grants(entries[1..][k], who));
          assert entries[k + 1] == entries[1..][k];
        }
      }
      rest
  }

  /**
   * The permission check. `database` false means no store is configured,
   * which lets every command through.
   */
  function CheckCommandPermission(who: Invocation, command: string, database: bool, stored: Stored): (d: Decision)
    ensures !who.inServer <==> d == Deny(NotInServer)
    ensures who.inServer && (!database || stored.StoreFailed?) ==> d == Allow
    ensures (who.inServer && database && stored.Entries?
             && (command !in stored.byCommand || stored.byCommand[command] == [])) ==> d == Allow
    ensures who.inServer && database && stored.Entries? && command in stored.byCommand ==>
      (d == Deny(NotPermitted(command)) <==>
        (stored.byCommand[command] != [] && forall e :: e in stored.byCommand[command] ==> Readable(e) && !Grants(e, who)))
    ensures d.Deny? ==> d.reason in {NotInServer, NotPermitted(command)}
  {
    if !who.inServer then Deny(NotInServer)
    else if !database then Allow
    else
      match stored
      case StoreFailed => Allow
      case Entries(m) =>
        var entries := if command in m then m[command] else [];
        if entries == [] then Allow
        else if Scan(entries, who) then Allow
        else
          ScanRefuses(entries, who);
          Deny(NotPermitted(command))
  }

  /** The scan refuses exactly when every entry is readable and none admits the member. */
  lemma ScanRefuses(entries: seq<Json>, who: Invocation)
    ensures !Scan(entries, who) <==> forall e :: e in entries ==> Readable(e) && !Grants(e, who)
  {
  }

  /** The two refusals read differently, whatever the command is called. */
  lemma RefusalsReadDifferently(command: string)
    ensures Message(NotPermitted(command)) != Message(NotInServer)
  {
    assert NoPermission(command)[0] != ServerOnly[0];
  }

  /** An administrator entry admits every administrator, whatever follows it. */
  lemma AdminEntryAdmitsAdmins(who: Invocation, command: string, stored: Stored, i: nat)
    requires who.inServer && who.isAdmin && stored.Entries? && command in stored.byCommand
    requires i < |stored.byCommand[command]|
    requires stored.byCommand[command][i] == JObj([("type", JStr("admin")), ("value", JNull)])
    ensures CheckCommandPermission(who, command, true, stored) == Allow
  {
    var e := stored.byCommand[command][i];
    assert Lookup(e.fields, "type") == Some(JStr("admin"));
    assert Readable(e) && Grants(e, who);
  }

  /** Adding an entry never takes a permission away. */
  lemma {:induction false} MoreEntriesNeverDeny(entries: seq<Json>, extra: Json, who: Invocation)
    ensures Scan(entries, who) ==> Scan(entries + [extra], who)
  {
    if Scan(entries, who) {
      var i :| 0 <= i < |entries| && (!Readable(entries[i]) || Grants(entries[i], who));
      assert (entries + [extra])[i] == entries[i];
    }
  }

  /** What `require_command_permission` does: the flag returned and the message sent on refusal. */
  datatype Required = Required(allowed: bool, sent: Option<string>)

  const FallbackMessage := "You don't have permission to use this command."

  function RequireCommandPermission(who: Invocation, command: string, database: bool, stored: Stored): (r: Required)
    ensures r.allowed <==> CheckCommandPermission(who, command, database, stored) == Allow
    ensures r.allowed <==> r.sent.None?
    ensures !r.allowed ==> r.sent == Some(Message(CheckCommandPermission(who, command, database, stored).reason))
  {
    match CheckCommandPermission(who, command, database, stored)
    case Allow => Required(true, None)
    case Deny(reason) =>
      var m := Message(reason);
      Required(false, Some(if m != "" then m else FallbackMessage))
  }
}

=== FILE: pytext.dfy ===
/**
 * The few Python string operations the bot relies on, with Python's own
 * semantics: `str(int)`, `int(str)`, `str.strip()`, ASCII `str.lower()`,
 * `sub in s`, `s.split(sep)` and `sep.join(parts)`.
 */
module PyText {
  import opened Wrappers

  // ---------------------------------------------------------------------
  // Characters
  // ---------------------------------------------------------------------

  predicate IsDigit(c: char) {
    '0' <= c <= '9'
  }

  function DigitValue(c: char): nat
    requires IsDigit(c)
  {
    (c as int) - ('0' as int)
  }

  function DigitChar(d: nat): (c: char)
    requires d < 10
    ensures IsDigit(c) && DigitValue(c) == d
  {
    (('0' as int) + d) as char
  }

  /** The ASCII characters Python's `str.isspace()` accepts. */
  predicate IsSpace(c: char) {
    c == ' ' || c == '\t' || c == '\n' || c == '\r' || c == '\U{B}' || c == '\U{C}'
    || ('\U{1C}' <= c <= '\U{1F}')
  }

  /** ASCII lower-casing of one character. */
  function LowerChar(c: char): char {
    if 'A' <= c <= 'Z' then ((c as int) + 32) as char else c
  }

  function Lower(s: string): (r: string)
    ensures |r| == |s|
    ensures forall i :: 0 <= i < |s| ==> r[i] == LowerChar(s[i])
  {
    if |s| == 0 then "" else [LowerChar(s[0])] + Lower(s[1..])
  }

  /** Lower-casing twice is lower-casing once. */
  lemma LowerIdempotent(s: string)
    ensures Lower(Lower(s)) == Lower(s)
  {
  }

  // ---------------------------------------------------------------------
  // Whitespace stripping
  // ---------------------------------------------------------------------

  function StripLeft(s: string): (r: string)
    ensures |r| <= |s| && r == s[|s| - |r|..]
    ensures |r| > 0 ==> !IsSpace(r[0])
    ensures (|s| > 0 && !IsSpace(s[0])) ==> r == s
  {
    if |s| > 0 && IsSpace(s[0]) then StripLeft(s[1..]) else s
  }

  function StripRight(s: string): (r: string)
    ensures |r| <= |s| && r == s[..|r|]
    ensures |r| > 0 ==> !IsSpace(r[|r| - 1])
    ensures (|s| > 0 && !IsSpace(s[|s| - 1])) ==> r == s
  {
    if |s| > 0 && IsSpace(s[|s| - 1]) then StripRight(s[..|s| - 1]) else s
  }

  /** Python `s.strip()`. */
  function Strip(s: string): string {
    StripRight(StripLeft(s))
  }

  // ---------------------------------------------------------------------
  // Integers as text
  // ---------------------------------------------------------------------

  predicate AllDigits(s: string) {
    forall i :: 0 <= i < |s| ==> IsDigit(s[i])
  }

  /** The value of a run of decimal digits, most significant first. */
  function DigitsValue(s: string): nat
    requires AllDigits(s)
  {
    if |s| == 0 then 0 else DigitsValue(s[..|s| - 1]) * 10 + DigitValue(s[|s| - 1])
  }

  /** Decimal rendering of a natural number, without leading zeros. */
  function NatToString(n: nat): (r: string)
    ensures |r| > 0 && AllDigits(r)
  {
    if n < 10 then [DigitChar(n)] else NatToString(n / 10) + [DigitChar(n % 10)]
  }

  /** Python `str(n)` for an `int`. */
  function IntToString(n: int): string {
    if n < 0 then "-" + NatToString(-n) else NatToString(n)
  }

  /** Digits separated by single underscores, as `int()` accepts them. */
  predicate DigitGroups(b: string) {
    && |b| > 0
    && IsDigit(b[0])
    && IsDigit(b[|b| - 1])
    && (forall i :: 0 <= i < |b| ==> IsDigit(b[i]) || b[i] == '_')
    && (forall i :: 0 <= i < |b| - 1 ==> !(b[i] == '_' && b[i + 1] == '_'))
  }

  function RemoveUnderscores(b: string): (r: string)
    requires forall i :: 0 <= i < |b| ==> IsDigit(b[i]) || b[i] == '_'
    ensures AllDigits(r)
    ensures AllDigits(b) ==> r == b
  {
    if |b| == 0 then ""
    else if b[0] == '_' then RemoveUnderscores(b[1..])
    else [b[0]] + RemoveUnderscores(b[1..])
  }

  function ParseUnsigned(b: string): Option<nat> {
    if DigitGroups(b) then Some(DigitsValue(RemoveUnderscores(b))) else None
  }

  /**
   * Python `int(s)` for a `str` argument in base 10: surrounding whitespace
   * is ignored, one optional sign, then digit groups. `None` stands for the
   * `ValueError` Python raises.
   */
  function ParseInt(s: string): (r: Option<int>)
    ensures Strip(s) == "" ==> r.None?
    ensures r.Some? ==> |Strip(s)| > 0 && IsDigit(Strip(s)[|Strip(s)| - 1])
    ensures r.Some? && r.value < 0 ==> Strip(s)[0] == '-'
    ensures |s| > 0 && AllDigits(s) ==> r == Some(DigitsValue(s))
  {
    var t := Strip(s);
    assert |s| > 0 && AllDigits(s) ==> t == s && DigitGroups(t) && RemoveUnderscores(t) == t by {
      if |s| > 0 && AllDigits(s) {
        StripOfUnspaced(s);
      }
    }
    if |t| > 0 && (t[0] == '-' || t[0] == '+') then
      match ParseUnsigned(t[1..])
      case None => None
      case Some(m) => Some(if t[0] == '-' then -(m as int) else m as int)
    else
      match ParseUnsigned(t)
      case None => None
      case Some(m) => Some(m)
  }

  lemma {:induction false} DigitsValueOfNatToString(n: nat)
    ensures DigitsValue(NatToString(n)) == n
  {
    if n >= 10 {
      DigitsValueOfNatToString(n / 10);
      var s := NatToString(n / 10) + [DigitChar(n % 10)];
      assert s[..|s| - 1] == NatToString(n / 10);
    }
  }

  lemma StripOfUnspaced(s: string)
    requires |s| > 0 && !IsSpace(s[0]) && !IsSpace(s[|s| - 1])
    ensures Strip(s) == s
  {
  }

  /** `int(str(n)) == n` for every integer. */
  lemma ParseIntOfIntToString(n: int)
    ensures ParseInt(IntToString(n)) == Some(n)
  {
    var s := IntToString(n);
    var d := NatToString(if n < 0 then -n else n);
    ParseUnsignedOfNatToString(if n < 0 then -n else n);
    assert !IsSpace(d[|d| - 1]);
    StripOfUnspaced(s);
    if n < 0 {
      assert s[1..] == d;
    }
  }

  /** The digits of a natural number read back as that number. */
  lemma ParseUnsignedOfNatToString(m: nat)
    ensures ParseUnsigned(NatToString(m)) == Some(m)
  {
    DigitsValueOfNatToString(m);
  }

  // ---------------------------------------------------------------------
  // Substring search, split and join
  // ---------------------------------------------------------------------

  predicate OccursAt(s: string, sub: string, i: nat) {
    i + |sub| <= |s| && s[i..i + |sub|] == sub
  }

  /** Python `s.find(sub)`, with `None` for -1; `FindSpec` states what it finds. */
  function Find(s: string, sub: string): (r: Option<nat>)
    ensures r.Some? ==> r.value + |sub| <= |s|
    decreases |s|
  {
    if |s| < |sub| then None
    else if s[..|sub|] == sub then Some(0)
    else
      match Find(s[1..], sub)
      case None => None
      case Some(k) => Some(k + 1)
  }

  /** `Find` returns the first occurrence, and `None` only when there is none. */
  lemma {:induction false} FindSpec(s: string, sub: string)
    ensures Find(s, sub).Some? ==> OccursAt(s, sub, Find(s, sub).value)
    ensures Find(s, sub).Some? ==> forall j: nat :: j < Find(s, sub).value ==> !OccursAt(s, sub, j)
    ensures Find(s, sub).None? ==> forall j: nat :: !OccursAt(s, sub, j)
    decreases |s|
  {
    if |s| >= |sub| && s[..|sub|] != sub {
      FindSpec(s[1..], sub);
      assert forall j: nat :: 1 <= j ==> OccursAt(s, sub, j) == OccursAt(s[1..], sub, j - 1);
    }
  }

  /** Python `sub in s`. */
  predicate Contains(s: string, sub: string) {
    Find(s, sub).Some?
  }

  /** Python `s.split(sep)` for a non-empty separator. */
  function Split(s: string, sep: string): (r: seq<string>)
    requires |sep| > 0
    ensures |r| >= 1
    ensures Find(s, sep).None? <==> |r| == 1
    decreases |s|
  {
    match Find(s, sep)
    case None => [s]
    case Some(i) => [s[..i]] + Split(s[i + |sep|..], sep)
  }

  /** Python `sep.join(parts)`. */
  function Join(parts: seq<string>, sep: string): string {
    if |parts| == 0 then ""
    else if |parts| == 1 then parts[0]
    else parts[0] + sep + Join(parts[1..], sep)
  }

  /** An optional position moved `d` places to the right. */
  function Shift(o: Option<nat>, d: nat): Option<nat> {
    match o
    case None => None
    case Some(k) => Some(k + d)
  }

  /**
   * Searching a text whose prefix cannot start an occurrence (no character
   * of the prefix equals the first character of `sub`) finds the same
   * occurrence as searching the rest, shifted by the prefix length.
   */
  lemma {:induction false} FindPastPrefix(p: string, rest: string, sub: string)
    requires |sub| > 0
    requires forall i :: 0 <= i < |p| ==> p[i] != sub[0]
    ensures Find(p + rest, sub) == Shift(Find(rest, sub), |p|)
  {
    if |p| > 0 {
      var s := p + rest;
      assert s[0] == p[0];
      if |s| >= |sub| {
        assert s[..|sub|] != sub by { assert s[..|sub|][0] == p[0]; }
        assert s[1..] == p[1..] + rest;
        FindPastPrefix(p[1..], rest, sub);
        assert Find(s, sub) == Shift(Find(s[1..], sub), 1);
      } else {
        assert Find(rest, sub) == None;
      }
    } else {
      assert p + rest == rest;
    }
  }

  /** A text none of whose characters can start `sub` does not contain it. */
  lemma {:induction false} FindAbsent(p: string, sub: string)
    requires |sub| > 0
    requires forall i :: 0 <= i < |p| ==> p[i] != sub[0]
    ensures Find(p, sub).None?
  {
    if |p| >= |sub| {
      assert p[..|sub|][0] == p[0];
      FindAbsent(p[1..], sub);
    }
  }

  /** Splitting a text that cannot contain the separator gives the text alone. */
  lemma SplitAbsent(p: string, sep: string)
    requires |sep| > 0
    requires forall i :: 0 <= i < |p| ==> p[i] != sep[0]
    ensures Split(p, sep) == [p]
  {
    FindAbsent(p, sep);
  }

  lemma FindAtStart(sub: string, rest: string)
    ensures Find(sub + rest, sub) == Some(0)
  {
    assert (sub + rest)[..|sub|] == sub;
  }

  /** Splitting on a one-character separator undoes joining on it. */
  lemma {:induction false} SplitJoin(parts: seq<string>, c: char)
    requires |parts| >= 1
    requires forall k, i :: 0 <= k < |parts| && 0 <= i < |parts[k]| ==> parts[k][i] != c
    ensures Split(Join(parts, [c]), [c]) == parts
  {
    if |parts| == 1 {
      FindPastPrefix(parts[0], "", [c]);
      assert parts[0] + "" == parts[0];
    } else {
      var tail := Join(parts[1..], [c]);
      var s := parts[0] + [c] + tail;
      assert s == parts[0] + ([c] + tail);
      FindPastPrefix(parts[0], [c] + tail, [c]);
      FindAtStart([c], tail);
      assert s[..|parts[0]|] == parts[0];
      assert s[|parts[0]| + 1..] == tail;
      SplitJoin(parts[1..], c);
    }
  }

  /** A first occurrence stays the first one when text is appended. */
  lemma FindExtend(a: string, b: string, sub: string)
    requires Find(a, sub).Some?
    ensures Find(a + b, sub) == Find(a, sub)
  {
    var i := Find(a, sub).value;
    FindSpec(a, sub);
    assert (a + b)[i..i + |sub|] == a[i..i + |sub|];
    forall j: nat | j < i
      ensures !OccursAt(a + b, sub, j)
    {
      assert !OccursAt(a, sub, j);
      assert (a + b)[j..j + |sub|] == a[j..j + |sub|];
    }
    FindFirst(a + b, sub, i);
  }

  /** An occurrence with none before it is the one `Find` returns. */
  lemma FindFirst(s: string, sub: string, i: nat)
    requires OccursAt(s, sub, i)
    requires forall j: nat :: j < i ==> !OccursAt(s, sub, j)
    ensures Find(s, sub) == Some(i)
  {
    FindSpec(s, sub);
  }

  /**
   * Splitting a text that starts with a separator-free head followed by the
   * separator yields the head, then the pieces of the remainder.
   */
  lemma SplitHead(p: string, rest: string, sep: string)
    requires |sep| > 0
    requires forall i :: 0 <= i < |p| ==> p[i] != sep[0]
    ensures Split(p + sep + rest, sep) == [p] + Split(rest, sep)
  {
    var s := p + sep + rest;
    assert s == p + (sep + rest);
    FindPastPrefix(p, sep + rest, sep);
    FindAtStart(sep, rest);
    assert s[..|p|] == p;
    assert s[|p| + |sep|..] == rest;
  }

  /** The first piece of a split begins with any separator-free head of the text. */
  lemma SplitFirstKeepsHead(p: string, rest: string, sep: string)
    requires |sep| > 0
    requires forall i :: 0 <= i < |p| ==> p[i] != sep[0]
    ensures |p| <= |Split(p + rest, sep)[0]| && Split(p + rest, sep)[0][..|p|] == p
  {
    FindPastPrefix(p, rest, sep);
    var s := p + rest;
    FirstPiece(s, sep);
    assert s[..|p|] == p;
  }

  /** The first piece of a split is the text up to the first separator, or all of it. */
  lemma FirstPiece(s: string, sep: string)
    requires |sep| > 0
    ensures Find(s, sep).Some? ==> Split(s, sep)[0] == s[..Find(s, sep).value]
    ensures Find(s, sep).None? ==> Split(s, sep) == [s]
  {
  }

  /** Decimal renderings consist of digits and possibly a leading minus sign. */
  lemma IntToStringChars(n: int)
    ensures |IntToString(n)| > 0
    ensures forall i :: 0 <= i < |IntToString(n)| ==> IsDigit(IntToString(n)[i]) || IntToString(n)[i] == '-'
    ensures IsDigit(IntToString(n)[|IntToString(n)| - 1])
  {
  }

  /** Stripping a space-free text with one leading space gives the text back. */
  lemma StripLeadingSpace(d: string)
    requires |d| > 0 && !IsSpace(d[0]) && !IsSpace(d[|d| - 1])
    ensures Strip(" " + d) == d
  {
    assert (" " + d)[1..] == d;
  }

  /** When the text's first separator ends `a + sep`, the pieces are `a` then those of the rest. */
  lemma SplitAfterFirst(a: string, sep: string, tail: string)
    requires |sep| > 0
    requires Find(a + sep, sep) == Some(|a|)
    ensures Split(a + sep + tail, sep) == [a] + Split(tail, sep)
  {
    var s := a + sep + tail;
    FindExtend(a + sep, tail, sep);
    assert s[..|a|] == a;
    assert s[|a| + |sep|..] == tail;
  }

  /**
   * The first piece of splitting `d + c + rest` on `sep`, split again on the
   * one-character separator `c`, is `d`, provided neither `d` nor `c` can
   * start `sep` and `d` does not contain `c`.
   */
  lemma FirstFieldOf(d: string, c: char, rest: string, sep: string)
    requires |sep| > 0 && c != sep[0]
    requires forall i :: 0 <= i < |d| ==> d[i] != sep[0] && d[i] != c
    ensures Split(Split(d + [c] + rest, sep)[0], [c])[0] == d
  {
    var head := d + [c];
    assert d + [c] + rest == head + rest;
    assert forall i :: 0 <= i < |head| ==> head[i] != sep[0];
    SplitFirstKeepsHead(head, rest, sep);
    FieldBeforeChar(d, c, Split(head + rest, sep)[0]);
  }

  /** A text starting with `d` and then `c`, where `d` has no `c`, splits on `c` into `d` first. */
  lemma FieldBeforeChar(d: string, c: char, h: string)
    requires forall i :: 0 <= i < |d| ==> d[i] != c
    requires |d| + 1 <= |h| && h[..|d| + 1] == d + [c]
    ensures Split(h, [c])[0] == d
  {
    var x := h[|d| + 1..];
    assert h == d + [c] + x by {
      assert h == h[..|d| + 1] + x;
    }
    SplitHead(d, x, [c]);
  }

  /**
   * The field between the first `sep` and the next `c`, when the first `sep`
   * ends `a + sep` and is followed by the field `d` and then `c` or the end.
   */
  lemma FieldAfterFirst(a: string, sep: string, d: string, c: char, rest: string)
    requires |sep| > 0 && c != sep[0]
    requires Find(a + sep, sep) == Some(|a|)
    requires forall i :: 0 <= i < |d| ==> d[i] != sep[0] && d[i] != c
    ensures Contains(a + sep + d, sep) && Contains(a + sep + d + [c] + rest, sep)
    ensures Split(Split(a + sep + d, sep)[1], [c])[0] == d
    ensures Split(Split(a + sep + d + [c] + rest, sep)[1], [c])[0] == d
  {
    FindExtend(a + sep, d, sep);
    SplitAfterFirst(a, sep, d);
    SplitAbsent(d, sep);
    SplitAbsent(d, [c]);
    var tail := d + [c] + rest;
    assert a + sep + d + [c] + rest == a + sep + tail;
    FindExtend(a + sep, tail, sep);
    SplitAfterFirst(a, sep, tail);
    FirstFieldOf(d, c, rest, sep);
  }
}

=== FILE: sorting.dfy ===
/**
 * Python's `list.sort(key=..., reverse=...)` on a numeric key: a stable
 * sort, so items with equal keys keep their order, in either direction.
 * Keys may be minus infinity, which `float('-inf')` stands for.
 */
module Sorting {
  import opened Collections

  /** A sort key: minus infinity or a number. */
  datatype Score = NegInf | Val(v: real)

  predicate Below(a: Score, b: Score) {
    match a
    case NegInf => b.Val?
    case Val(x) => b.Val? && x < b.v
  }

  /** `a` goes strictly before `b`: the larger first when descending, the smaller otherwise. */
  predicate Ahead(a: Score, b: Score, desc: bool) {
    if desc then Below(b, a) else Below(a, b)
  }

  lemma AheadIsStrictOrder(a: Score, b: Score, c: Score, desc: bool)
    ensures !Ahead(a, a, desc)
    ensures Ahead(a, b, desc) ==> !Ahead(b, a, desc)
    ensures Ahead(a, b, desc) && Ahead(b, c, desc) ==> Ahead(a, c, desc)
    ensures !Ahead(a, b, desc) && !Ahead(b, a, desc) ==> a == b
  {
  }

  /** No item is followed by one that should go before it. */
  predicate Ordered<T>(s: seq<T>, key: T -> Score, desc: bool) {
    forall i, j :: 0 <= i < j < |s| ==> !Ahead(key(s[j]), key(s[i]), desc)
  }

  /** The items of `s` with key `k`, in order. */
  function Tied<T>(s: seq<T>, key: T -> Score, k: Score): (r: seq<T>)
    ensures |r| <= |s|
  {
    if |s| == 0 then []
    else (if key(s[0]) == k then [s[0]] else []) + Tied(s[1..], key, k)
  }

  lemma {:induction false} TiedAppend<T>(a: seq<T>, b: seq<T>, key: T -> Score, k: Score)
    ensures Tied(a + b, key, k) == Tied(a, key, k) + Tied(b, key, k)
  {
    if |a| == 0 {
      assert a + b == b;
    } else {
      var h := if key(a[0]) == k then [a[0]] else [];
      assert (a + b)[0] == a[0];
      assert (a + b)[1..] == a[1..] + b;
      assert Tied(a + b, key, k) == h + Tied(a[1..] + b, key, k);
      TiedAppend(a[1..], b, key, k);
      assert Tied(a, key, k) == h + Tied(a[1..], key, k);
      Associative(h, Tied(a[1..], key, k), Tied(b, key, k));
    }
  }

  /** `x` placed before the first item it goes ahead of. */
  function Insert<T>(x: T, s: seq<T>, key: T -> Score, desc: bool): (r: seq<T>)
    ensures |r| == |s| + 1
    ensures multiset(r) == multiset(s) + multiset{x}
  {
    if |s| == 0 then [x]
    else if Ahead(key(x), key(s[0]), desc) then [x] + s
    else
      assert s == [s[0]] + s[1..];
      [s[0]] + Insert(x, s[1..], key, desc)
  }

  lemma {:induction false} InsertKeepsOrder<T>(x: T, s: seq<T>, key: T -> Score, desc: bool)
    requires Ordered(s, key, desc)
    ensures Ordered(Insert(x, s, key, desc), key, desc)
  {
    if |s| > 0 {
      if Ahead(key(x), key(s[0]), desc) {
        var r := [x] + s;
        forall i, j | 0 <= i < j < |r| ensures !Ahead(key(r[j]), key(r[i]), desc) {
          if i == 0 {
            AheadIsStrictOrder(key(x), key(s[0]), key(s[j - 1]), desc);
            AheadIsStrictOrder(key(s[j - 1]), key(s[0]), key(x), desc);
          }
        }
      } else {
        InsertKeepsOrder(x, s[1..], key, desc);
        var t := Insert(x, s[1..], key, desc);
        var r := [s[0]] + t;
        forall i, j | 0 <= i < j < |r| ensures !Ahead(key(r[j]), key(r[i]), desc) {
          if i == 0 {
            assert r[j] == t[j - 1];
            assert t[j - 1] in multiset(s[1..]) + multiset{x};
            if t[j - 1] in multiset(s[1..]) {
              var m :| 0 <= m < |s[1..]| && s[1..][m] == t[j - 1];
              assert s[m + 1] == t[j - 1];
            }
          }
        }
      }
    }
  }

  /** In an ordered list, everything after an item `x` goes ahead of is also behind `x`. */
  lemma AheadOfOrdered<T>(x: T, s: seq<T>, key: T -> Score, desc: bool)
    requires Ordered(s, key, desc) && |s| > 0 && Ahead(key(x), key(s[0]), desc)
    ensures forall i :: 0 <= i < |s| ==> Ahead(key(x), key(s[i]), desc)
  {
    forall i | 0 <= i < |s| ensures Ahead(key(x), key(s[i]), desc) {
      if i > 0 {
        AheadIsStrictOrder(key(x), key(s[0]), key(s[i]), desc);
        AheadIsStrictOrder(key(s[0]), key(s[i]), key(x), desc);
      }
    }
  }

  lemma TiedSingle<T>(x: T, key: T -> Score, k: Score)
    ensures Tied([x], key, k) == if key(x) == k then [x] else []
  {
    assert [x][1..] == [];
  }

  lemma TiedNone<T>(s: seq<T>, key: T -> Score, k: Score)
    requires forall i :: 0 <= i < |s| ==> key(s[i]) != k
    ensures Tied(s, key, k) == []
  {
  }

  /** Insertion puts `x` after every item with its key already in the list. */
  lemma {:induction false} InsertIsStable<T>(x: T, s: seq<T>, key: T -> Score, desc: bool, k: Score)
    requires Ordered(s, key, desc)
    ensures Tied(Insert(x, s, key, desc), key, k)
         == Tied(s, key, k) + (if key(x) == k then [x] else [])
  {
    TiedSingle(x, key, k);
    if |s| == 0 {
      assert Insert(x, s, key, desc) == [x];
      assert Tied(s, key, k) == [];
    } else if Ahead(key(x), key(s[0]), desc) {
      InsertAheadIsStable(x, s, key, desc, k);
    } else {
      OrderedTail(s, key, desc);
      InsertIsStable(x, s[1..], key, desc, k);
      InsertBehindStep(x, s, key, desc, k);
    }
  }

  /** The inductive step of `InsertIsStable` when `x` goes behind the first item. */
  lemma InsertBehindStep<T>(x: T, s: seq<T>, key: T -> Score, desc: bool, k: Score)
    requires |s| > 0 && !Ahead(key(x), key(s[0]), desc)
    requires Tied(Insert(x, s[1..], key, desc), key, k)
          == Tied(s[1..], key, k) + (if key(x) == k then [x] else [])
    ensures Tied(Insert(x, s, key, desc), key, k)
         == Tied(s, key, k) + (if key(x) == k then [x] else [])
  {
    var rest := Insert(x, s[1..], key, desc);
    var own := if key(x) == k then [x] else [];
    assert Insert(x, s, key, desc) == [s[0]] + rest;
    InsertBehindIsStable(s, rest, key, k);
    Associative(Tied([s[0]], key, k), Tied(s[1..], key, k), own);
  }

  lemma OrderedTail<T>(s: seq<T>, key: T -> Score, desc: bool)
    requires Ordered(s, key, desc) && |s| > 0
    ensures Ordered(s[1..], key, desc)
  {
    forall i, j | 0 <= i < j < |s[1..]| ensures !Ahead(key(s[1..][j]), key(s[1..][i]), desc) {
      assert s[1..][j] == s[j + 1] && s[1..][i] == s[i + 1];
    }
  }

  lemma InsertAheadIsStable<T>(x: T, s: seq<T>, key: T -> Score, desc: bool, k: Score)
    requires Ordered(s, key, desc) && |s| > 0 && Ahead(key(x), key(s[0]), desc)
    ensures Tied([x] + s, key, k) == Tied(s, key, k) + (if key(x) == k then [x] else [])
  {
    TiedSingle(x, key, k);
    AheadOfOrdered(x, s, key, desc);
    AheadIsStrictOrder(key(x), key(x), key(x), desc);
    if key(x) == k {
      TiedNone(s, key, k);
    }
    TiedAppend([x], s, key, k);
  }

  lemma InsertBehindIsStable<T>(s: seq<T>, rest: seq<T>, key: T -> Score, k: Score)
    requires |s| > 0
    ensures Tied([s[0]] + rest, key, k) == Tied([s[0]], key, k) + Tied(rest, key, k)
    ensures Tied(s, key, k) == Tied([s[0]], key, k) + Tied(s[1..], key, k)
  {
    TiedAppend([s[0]], rest, key, k);
    TiedAppend([s[0]], s[1..], key, k);
    assert [s[0]] + s[1..] == s;
  }

  /** Python's stable sort: items taken in order, each inserted after its equals. */
  function Sort<T>(s: seq<T>, key: T -> Score, desc: bool): (r: seq<T>)
    ensures |r| == |s|
    ensures multiset(r) == multiset(s)
  {
    if |s| == 0 then []
    else
      assert s == s[..|s| - 1] + [s[|s| - 1]];
      Insert(s[|s| - 1], Sort(s[..|s| - 1], key, desc), key, desc)
  }

  lemma {:induction false} SortIsOrdered<T>(s: seq<T>, key: T -> Score, desc: bool)
    ensures Ordered(Sort(s, key, desc), key, desc)
  {
    if |s| > 0 {
      SortIsOrdered(s[..|s| - 1], key, desc);
      InsertKeepsOrder(s[|s| - 1], Sort(s[..|s| - 1], key, desc), key, desc);
    }
  }

  /** Items with equal keys come out in the order they went in. */
  lemma {:induction false} SortIsStable<T>(s: seq<T>, key: T -> Score, desc: bool, k: Score)
    ensures Tied(Sort(s, key, desc), key, k) == Tied(s, key, k)
  {
    if |s| > 0 {
      var init := s[..|s| - 1];
      var x := s[|s| - 1];
      SortIsStable(init, key, desc, k);
      SortStep(s, key, desc, k);
      TiedAppend(init, [x], key, k);
      TiedSingle(x, key, k);
      assert init + [x] == s;
    }
  }

  /** Sorting one more item adds it after the sorted items of equal key. */
  lemma SortStep<T>(s: seq<T>, key: T -> Score, desc: bool, k: Score)
    requires |s| > 0
    ensures Tied(Sort(s, key, desc), key, k)
         == Tied(Sort(s[..|s| - 1], key, desc), key, k) + (if key(s[|s| - 1]) == k then [s[|s| - 1]] else [])
  {
    var init := s[..|s| - 1];
    SortIsOrdered(init, key, desc);
    InsertIsStable(s[|s| - 1], Sort(init, key, desc), key, desc, k);
  }
}

=== FILE: webapp.dfy ===
/**
 * The table browser's query endpoint: which tables may be read, how the
 * page and page size become a LIMIT and OFFSET, and how many pages the
 * reply announces. The SQL itself is a parameter: its answer (the rows
 * and the total count, or a failure) is passed in.
 */
module WebApp {
  import opened Wrappers
  import opened PyText
  import opened Json
  import opened Arith

  /** The tables the browser may read. */
  const AllowedTables: set<string> := {
    "players", "factions", "player_stats_history", "faction_history",
    "war_status_history", "territory_ownership_history",
    "player_stats_summary", "faction_summary", "war_summary",
    "territory_ownership_summary", "competitions", "competition_participants",
    "competition_teams", "competition_start_stats", "competition_stats"}

  predicate Allowed(table: string) {
    table in AllowedTables
  }

  const MinLimit := 1
  const MaxLimit := 200
  const DefaultLimit := 50

  /** A row as the endpoint returns it: column name to value, in column order. */
  type Row = seq<(string, Json)>

  /** The HTTP reply of the endpoint. */
  datatype Reply =
    | BadRequest(error: ErrorKind)                            // status 400
    | ServerError                                             // status 500
    | Page(rows: seq<Row>, columns: seq<string>, totalCount: int, totalPages: int,
           page: int, offset: int, limit: int)

  /** Why a request is refused with status 400. */
  datatype ErrorKind = BadNumber | TableRequired | TableNotAllowed(table: string)

  /** What the table query answers: the requested rows and the number of rows in the table. */
  datatype Answer = Failed | Answered(rows: seq<Row>, totalCount: int)

  /** `max(1, min(200, limit))`. */
  function ClampLimit(limit: int): (r: int)
    ensures MinLimit <= r <= MaxLimit
    ensures MinLimit <= limit <= MaxLimit ==> r == limit
    ensures limit < MinLimit ==> r == MinLimit
    ensures limit > MaxLimit ==> r == MaxLimit
  {
    if limit < MinLimit then MinLimit else if limit > MaxLimit then MaxLimit else limit
  }

  /** Pages needed for `total` rows, rounding up, and a single page when there are none. */
  function TotalPages(total: int, limit: int): (p: int)
    requires limit >= 1
    ensures total <= 0 ==> p == 1
    ensures total > 0 ==> p >= 1 && (p - 1) * limit < total <= p * limit
  {
    if total > 0 then
      var p := (total + limit - 1) / limit;
      CeilingDivision(total, limit);
      p
    else 1
  }

  lemma CeilingDivision(total: int, limit: int)
    requires total > 0 && limit >= 1
    ensures var p := (total + limit - 1) / limit; p >= 1 && (p - 1) * limit < total <= p * limit
  {
    var n := total + limit - 1;
    var p := n / limit;
    var m := n % limit;
    assert n == p * limit + m && 0 <= m < limit;
    assert p * limit > total - 1;
    assert (p - 1) * limit == p * limit - limit;
  }

  /** The first row of a page, counting pages from 1; pages below 1 give negative offsets. */
  function Offset(page: int, limit: int): int {
    (page - 1) * limit
  }

  /**
   * The announced pages cover the table exactly once: row `k` of `total`
   * lies on exactly one page among 1..TotalPages, the one starting at
   * `Offset` at most `k` and ending after it.
   */
  lemma PagesCoverRows(total: int, limit: int, k: int)
    requires limit >= 1 && 0 <= k < total
    ensures var page := k / limit + 1;
      1 <= page <= TotalPages(total, limit) && Offset(page, limit) <= k < Offset(page, limit) + limit
    ensures forall q :: Offset(q, limit) <= k < Offset(q, limit) + limit ==> q == k / limit + 1
  {
    var d := k / limit;
    DivModUnique(k, limit, d, k % limit);
    assert Offset(d + 1, limit) == d * limit;
    var last := TotalPages(total, limit);
    assert d * limit < last * limit;
    assert d < last by {
      if d >= last {
        MulAtLeast(d - last + 1, limit);
      }
    }
    forall q | Offset(q, limit) <= k < Offset(q, limit) + limit ensures q == d + 1 {
      DivModUnique(k, limit, q - 1, k - Offset(q, limit));
    }
  }

  /** The column names of a row. */
  function Columns(row: Row): (c: seq<string>)
    ensures |c| == |row| && forall i :: 0 <= i < |row| ==> c[i] == row[i].0
  {
    seq(|row|, i requires 0 <= i < |row| => row[i].0)
  }

  /** A request argument as `int()` reads it; the default is used when the argument is absent. */
  function IntArg(arg: Option<string>, default: int): Option<int> {
    match arg
    case None => Some(default)
    case Some(s) => ParseInt(s)
  }

  /**
   * The query endpoint. The page and limit are converted first (a bad
   * number is a 400 even without a table), then a missing table name is
   * refused, the limit is clamped and the offset computed, and the table
   * must be on the list. `answer` is what the database gives for the
   * query that would then run.
   */
  function ApiQuery(table: Option<string>, page: Option<string>, limit: Option<string>, answer: Answer): (r: Reply)
    ensures (IntArg(page, 1).None? || IntArg(limit, DefaultLimit).None?) <==> r == BadRequest(BadNumber)
    ensures r == BadRequest(TableRequired) <==>
      (IntArg(page, 1).Some? && IntArg(limit, DefaultLimit).Some? && table.GetOr("") == "")
    ensures r.BadRequest? && r.error.TableNotAllowed? ==> !Allowed(r.error.table)
    ensures (IntArg(page, 1).Some? && IntArg(limit, DefaultLimit).Some?
             && table.GetOr("") != "" && !Allowed(table.value)) ==> r == BadRequest(TableNotAllowed(table.value))
    ensures r.Page? ==> (
      && table.Some? && Allowed(table.value)
      && answer.Answered?
      && r.rows == answer.rows && r.totalCount == answer.totalCount
      && r.page == IntArg(page, 1).value
      && r.limit == ClampLimit(IntArg(limit, DefaultLimit).value)
      && r.offset == Offset(r.page, r.limit)
      && r.totalPages == TotalPages(r.totalCount, r.limit)
      && (answer.rows == [] ==> r.columns == [])
      && (answer.rows != [] ==> r.columns == Columns(answer.rows[0])))
    ensures (table.Some? && Allowed(table.value) && IntArg(page, 1).Some?
             && IntArg(limit, DefaultLimit).Some?) ==> (r.Page? <==> answer.Answered?)
  {
    var p := IntArg(page, 1);
    var l := IntArg(limit, DefaultLimit);
    if p.None? || l.None? then BadRequest(BadNumber)
    else if table.GetOr("") == "" then BadRequest(TableRequired)
    else if !Allowed(table.value) then BadRequest(TableNotAllowed(table.value))
    else
      var lim := ClampLimit(l.value);
      match answer
      case Failed => ServerError
      case Answered(rows, total) =>
        var columns := if rows == [] then [] else Columns(rows[0]);
        Page(rows, columns, total, TotalPages(total, lim), p.value, Offset(p.value, lim), lim)
  }

  /**
   * Once the numbers read and a table is named, the whitelist alone decides
   * whether the query reaches the database: the request is refused exactly
   * when the table is not listed, whatever the database would answer.
   */
  lemma WhitelistDecides(table: string, page: Option<string>, limit: Option<string>, answer: Answer, other: Answer)
    requires IntArg(page, 1).Some? && IntArg(limit, DefaultLimit).Some? && table != ""
    ensures ApiQuery(Some(table), page, limit, answer).BadRequest? <==> !Allowed(table)
    ensures !Allowed(table) ==> ApiQuery(Some(table), page, limit, answer) == BadRequest(TableNotAllowed(table))
    ensures ApiQuery(Some(table), page, limit, answer).BadRequest? == ApiQuery(Some(table), page, limit, other).BadRequest?
  {
  }
}

=== FILE: wrappers.dfy ===
/** Option and Result datatypes shared by every module of the model. */
module Wrappers {

  /** A value that may be absent: Python's `None` versus a present value. */
  datatype Option<+T> = None | Some(value: T) {

    /** Returns the value, or `default` when absent. */
    function GetOr(default: T): T {
      match this
      case Some(v) => v
      case None => default
    }
  }

  /** The outcome of an operation that can fail with an error value. */
  datatype Result<+R, +E> = Success(value: R) | Failure(error: E) {

    predicate IsFailure() {
      Failure?
    }

    function PropagateFailure<U>(): Result<U, E>
      requires Failure?
    {
      Failure(error)
    }

    function Extract(): R
      requires Success?
    {
      value
    }
  }
}
